=== FILE: README.md ===
# deepin-devicemanager core in Dafny

This project models the deterministic core of deepin-devicemanager, the Deepin
desktop's hardware information tool, and proves properties of that model. It
covers three parts:

- **Record parsing and matching.** It covers how monitors, input devices, audio
  devices and the KLU board's disks, network adapters and panel are filled from
  hwinfo, lshw, xrandr, EDID, D-Bus, TOML and `/proc/bus/input/devices` data.
  This includes the xrandr regular expressions, the aspect ratio computed with
  `gcd`, and the year/week-to-month conversion.
- **The widgets' small state machines.**
  - The detail table (`DetailTreeView`): its row limit, More button, row hiding,
    height rules and text export.
  - The single-device page that fills it.
  - The page selector of the information area.
  - The install/uninstall driver wizard (`PageDriverControl`).
  - The folder chooser (`UrlChooserEdit`).
- **The device-control service's installer (`DriverInstaller`).** This covers
  its dpkg-lock retry counter, the decisions around the apt transaction, and the
  ping summary parse.

One module stands for each C++ class, and each Qt object is a plain record.
Four shared modules support them:

- `Wrappers`: `Option` and `Result`, where `Crash` stands for a null or end()
  dereference, a division by zero or an uncaught exception.
- `QStr`: the `QString` operations the code relies on, `arg` with one string argument among them. `split` keeps empty
  parts. Case mapping covers ASCII letters only and white space the C0/Latin-1
  range only (see "Left out").
- `QDate`: proleptic Gregorian dates as Qt computes them, with years limited to the signed 32-bit range QDate represents (year 0 does not exist); a date outside that range is invalid and formats as the empty string.
- `DeviceBase`: `QMap` lookups. `DeviceBaseInfo::setAttribute` appears as a
  function parameter, because its class is not part of this model.

Inputs come in as parameters: I/O results, process exits, the apt backend's
answers, the dialog's answer, font eliding, `QStorageInfo`, floating-point
results (refresh-rate rounding, `findAspectRatio`) and the board-vendor test.

## Model

Paths are relative to the repository root.

| member | source | states |
|---|---|---|
| DeviceMonitor.Gcd | deepin-devicemanager/src/DeviceManager/DeviceMonitor.cpp:473-485 | For two positive numbers, Euclid's loop returns a positive common divisor that every common divisor divides. |
| DeviceMonitor.GcdSymmetric | deepin-devicemanager/src/DeviceManager/DeviceMonitor.cpp:473-485 | The order of the arguments does not change the result. |
| DeviceMonitor.GcdIsGreatest | deepin-devicemanager/src/DeviceManager/DeviceMonitor.cpp:473-485 | No common divisor of the two numbers exceeds the result. |
| DeviceMonitor.GcdChecked | deepin-devicemanager/src/DeviceManager/DeviceMonitor.cpp:460-462 | A zero width or height from the resolution text is a division by zero (the process crashes); otherwise the result is the gcd. |
| DeviceMonitor.RatioMatch | deepin-devicemanager/src/DeviceManager/DeviceMonitor.cpp:457-458 | A match of `^([\d]*)x([\d]*)(.*)$` gives two digit runs that start the text, joined by `x`, with no line break after them. |
| DeviceMonitor.CaculateScreenRatio | deepin-devicemanager/src/DeviceManager/DeviceMonitor.cpp:454-471 | A resolution that does not match keeps the old ratio. A match crashes exactly when its width or height reads as 0. |
| DeviceMonitor.RatioOfResolution | deepin-devicemanager/src/DeviceManager/DeviceMonitor.cpp:459-469 | With positive W and H and reduced width at most 21, the ratio is "W/g : H/g" for g = gcd(W, H). That pair has the same proportion as W:H and no common divisor above 1. |
| DeviceMonitor.WithAt | deepin-devicemanager/src/DeviceManager/DeviceMonitor.cpp:150-158 | The words kept all contain '@' and come from the input. |
| DeviceMonitor.ListResolutionsIsJoin | deepin-devicemanager/src/DeviceManager/DeviceMonitor.cpp:150-158 | The append loop yields the '@' words joined by ", " and followed by one more ", ", or "" when there are none. |
| DeviceMonitor.SupportResolutionKeepsWordsWithAt | deepin-devicemanager/src/DeviceManager/DeviceMonitor.cpp:147-163 | The supported-resolution text is exactly the space-separated words that contain '@', in order, joined by ", ", with no trailing separator. |
| DeviceMonitor.Wrap32 | deepin-devicemanager/src/DeviceManager/DeviceMonitor.cpp:241-250 | `w * 7 - 1` on a 32-bit int stays in range and equals the true value when that fits. |
| DeviceMonitor.TransWeekToDate | deepin-devicemanager/src/DeviceManager/DeviceMonitor.cpp:241-250 | The text is empty exactly when the year reads as 0 (unreadable or zero) or when moving by 7·week − 1 days, wrapped to 32 bits as a two's-complement build does (overflow is undefined in C++), leaves QDate's year range. |
| DeviceMonitor.TransWeekRollsOver | deepin-devicemanager/src/DeviceManager/DeviceMonitor.cpp:241-250 | The result is the year-month of January 1 plus 7·week − 1 days. It stays in the year while the offset fits and rolls over into the next year once it exceeds the year's length; when that next year lies outside QDate's range the text is empty. |
| DeviceMonitor.TransWeekInsideRange | deepin-devicemanager/src/DeviceManager/DeviceMonitor.cpp:241-250 | A non-zero year at least 5883520 years inside the 32-bit range gives a non-empty date for every week number. |
| DeviceMonitor.TransWeekPastLastYear | deepin-devicemanager/src/DeviceManager/DeviceMonitor.cpp:241-250 | Week 53 of year 2147483647 falls in a year QDate cannot represent, so the text is empty. |
| DeviceMonitor.SetInfoFromHwinfo | deepin-devicemanager/src/DeviceManager/DeviceMonitor.cpp:127-173 | The hwinfo record crashes only through the ratio step. Otherwise: name and model both come from "Model"; vendor from "Vendor"; display input and primary-screen flag through the empty key; size is the parsed "Size" text; serial number from "Serial ID". It stores the '@'-filtered resolution list, the manufacture date and the ratio computed from the current resolution, and records the map. Nothing else changes: current resolution, interface and TOML flag stay as they were. |
| DeviceMonitor.SetInfoFromToml | deepin-devicemanager/src/DeviceManager/DeviceMonitor.cpp:175-202 | TOML data marks the monitor as set by TOML and records its map. Each of the ten setTomlAttribute calls fills its own field: "Type" → model, "Display Input", "Interface Type", "Support Resolution", "Current Resolution", "Display Ratio" → aspect ratio, "Primary Monitor" → primary flag, "Size", "Serial Number", "Product Date" → production week. Name and vendor are untouched. The fix method returned is the one reported for "Product Date", the last call; the other nine are discarded. |
| DeviceMonitor.SetInfoFromSelfDefine | deepin-devicemanager/src/DeviceManager/DeviceMonitor.cpp:204-216 | Name from "Name", vendor from "Vendor", current resolution from "CurResolution", supported resolutions from "SupportResolution", size from "Size" and production week from "Date". Nothing else changes; in particular the record is not added to the other-info list. |
| DeviceMonitor.SetInfoFromEdid | deepin-devicemanager/src/DeviceManager/DeviceMonitor.cpp:218-230 | The name becomes "Monitor " plus the raw EDID vendor, while size, vendor, date, display input and model go through setAttribute with the keys "Size", "Vendor", "Date", "Display Input" and "Model"; the map is recorded and no other field changes. |
| DeviceMonitor.EdidDisplayInputGatesDbus | deepin-devicemanager/src/DeviceManager/DeviceMonitor.cpp:218-239 | After EDID, a D-Bus record sets the current resolution exactly when its name contains the display input EDID set, ignoring case; otherwise the resolution stays as it was. |
| DeviceMonitor.SetInfoFromDbus | deepin-devicemanager/src/DeviceManager/DeviceMonitor.cpp:232-239 | The D-Bus current resolution is taken exactly when the record's name contains the display input, ignoring case. Otherwise nothing changes. |
| DeviceMonitor.DbusWithEmptyInput | deepin-devicemanager/src/DeviceManager/DeviceMonitor.cpp:232-239 | With an empty display input every D-Bus record sets the current resolution. |
| DeviceMonitor.InterfaceMatch | deepin-devicemanager/src/DeviceManager/DeviceMonitor.cpp:408-413 | `^([a-zA-Z]*)-` captures the leading letters exactly when a '-' follows them. No other run of letters followed by '-' starts the line. |
| DeviceMonitor.CaptureInLine | deepin-devicemanager/src/DeviceManager/DeviceMonitor.cpp:429-431 | The greedy match exists exactly when the line has a digit-x-digit. It captures a token that starts at the last such position. |
| DeviceMonitor.FirstCapture | deepin-devicemanager/src/DeviceManager/DeviceMonitor.cpp:429-431 | The match comes from some line. There is none exactly when no line has one. |
| DeviceMonitor.CaptureResolution | deepin-devicemanager/src/DeviceManager/DeviceMonitor.cpp:429-431 | A capture is 1-5 digits, 'x', 1-5 digits. |
| DeviceMonitor.CaptureDropsWidthDigits | deepin-devicemanager/src/DeviceManager/DeviceMonitor.cpp:429-431 | Because the leading `.*` is greedy, "1920x1080" captures "0x1080". |
| DeviceMonitor.CaptureInResolutionLine | deepin-devicemanager/src/DeviceManager/DeviceMonitor.cpp:429-431 | The same greedy capture within a single line. |
| DeviceMonitor.AdjustRate | deepin-devicemanager/src/DeviceManager/DeviceMonitor.cpp:435-442 | The refresh-rate text is unchanged without a board vendor, when it has no letter, or when it starts with a letter. |
| DeviceMonitor.AdjustRateRoundsNumber | deepin-devicemanager/src/DeviceManager/DeviceMonitor.cpp:435-442 | For a rate made of a letter-free number and a unit starting with a letter, a board vendor replaces the number by its rounded-up text and keeps the unit; without one the rate is unchanged. |
| DeviceMonitor.ResolutionText | deepin-devicemanager/src/DeviceManager/DeviceMonitor.cpp:433-447 | The result is the capture alone without a rate. With a rate it is the capture, '@' and the adjusted rate, which is the rate as given when there is no board vendor. |
| DeviceMonitor.SetMainInfoFromXrandr | deepin-devicemanager/src/DeviceManager/DeviceMonitor.cpp:401-452 | The function always reports success and changes only the interface, primary flag and current resolution. The interface comes from the letter prefix, the primary flag is set only under XCB, and the resolution is set only when the regular expression matches: the capture alone without a rate, else the capture, '@' and the adjusted rate. |
| DeviceMonitor.XrandrRoundsRate | deepin-devicemanager/src/DeviceManager/DeviceMonitor.cpp:428-447 | With a board vendor, a rate "<number><unit>" appears in the current resolution as the capture, '@', the rounded-up number and the unit. |
| DeviceMonitor.SetInfoFromXradr | deepin-devicemanager/src/DeviceManager/DeviceMonitor.cpp:252-315 | TOML data blocks xrandr. With an interface already set, the result is false and only an empty current resolution can be filled. A "disconnected" line gives false and no change. Success needs no TOML, no interface and a connected line, and under XCB an EDID. |
| DeviceMonitor.TomlBlocksXrandr | deepin-devicemanager/src/DeviceManager/DeviceMonitor.cpp:255-258 | After TOML data is applied, xrandr returns false and changes nothing. |
| DeviceMonitor.XrandrOnlyOnce | deepin-devicemanager/src/DeviceManager/DeviceMonitor.cpp:260-287 | A second xrandr line after a successful first one returns false and can change only the current resolution. |
| DeviceMonitor.LoadBaseDeviceInfo | deepin-devicemanager/src/DeviceManager/DeviceMonitor.cpp:364-373 | The base rows are labelled Name, Vendor, Type, Display Input and Interface Type, in that order. Each shows the member its label names: Type shows the model and Interface Type the interface. |
| DeviceMonitor.LoadOtherDeviceInfo | deepin-devicemanager/src/DeviceManager/DeviceMonitor.cpp:375-391 | The other rows are labelled Support Resolution, then Current Resolution and Display Ratio exactly when the current resolution is not "@Hz", then Primary Monitor, Size and Serial Number. Each shows the member its label names; Display Ratio shows the aspect ratio. The production date is never shown. |
| DeviceMonitor.SelfDefineShownInRows | deepin-devicemanager/src/DeviceManager/DeviceMonitor.cpp:364-391 | After a self-defined record, the table shows its name and vendor in the base rows, its supported resolutions and size in the other rows, and a Current Resolution row with its value exactly when that value is not "@Hz". The other base rows are unchanged. |
| DeviceInput.LshwKey | deepin-devicemanager/src/DeviceManager/DeviceInput.cpp:72-80 | A key is derived exactly when the bus id splits on ':' into two parts whose first splits on '-' into two, and every key starts with "usb@". |
| DeviceInput.KeyTemplateFirstArg | deepin-devicemanager/src/DeviceManager/DeviceInput.cpp:78 | The first `arg` fills `%1` with A, whatever A holds, and leaves `%2` for the second. |
| DeviceInput.KeyOfPlain | deepin-devicemanager/src/DeviceManager/DeviceInput.cpp:78 | The key starts with "usb@"; for an A without '%' it is "usb@A:B". |
| DeviceInput.LshwKeyOfBusId | deepin-devicemanager/src/DeviceManager/DeviceInput.cpp:72-80 | "A-B:C" gives `"usb@%1:%2".arg(A).arg(B)`, which is "usb@A:B" when A holds no '%'. |
| DeviceInput.LshwKeyRefillsEscape | deepin-devicemanager/src/DeviceManager/DeviceInput.cpp:72-80 | "%1-B:C" gives "usb@B:%2": the second `arg` fills the escape that A brought in. |
| DeviceInput.KeyOfEscape | deepin-devicemanager/src/DeviceManager/DeviceInput.cpp:78 | With A = "%1" the first `arg` gives the template back, so the key is "usb@B:%2". |
| DeviceInput.SetInfoFromlshw | deepin-devicemanager/src/DeviceManager/DeviceInput.cpp:21-45 | The record is accepted exactly when the key equals its bus info, either as is or with "a" read as "10". A rejected record changes nothing. An accepted one keeps the key and records the map, and sets each field from its lshw key: product, vendor, version, bus info, capabilities, description, driver, maxpower, speed. Model and interface are read with the empty key. |
| DeviceInput.BluetoothTest | deepin-devicemanager/src/DeviceManager/DeviceInput.cpp:63-65 | The test dereferences a missing "Model", or a missing "Device" when the model does not name Bluetooth. Otherwise the test is true exactly when either names Bluetooth, ignoring case. |
| DeviceInput.SetInfoFromHwinfo | deepin-devicemanager/src/DeviceManager/DeviceInput.cpp:47-115 | It crashes exactly on a dereferenced end(). The interface is "Bluetooth", else the Hotplug value, else "PS/2". Name, vendor, model, version, bus info, description, driver and speed come from "Device", "Vendor", "Model", "Revision", "SysFS BusID", "Hardware Class", "Driver" and "Speed". Capabilities and maximum power are untouched. The lshw key is derived from the bus id when it has the right shape. The map is recorded. setKLUInfoFromHwinfo (lines 84-115) runs the same statements, so this one member models both. |
| DeviceInput.HwinfoPairsWithLshw | deepin-devicemanager/src/DeviceManager/DeviceInput.cpp:23-30 | After an hwinfo record with bus id "A-B:C", the lshw record whose bus info is that record's key `"usb@%1:%2".arg(A).arg(B)` is accepted. |
| DeviceInput.StripQuotes | deepin-devicemanager/src/DeviceManager/DeviceInput.cpp:191-195 | A quoted value loses its outer quotes. A value without a leading or trailing quote is kept. |
| DeviceInput.PropertyEntry | deepin-devicemanager/src/DeviceManager/DeviceInput.cpp:191-195 | A payload gives an entry exactly when it splits on '=' into two parts. |
| DeviceInput.PropertyEntryOfQuoted | deepin-devicemanager/src/DeviceManager/DeviceInput.cpp:191-195 | `key="value"` gives the entry (key, value). |
| DeviceInput.EventToken | deepin-devicemanager/src/DeviceManager/DeviceInput.cpp:196-200 | A token exists exactly when some "event" is followed by a digit. It is "event" and one or two digits, copied from the last such position, and it takes the second digit exactly when one follows. |
| DeviceInput.EventTokenAtEnd | deepin-devicemanager/src/DeviceManager/DeviceInput.cpp:196-200 | A handler list ending in "event" and one or two digits yields exactly that token. |
| DeviceInput.ApplyDeviceLine | deepin-devicemanager/src/DeviceManager/DeviceInput.cpp:185-201 | No key is lost. A line that does not split on ": " into two parts changes nothing. A key that is added or changed is either "HwinfoKey" from an H line or the parsed key of an N or B line, holding the parsed value. |
| DeviceInput.KeyboardMapInfo | deepin-devicemanager/src/DeviceManager/DeviceInput.cpp:181-203 | Parsing the whole text never drops an existing key. |
| DeviceInput.KeyboardMapInfoFirstLine | deepin-devicemanager/src/DeviceManager/DeviceInput.cpp:184-185 | The first line of the text is applied before the rest of the text. |
| DeviceInput.KeyboardMapInfoLastLine | deepin-devicemanager/src/DeviceManager/DeviceInput.cpp:184-185 | The last line of the text is applied after all the others, so what it stores overwrites earlier lines' entries for the same key. |
| DeviceInput.ApplyDeviceLinesSnoc | deepin-devicemanager/src/DeviceManager/DeviceInput.cpp:185-202 | One more line is applied to the map the earlier lines left. |
| DeviceInput.PropertyLineApplied | deepin-devicemanager/src/DeviceManager/DeviceInput.cpp:191-195 | An N or B line whose payload parses stores the parsed entry, overwriting any earlier value. |
| DeviceInput.PropertyLineWithoutEntry | deepin-devicemanager/src/DeviceManager/DeviceInput.cpp:191-193 | An N or B line whose payload does not split on '=' into two parts adds nothing. |
| DeviceInput.HandlerLineApplied | deepin-devicemanager/src/DeviceManager/DeviceInput.cpp:196-200 | An H line whose payload holds an event token stores it under "HwinfoKey". |
| DeviceInput.HandlerLineWithoutEvent | deepin-devicemanager/src/DeviceManager/DeviceInput.cpp:196-200 | An H line without "event" and a digit adds nothing. |
| DeviceInput.PropertyLineStoresValue | deepin-devicemanager/src/DeviceManager/DeviceInput.cpp:191-195 | `N: key="value"` stores the value, without quotes, under the key. |
| DeviceInput.HandlerLineStoresEvent | deepin-devicemanager/src/DeviceManager/DeviceInput.cpp:196-200 | An `H:` line ending in eventN or eventNN stores that token as "HwinfoKey". |
| DeviceInput.OtherLinesIgnored | deepin-devicemanager/src/DeviceManager/DeviceInput.cpp:185-201 | A line whose tag is not N, B or H adds nothing. |
| DeviceAudio.SetInfoFromHwinfoMap | src/DeviceManager/DeviceAudio.cpp:36-56 | The unique key is the record's "SysFS BusID", or empty when absent. It is appended to the bus ids, the "Unique ID" value to the unique ids, and the map is recorded. Name, vendor, model, bus info, IRQ, memory and description come from "Device", "Vendor", "Model", "SysFS BusID", "IRQ", "Memory Range" and "Hardware Class". Version, width, clock and capabilities are read with the empty key. |
| DeviceAudio.SetInfoFromHwinfoText | src/DeviceManager/DeviceAudio.cpp:11-34 | The unique key is the parsed map's "SysFS BusID". |
| DeviceAudio.HwinfoOverloadsAgree | src/DeviceManager/DeviceAudio.cpp:11-56 | The text overload sets the same fields as the map overload on the parsed map. The map it records differs only by the two keys its operator[] reads, which it inserts if absent. |
| DeviceAudio.HwinfoUniqueKey | src/DeviceManager/DeviceAudio.cpp:28 | Both overloads leave the same unique key, the "SysFS BusID" value. |
| DeviceAudio.LshwBusId | src/DeviceManager/DeviceAudio.cpp:64-67 | A bus id is read exactly when "bus info" splits on '@' into two parts. |
| DeviceAudio.SetInfoFromLshw | src/DeviceManager/DeviceAudio.cpp:58-87 | The record is accepted exactly when the part after '@' is the unique key. A rejected record changes nothing. An accepted one records the map and keeps the unique key and the id lists. It sets name, vendor, version, bus info, width, clock, capabilities and description from product, vendor, version, bus info, width, clock, capabilities and description. Model, IRQ and memory are read with the empty key. |
| DeviceAudio.LshwPairsByBusId | src/DeviceManager/DeviceAudio.cpp:64-70 | An lshw record "bus@id" is accepted exactly by the device whose unique key is id. |
| KLUGenerator.DiskRecord | deepin-devicemanager/src/GenerateDevice/KLUGenerator.cpp:55-92 | The forwarded record keeps every key and now always has a "product", with its old value or empty. |
| KLUGenerator.DiskRecordKeepsOtherFields | deepin-devicemanager/src/GenerateDevice/KLUGenerator.cpp:55-92 | Only "description" and "interface" may differ from the lshw record. |
| KLUGenerator.NonBootDiskUnchanged | deepin-devicemanager/src/GenerateDevice/KLUGenerator.cpp:55-62 | A disk that is not the boot device is forwarded as it was, apart from the inserted "product". |
| KLUGenerator.BootDiskIsUfs | deepin-devicemanager/src/GenerateDevice/KLUGenerator.cpp:62-92 | The boot disk is "Universal Flash Storage". It is UFS 3.1 exactly when both sysfs reads succeed with "true" and "310", and otherwise UFS 3.0. |
| KLUGenerator.NoBootFileMatchesProductless | deepin-devicemanager/src/GenerateDevice/KLUGenerator.cpp:36-43 | Without the boot-device file, a disk with no product is taken for the boot device. |
| KLUGenerator.DiskInfoFromLshw | deepin-devicemanager/src/GenerateDevice/KLUGenerator.cpp:33-97 | No more records come out than went in. Every record with at least two fields comes out rewritten, and when every record has two fields all of them come out. |
| KLUGenerator.DiskInfoFromLshwSources | deepin-devicemanager/src/GenerateDevice/KLUGenerator.cpp:46-58 | Every forwarded record is the rewrite of an input record with at least two fields. |
| KLUGenerator.DiskInfoFromLshwFilterThenRewrite | deepin-devicemanager/src/GenerateDevice/KLUGenerator.cpp:46-95 | The forwarded records are exactly the rewrites of the records with at least two fields, in lshw's order. |
| KLUGenerator.GeneratorNetworkDevice | deepin-devicemanager/src/GenerateDevice/KLUGenerator.cpp:99-131 | Every device comes from a wired record with two fields. It cannot be enabled or uninstalled, and it is always shown. |
| KLUGenerator.AllWiredRecordsKept | deepin-devicemanager/src/GenerateDevice/KLUGenerator.cpp:106-126 | When every record is wired and has two fields, each becomes a device, in order. |
| KLUGenerator.WirelessRecordDropped | deepin-devicemanager/src/GenerateDevice/KLUGenerator.cpp:106-119 | A wireless record, wherever it stands, produces nothing. |
| KLUGenerator.ApplyWifiLine | deepin-devicemanager/src/GenerateDevice/KLUGenerator.cpp:146-159 | A wifi line never removes a key. |
| KLUGenerator.LastWifiLineWins | deepin-devicemanager/src/GenerateDevice/KLUGenerator.cpp:146-159 | A final "key:value" line sets the key to the value, whatever earlier lines said. |
| KLUGenerator.ValueWithColonDropped | deepin-devicemanager/src/GenerateDevice/KLUGenerator.cpp:151-153 | A value containing ':' splits into three parts, so the line is dropped. |
| KLUGenerator.FixChipType | deepin-devicemanager/src/GenerateDevice/KLUGenerator.cpp:188-191 | A chip type not naming HUAWEI in any case is kept. |
| KLUGenerator.FixWifiInfo | deepin-devicemanager/src/GenerateDevice/KLUGenerator.cpp:186-196 | The record gains exactly "Chip Type", "Vendor" and "Type" as keys. |
| KLUGenerator.FixWifiInfoFields | deepin-devicemanager/src/GenerateDevice/KLUGenerator.cpp:188-195 | "Vendor" is HISILICON and "Type" is Wireless network. The chip type is fixed, and unchanged when it does not name HUAWEI. |
| KLUGenerator.FixWifiInfoKeepsOtherFields | deepin-devicemanager/src/GenerateDevice/KLUGenerator.cpp:186-196 | Every other field of the parsed map is kept. |
| KLUGenerator.HuaweiPrefixRemoved | deepin-devicemanager/src/GenerateDevice/KLUGenerator.cpp:187-191 | "HUAWEI" followed by text that does not name it again becomes that text, trimmed ("HUAWEI HI103" gives "HI103"). |
| KLUGenerator.LowerCaseHuaweiKept | deepin-devicemanager/src/GenerateDevice/KLUGenerator.cpp:188-191 | The test ignores case but the removal does not, so "huawei" stays and the text is only trimmed. |
| KLUGenerator.WifiInfoFromFile | deepin-devicemanager/src/GenerateDevice/KLUGenerator.cpp:133-200 | One record comes out exactly when the file is readable and parses into at least three entries, and that record is the fixed map. |
| KLUGenerator.GeneratorMonitorDevice | deepin-devicemanager/src/GenerateDevice/KLUGenerator.cpp:202-217 | The panel starts as a fresh monitor with no interface, ratio or recorded maps. Name, vendor, current and supported resolution, size and date are each the setter's value for its key ("Name", "Vendor", "CurResolution", "SupportResolution", "Size", "Date") in the fixed map, starting from empty. |
| KLUGenerator.FixedPanel | deepin-devicemanager/src/GenerateDevice/KLUGenerator.cpp:204-216 | The panel is the 14-inch 2160x1440@60Hz "LCD" with no vendor. |
| DetailTreeView.FixedHeight | deepin-devicemanager/src/Widget/DetailTreeView.cpp:136 | A fixed height is clamped into [0, QWIDGETSIZE_MAX] and kept when already inside. |
| DetailTreeView.SetRowCount | deepin-devicemanager/src/Widget/DetailTreeView.cpp:104 | A negative count is ignored. Items and hidden flags of the kept rows survive, and nothing else changes. |
| DetailTreeView.SetColumnCount | deepin-devicemanager/src/Widget/DetailTreeView.cpp:105 | A negative count is ignored. Items of the kept columns survive. |
| DetailTreeView.SetRowHidden | deepin-devicemanager/src/Widget/DetailTreeView.cpp:116-126 | hideRow/showRow changes only that row, and ignores an index outside the table. |
| DetailTreeView.SetRowsHidden | deepin-devicemanager/src/Widget/DetailTreeView.cpp:430-444 | A range of hideRow/showRow sets exactly the rows in the range. |
| DetailTreeView.Resize | deepin-devicemanager/src/Widget/DetailTreeView.cpp:103-105 | The new row and column counts hold. Only items inside both bounds remain, unchanged. |
| DetailTreeView.SetColumnAndRow | deepin-devicemanager/src/Widget/DetailTreeView.cpp:99-129 | The result is the resize plus, under a PageTableWidget only, changes to the button and hidden rows. |
| DetailTreeView.SetColumnAndRowButtonRule | deepin-devicemanager/src/Widget/DetailTreeView.cpp:113-128 | Outside an expanded base-board page, the More button appears when rows exceed limit + 1. Otherwise the last row is hidden. |
| DetailTreeView.SetItem | deepin-devicemanager/src/Widget/DetailTreeView.cpp:131-149 | The height is ROW_HEIGHT · min(row + 1, limit + 1), clamped. The item is stored when the cell exists. The overflow rows are hidden, and nothing else changes. |
| DetailTreeView.StoreItem | deepin-devicemanager/src/Widget/DetailTreeView.cpp:139 | The item lands in its cell when the cell exists. Every other cell is kept. |
| DetailTreeView.OverflowHidden | deepin-devicemanager/src/Widget/DetailTreeView.cpp:142-148 | While collapsed, a row at or past the limit is hidden and the last row is shown. Expanded, or below the limit, nothing changes. |
| DetailTreeView.SetItemHidesOverflow | deepin-devicemanager/src/Widget/DetailTreeView.cpp:142-148 | While collapsed, an item at or past the limit hides its row (unless it is the last row), and the last row stays visible. |
| DetailTreeView.Clear | deepin-devicemanager/src/Widget/DetailTreeView.cpp:151-169 | The table has no rows, columns, items or button, so hasExpendInfo is false. Flags, limit and height are kept. |
| DetailTreeView.SetTableHeight | deepin-devicemanager/src/Widget/DetailTreeView.cpp:209-231 | A disabled or unavailable device gives 40. A table not inside PageTableWidget/PageInfo gives -1 and no change. Only the height ever changes. |
| DetailTreeView.TruncDiv | deepin-devicemanager/src/Widget/DetailTreeView.cpp:234-244 | C++ `/` truncates toward zero: the remainder `a - b·q` lies in [0, b) for a non-negative dividend and in (−b, 0] for a negative one. |
| DetailTreeView.SingleDeviceHeight | deepin-devicemanager/src/Widget/DetailTreeView.cpp:234-286 | Up to limit + 1 rows the height is (rows − 1)·ROW_HEIGHT. Beyond that it is ROW_HEIGHT·(limit + 1) when collapsed and ROW_HEIGHT·min(rows, maxRow) when expanded. |
| DetailTreeView.EmptyTableHeight | deepin-devicemanager/src/Widget/DetailTreeView.cpp:270-274 | An empty table returns −ROW_HEIGHT while the widget's height becomes 0. |
| DetailTreeView.SetCurDeviceState | deepin-devicemanager/src/Widget/DetailTreeView.cpp:360-415 | The new state is stored and the rows, items, button and expansion are kept. A disabled or unavailable device is 40 high and shows at most its first row. |
| DetailTreeView.EnabledWithoutButton | deepin-devicemanager/src/Widget/DetailTreeView.cpp:360-415 | An enabled device without the button shows every row but the last. |
| DetailTreeView.EnabledExpandedShowsAll | deepin-devicemanager/src/Widget/DetailTreeView.cpp:360-415 | An enabled, expanded device with the button shows every row after the first. |
| DetailTreeView.ExpandClicked | deepin-devicemanager/src/Widget/DetailTreeView.cpp:423-445 | The expanded flag flips. Rows from the limit up to, but not including, the last are visible exactly when now expanded. The other rows are untouched. |
| DetailTreeView.ExpandTwice | deepin-devicemanager/src/Widget/DetailTreeView.cpp:423-445 | Two clicks restore a collapsed table whose overflow rows were hidden. |
| DetailTreeView.ToString | deepin-devicemanager/src/Widget/DetailTreeView.cpp:324-346 | The text lists cells row by row: column 0 followed by " : ", others by a line break, and empty cells add nothing. |
| DetailTreeView.RowsTextIgnoresHidden | deepin-devicemanager/src/Widget/DetailTreeView.cpp:324-346 | Hidden rows are exported too. |
| DetailTreeView.ClearedText | deepin-devicemanager/src/Widget/DetailTreeView.cpp:151-169 | A cleared table exports as "". |
| PageSingleInfo.LoadDeviceInfo | deepin-devicemanager/src/Page/PageSingleInfo.cpp:51-67 | An empty list leaves the table alone. Otherwise there are n + 1 rows and 2 columns, pair i is in row i, and the last row is untouched. The height and overflow hiding are what setItem gives. |
| PageSingleInfo.FillRows | deepin-devicemanager/src/Page/PageSingleInfo.cpp:60-66 | After the loop every pair is in its row, with the height and hidden rows of the last setItem. |
| PageSingleInfo.FilledStep | deepin-devicemanager/src/Page/PageSingleInfo.cpp:60-66 | One more pair keeps the loop's invariant. |
| PageSingleInfo.SetPairCells | deepin-devicemanager/src/Page/PageSingleInfo.cpp:62-65 | The name goes to column 0 and the value to column 1 of row i. Other rows keep their items. |
| PageSingleInfo.SetPairHeight | deepin-devicemanager/src/Page/PageSingleInfo.cpp:62-65 | The height covers rows 0..i, up to limit + 1 rows. |
| PageSingleInfo.SetPairHidden | deepin-devicemanager/src/Page/PageSingleInfo.cpp:62-65 | Only row i and the last row change visibility, and only while collapsed past the limit. |
| PageSingleInfo.UpdateInfo | deepin-devicemanager/src/Page/PageSingleInfo.cpp:40-49 | The cleared table then holds the first device's base attributes followed by its other attributes. |
| PageSingleInfo.LoadedTableText | deepin-devicemanager/src/Page/PageSingleInfo.cpp:57-66 | Round trip: a table holding the pairs exports "name : value\n" for each pair in order. |
| PageSingleInfo.UpdateThenPrint | deepin-devicemanager/src/Page/PageSingleInfo.cpp:40-67 | Updating the page and exporting its table gives back the device's pairs, base attributes first. |
| PageInfoWidget.UpdateTableList | deepin-devicemanager/src/Page/PageInfoWidget.cpp:48-94 | Exactly the page for the list is visible and current. The old page is cleared first, and the new one gets the label and the list. |
| PageInfoWidget.ListSelection | deepin-devicemanager/src/Page/PageInfoWidget.cpp:53-86 | 0 devices selects the overview, 1 the single page. Several select the board page exactly when the first is a BIOS record, and the multi page otherwise. |
| PageInfoWidget.UpdateTableMap | deepin-devicemanager/src/Page/PageInfoWidget.cpp:96-110 | Only the overview page is visible and current. It gets the map and then its "Overview" and "OS" texts. |
| PageInfoWidget.MapUpdateEnablesList | deepin-devicemanager/src/Page/PageInfoWidget.cpp:26 | After the map overload a current page exists, and the list overload clears the overview first. |
| PageDriverControl.NewDialog | deepin-devicemanager/src/Page/PageDriverControl.cpp:38-72 | A new dialog is on page 0, neither busy nor done, with Cancel on the first button and no requests. |
| PageDriverControl.PackageTipPrecedence | deepin-devicemanager/src/Page/PageDriverControl.cpp:217-233 | A missing file always says "does not exist". An existing non-driver says "not a driver". Then comes the architecture. There is no tip exactly when all checks pass. |
| PageDriverControl.InstallDriverLogical | deepin-devicemanager/src/Page/PageDriverControl.cpp:193-240 | An installation starts only from page 1. Other pages than 0 and 1 do nothing, and the busy/done flags are untouched. |
| PageDriverControl.ChooseFolder | deepin-devicemanager/src/Page/PageDriverControl.cpp:196-211 | A missing folder shows its tip and nothing else. An existing one requests the driver list and moves to page 1, with Next disabled and Back on the first button. |
| PageDriverControl.ChoosePackage | deepin-devicemanager/src/Page/PageDriverControl.cpp:212-239 | A rejected package shows its tip and nothing else. An accepted one removes the buttons, moves to page 2 and requests the installation of that package. |
| PageDriverControl.UninstallDriverLogical | deepin-devicemanager/src/Page/PageDriverControl.cpp:242-252 | The dialog moves to the next page without buttons. It requests uninstallPrinter when a printer vendor is known, and uninstallDriver otherwise. |
| PageDriverControl.SlotBtnNextAsWritten | deepin-devicemanager/src/Page/PageDriverControl.cpp:135-143 | As written, Next always leaves the dialog busy. |
| PageDriverControl.SlotBtnNext | deepin-devicemanager/src/Page/PageDriverControl.cpp:135-143 | Corrected, the dialog is busy exactly when work was started. Otherwise the click does what the written code does. |
| PageDriverControl.SlotProcessEnd | deepin-devicemanager/src/Page/PageDriverControl.cpp:151-170 | The dialog is no longer busy and is done. A device refresh is requested after success, and only the result page's state changes. |
| PageDriverControl.SlotProcessEndPage | deepin-devicemanager/src/Page/PageDriverControl.cpp:156-163 | One page is added and shown next, with an OK button. A dialog with no buttons gets Close as its first action. |
| PageDriverControl.SlotProcessEndText | deepin-devicemanager/src/Page/PageDriverControl.cpp:153-155 | The result text names the operation and its outcome. |
| PageDriverControl.SlotBackPathPage | deepin-devicemanager/src/Page/PageDriverControl.cpp:178-186 | Back returns to page 0 with Next enabled and Cancel wired. The flags and requests are kept. |
| PageDriverControl.BackUndoesChooseFolder | deepin-devicemanager/src/Page/PageDriverControl.cpp:178-211 | Previous after an accepted folder restores the fresh folder page exactly: page 0, Next enabled, Cancel and Next buttons, Cancel wired. Only the cleared tip and the sent driver-list request remain. |
| PageDriverControl.CloseEvent | deepin-devicemanager/src/Page/PageDriverControl.cpp:280-289 | A close is accepted exactly when not busy. Once done, it refreshes once. |
| PageDriverControl.Close | deepin-devicemanager/src/Page/PageDriverControl.cpp:280-289 | A close already under way is not re-entered. Otherwise the dialog ends closed exactly when not busy. |
| PageDriverControl.SlotClose | deepin-devicemanager/src/Page/PageDriverControl.cpp:172-176 | OK closes the dialog exactly when no work is running. |
| PageDriverControl.KeyPress | deepin-devicemanager/src/Page/PageDriverControl.cpp:254-279 | Only Esc or Alt+F4 on a finished, idle dialog closes it, with a refresh from the key handler and one from the close event. Anything else does nothing. |
| PageDriverControl.F4NeedsAlt | deepin-devicemanager/src/Page/PageDriverControl.cpp:260-266 | F4 counts exactly when Alt is held. |
| PageDriverControl.AsWrittenCancelIgnored | deepin-devicemanager/src/Page/PageDriverControl.cpp:142 | As written: Next with a chosen folder that no longer exists shows the tip and starts nothing, yet Cancel then no longer closes. |
| PageDriverControl.CorrectedCancelCloses | deepin-devicemanager/src/Page/PageDriverControl.cpp:130-143 | Corrected: after the same click, the tip is shown and Cancel closes. |
| PageDriverControl.NextKeepsBusyMeansRunning | deepin-devicemanager/src/Page/PageDriverControl.cpp:135-143 | With the correction, "busy" always means a request was sent and the dialog left the choice pages. |
| DriverInstaller.InstallWhileLocked | deepin-devicemanager-server/deepin-devicecontrol/src/drivercontrol/driverinstaller.cpp:48-69 | Corrected: with dpkg locked, the installer retries exactly as often as the counter allows, then emits EC_NULL and finished(false). It still operates and leaves the counter at 0. |
| DriverInstaller.InstallAfterOneRetry | deepin-devicemanager-server/deepin-devicecontrol/src/drivercontrol/driverinstaller.cpp:53-68 | Corrected: one locked answer, then a free one, gives a retry and the operation, and the counter ends at 0. |
| DriverInstaller.Install | deepin-devicemanager-server/deepin-devicecontrol/src/drivercontrol/driverinstaller.cpp:48-69 | Corrected: whenever the operation runs, the counter and the cancel flag are reset. |
| DriverInstaller.AsWrittenLeavesCounterAtOne | deepin-devicemanager-server/deepin-devicecontrol/src/drivercontrol/driverinstaller.cpp:55-58 | As written: the same answers leave the counter at 1. |
| DriverInstaller.AsWrittenWhileLocked | deepin-devicemanager-server/deepin-devicecontrol/src/drivercontrol/driverinstaller.cpp:53-68 | As written, from the timer: locked throughout, it retries up to the limit, gives up and leaves the counter at 1. |
| DriverInstaller.AsWrittenRetriesOnceMore | deepin-devicemanager-server/deepin-devicecontrol/src/drivercontrol/driverinstaller.cpp:53-68 | As written: a call with dpkg locked throughout retries 21 times, one more than MAX_DPKGRUNING_TEST. |
| DriverInstaller.DoOperate | deepin-devicemanager-server/deepin-devicecontrol/src/drivercontrol/driverinstaller.cpp:145-180 | A backend init failure gives EC_NULL. A missing package or version gives EC_NOTFOUND. A null transaction gives EC_NULL. The transaction starts exactly when every step succeeds. |
| DriverInstaller.OnFinished | deepin-devicemanager-server/deepin-devicecontrol/src/drivercontrol/driverinstaller.cpp:183-202 | ExitSuccess reports finished(true) exactly for Success. ExitFailed reports success exactly for an nvidia-driver package with CommitError, and EC_NETWORK exactly for FetchError or CommitError while offline, success first and nothing else. ExitCancelled reports EC_CANCEL. A crash of the network check propagates, and only a failed commit asks it. |
| DriverInstaller.NvidiaOfflineBoth | deepin-devicemanager-server/deepin-devicecontrol/src/drivercontrol/driverinstaller.cpp:190-199 | An offline nvidia commit error is reported both as installed and as a network error. |
| DriverInstaller.CommitErrorOnlineSilent | deepin-devicemanager-server/deepin-devicecontrol/src/drivercontrol/driverinstaller.cpp:190-199 | A failed commit of a package other than an nvidia driver, while online, reports nothing. |
| DriverInstaller.OnProgress | deepin-devicemanager-server/deepin-devicecontrol/src/drivercontrol/driverinstaller.cpp:222-232 | Progress is forwarded exactly when not cancelled. When cancelled, a cancel is requested. |
| DriverInstaller.OnDownloadProgress | deepin-devicemanager-server/deepin-devicecontrol/src/drivercontrol/driverinstaller.cpp:212-220 | Download progress only ever requests a cancel, and does so exactly when cancelled. |
| DriverInstaller.UndoInstall | deepin-devicemanager-server/deepin-devicecontrol/src/drivercontrol/driverinstaller.cpp:71-83 | With a running transaction, undo sets the cancel flag and cancels. Otherwise nothing happens. |
| DriverInstaller.UndoStopsProgress | deepin-devicemanager-server/deepin-devicecontrol/src/drivercontrol/driverinstaller.cpp:212-232 | After undo, no progress is forwarded and both handlers request the cancel. |
| DriverInstaller.Substr3 | deepin-devicemanager-server/deepin-devicecontrol/src/drivercontrol/driverinstaller.cpp:130 | `substr(pos, 3)` throws exactly for a position past the end. Otherwise it returns the next (up to) three characters. |
| DriverInstaller.IsNetworkOnline | deepin-devicemanager-server/deepin-devicecontrol/src/drivercontrol/driverinstaller.cpp:94-143 | A failed ping or fewer than two lines gives false. "Online" requires the second-to-last line to contain "received,". |
| DriverInstaller.ReadsLossAt | deepin-devicemanager-server/deepin-devicecontrol/src/drivercontrol/driverinstaller.cpp:126-138 | The answer is whether atoi of the three characters at 10 past "received," is 0. It crashes when that position is past the line's end. |
| DriverInstaller.NoLossOnline | deepin-devicemanager-server/deepin-devicecontrol/src/drivercontrol/driverinstaller.cpp:125-133 | A summary reading "0% packet loss" means online. |
| DriverInstaller.SomeLossOffline | deepin-devicemanager-server/deepin-devicecontrol/src/drivercontrol/driverinstaller.cpp:125-135 | A single non-zero loss digit means offline. |
| DriverInstaller.ReceivedAtLineEndCrashes | deepin-devicemanager-server/deepin-devicecontrol/src/drivercontrol/driverinstaller.cpp:128-130 | A summary ending right after "received," makes substr throw. |
| DriverInstaller.GetLinesOfTerminated | deepin-devicemanager-server/deepin-devicecontrol/src/drivercontrol/driverinstaller.cpp:113-123 | Reading back lines written with line feeds gives the lines. |
| UrlChooserEdit.NewChooser | deepin-devicemanager/src/Widget/UrlChooserEdit.cpp:33-55 | The shown text, folder path and elided text all start as the home path. |
| UrlChooserEdit.CheckLocalFolder | deepin-devicemanager/src/Widget/UrlChooserEdit.cpp:87-103 | Exactly one signal is sent, true exactly when the storage is valid and on a /dev/ device. The alert and its message are raised exactly when the folder is not local. |
| UrlChooserEdit.ChooseUrl | deepin-devicemanager/src/Widget/UrlChooserEdit.cpp:69-85 | A cancelled dialog keeps the folder and its elided text. A chosen path becomes text() and is shown elided. Exactly one signal is sent, and the alert matches it. |
| UrlChooserEdit.CancelKeepsChoice | deepin-devicemanager/src/Widget/UrlChooserEdit.cpp:76-83 | Choosing and then cancelling leaves the first choice shown and returned. |
| UrlChooserEdit.SignalMatchesAlert | deepin-devicemanager/src/Widget/UrlChooserEdit.cpp:93-102 | The signal just sent is the negation of the alert. |
| QStr.MinEscapeIsLowest | deepin-devicemanager/src/DeviceManager/DeviceInput.cpp:78 | `QString::arg` picks an escape that occurs, and none with a lower number occurs. |
| QStr.SubstituteWithoutEscape | deepin-devicemanager/src/DeviceManager/DeviceInput.cpp:78 | With no escape of the chosen number left, the rest of the text is copied unchanged. |
| QStr.ArgWithoutEscape | deepin-devicemanager/src/DeviceManager/DeviceInput.cpp:78 | A text without escapes passes through `arg` unchanged. |
| QStr.ArgKeepsPlainPrefix | deepin-devicemanager/src/DeviceManager/DeviceInput.cpp:78 | Text before the first '%' is kept. |
| QStr.ArgOfSingleEscape | deepin-devicemanager/src/DeviceManager/DeviceInput.cpp:78 | A text with one escape gets the argument in its place and keeps the rest. |
| QStr.ArgOfTwoEscapes | deepin-devicemanager/src/DeviceManager/DeviceInput.cpp:78 | Of two escapes the lower-numbered is filled and the other is kept as it was. |

## Left out

- Floating point and geometry: the screen size in inches (`parseMonitorSize`, `caculateScreenSize`), `findAspectRatio`, the `ceil` of the refresh rate and the EDID width/height comparisons. Their results are parameters.
- `DeviceBaseInfo` (`setAttribute`, `getOtherMapInfo`, `addFilterKey`, `DeviceBaseInfo::loadOtherDeviceInfo`, the hwinfo map parser) is not part of this model. `setAttribute` is an uninterpreted function parameter, and the other calls are recorded in a list so that their arguments are observable.
- `ROW_HEIGHT` and `QWIDGETSIZE_MAX` come from headers that are not part of this model. The row height is a field of the table, and the widget size maximum is Qt's documented value.
- `Common::boardVendorType`, `qApp->isDXcbPlatform()`, D-Bus, `QStorageInfo`, `QFileDialog`, `QFontMetrics::elidedText` and the apt backend are inputs.
- I/O and processes: the sysfs and proc reads, cat, ping, `lastore-apt-clean`, `netlog.bat`, `usleep` and `QTimer::singleShot`. File contents, exit codes and lock answers are inputs. A scheduled retry is the event `Retry`.
- Painting, tooltips and their timer (`paintEvent`, `slotTimeOut`, `showTips`), `BtnWidget` enter/leave, `setLimitRow`, `slotProcessChange`, widget layout, sizes, icons and translations: they carry no logic the properties depend on.
- `setCommanLinkButton` is modelled only as "the button now exists". Its layout and its lambda's captured references are left out.
- `PageInfoWidget.UpdateTableList`: requires a current page. Before the first update `PageInfoWidget::updateTable` calls `clearWidgets` through a null pointer.
- `PageSingleInfo.UpdateInfo`: requires a non-empty device list, because `PageSingleInfo::updateInfo` reads `lst[0]` unchecked.
- `PageSingleInfo.LoadDeviceInfo`: requires a table whose parent is not a `PageTableWidget`, which is how the page constructs it. The button rules of `setColumnAndRow` are stated separately, in `DetailTreeView.SetColumnAndRowButtonRule`.
- `DeviceMonitor.Gcd`: requires positive arguments, because `a % b` divides by zero. The call from `caculateScreenRatio` with a possible zero is modelled by `GcdChecked`, which reports the crash.
- `DeviceMonitor.Wrap32`: `week * 7 - 1` can overflow a signed int, which C++ leaves undefined. The model assumes the two's-complement wrap a typical build produces. `TransWeekToDate` inherits that assumption for week numbers beyond about 306 million.
- `DeviceMonitor.TransWeekRollsOver`: states the result only for offsets within two years and for a `7 * week - 1` that fits in 32 bits. Larger offsets are covered only by `TransWeekToDate`'s own contract.
- `DeviceMonitor.CaptureResolution`: the regular expression treats only the line feed as a line break, whereas `.` in QRegularExpression also stops at other Unicode line terminators.
- `DriverInstaller.IsNetworkOnline`: its contract states the false cases and what "online" requires. The exact decision is stated in `ReadsLossAt`. `atoi` is modelled only for the three characters read, with no overflow.
- `DriverInstaller.InstallAsWritten`: the retry lambda captures `package` and `version` by reference (`[&]`), and they may no longer exist when the timer fires. The model assumes every retry sees the same package and version.
- `DriverInstaller.DoOperate`: the package's memory (`delete p`) and the transaction's `deleteLater` are left out.
- `PageDriverControl.KeyPress`: the refresh count assumes `isDone` implies the close goes through, as in `PageDriverControl`, where `closeEvent` then calls `slotClose`, whose inner `close()` returns at once.
- `QStr.LowerChar`: maps only the ASCII letters A-Z, whereas `QString::toLower` uses the full Unicode tables. Case-insensitive tests built on it (`DeviceInput.BluetoothTest`, `DeviceMonitor.SetInfoFromDbus`, `KLUGenerator.FixChipType`) differ from Qt on non-ASCII letters.
- `QStr.EscapeAt`: takes only the ASCII digits 0-9 as escape digits, whereas `QChar::digitValue` also accepts other Unicode decimal digits. `QStr.Arg` has no field width or fill character and returns the text unchanged without Qt's warning when it holds no escape.
- `QStr.IsSpace`: covers the C0/Latin-1 white space only, and omits U+1680, U+2000-U+200A, U+2028, U+2029, U+202F, U+205F and U+3000, which `QChar::isSpace` accepts. `Trim`, `Simplified` and `ToInt` differ from Qt on those characters.
- `UrlChooserEdit.CheckLocalFolder`: the alert message's one-second display is a flag and a counter.

## Findings

| source | as written | input that shows it | evidently intended | confidence | as-written member | corrected member |
|---|---|---|---|---|---|---|
| deepin-devicemanager-server/deepin-devicecontrol/src/drivercontrol/driverinstaller.cpp:55-58 | The retry lambda calls `installPackage` first and increments `m_iRuningTestCount` afterwards. The retried attempt still sees the old count, and once it operates (resetting the count to 0) the increment leaves it at 1. | dpkg locked on the first answer and free on the second: the counter ends at 1. Locked throughout, there are 21 retries rather than 20. | Increment before the retried call: at most 20 retries, and the counter is 0 after an operation. | not executed | DriverInstaller.AsWrittenRetriesOnceMore | DriverInstaller.InstallWhileLocked |
| deepin-devicemanager/src/Page/PageDriverControl.cpp:142 | `isDoing` is set after every click on Next, even when validation kept the dialog on the same page. | Next on the folder page while it shows a folder that has since been deleted, then Cancel: the dialog does not close, and neither does the window's own close button. | Mark the dialog busy only when an installation or uninstallation was started. | not executed | PageDriverControl.AsWrittenCancelIgnored | PageDriverControl.CorrectedCancelCloses |

=== FILE: detail_tree_view.dfy ===
/** The two-column detail table (DetailTreeView) with the Qt widget replaced by a
    record: row and column counts, the items present, the hidden rows, the
    More/Collapse button and the fixed height. */
module DetailTreeView {
  /** QWIDGETSIZE_MAX: the largest fixed height a widget accepts. */
  const WIDGET_SIZE_MAX: int := 16777215

  /** The limit m_LimitRow starts with. */
  const LIMIT_ROW: int := 13

  /** The height setTableHeight uses for a disabled or unavailable device. */
  const DISABLED_HEIGHT: int := 40

  /** What the table's parent widget is: a PageTableWidget (whose own parent may
      be a PageInfo of some height, showing one or several devices), or anything
      else. */
  datatype InfoParent = PageInfo(height: int, multi: bool) | NotPageInfo
  datatype Parent = PageTable(baseBoard: bool, overview: bool, info: InfoParent) | OtherParent

  /** `rowHeight` stands for the ROW_HEIGHT macro; `button` is true while the
      More/Collapse button exists; `height` is the fixed height last set. */
  datatype Table = Table(
    rows: nat,
    cols: nat,
    cells: map<(int, int), string>,
    hidden: set<int>,
    expanded: bool,
    button: bool,
    limit: int,
    height: int,
    enabled: bool,
    available: bool,
    rowHeight: int,
    parent: Parent)

  /** The items lie inside the table and only existing rows are hidden. */
  predicate Valid(t: Table) {
    t.rowHeight > 0
    && (forall c :: c in t.cells ==> 0 <= c.0 < t.rows && 0 <= c.1 < t.cols)
    && (forall i :: i in t.hidden ==> 0 <= i < t.rows)
  }

  /** A freshly constructed table under `parent`. */
  function NewTable(rowHeight: int, parent: Parent): (t: Table)
    requires rowHeight > 0
    ensures Valid(t) && t.rows == 0 && !t.button && !t.expanded && t.limit == LIMIT_ROW
  {
    Table(0, 0, map[], {}, false, false, LIMIT_ROW, 0, true, true, rowHeight, parent)
  }

  // ------------------------------------------------------------------
  // Qt primitives
  // ------------------------------------------------------------------

  /** The height a widget ends up with after setFixedHeight(h): negative values
      become 0 and values above QWIDGETSIZE_MAX are cut down to it. */
  function FixedHeight(h: int): (r: int)
    ensures 0 <= r <= WIDGET_SIZE_MAX
    ensures 0 <= h <= WIDGET_SIZE_MAX ==> r == h
  {
    if h < 0 then 0 else if h > WIDGET_SIZE_MAX then WIDGET_SIZE_MAX else h
  }

  /** setRowCount: a negative count is ignored; rows cut off take their items
      and hidden flags with them, new rows are visible. */
  function SetRowCount(t: Table, n: int): (r: Table)
    requires Valid(t)
    ensures Valid(r)
    ensures n >= 0 ==> r.rows == n
    ensures n < 0 ==> r == t
    ensures forall c :: c in t.cells && c.0 < r.rows ==> c in r.cells && r.cells[c] == t.cells[c]
    ensures forall i :: 0 <= i < r.rows ==> (i in r.hidden <==> i in t.hidden)
    ensures r == t.(rows := r.rows, cells := r.cells, hidden := r.hidden)
  {
    if n < 0 then t else t.(rows := n, cells := CellsBelow(t.cells, n), hidden := RowsBelow(t.hidden, n))
  }

  /** The items of the rows before row n. */
  function CellsBelow(cells: map<(int, int), string>, n: int): (r: map<(int, int), string>)
    ensures forall c :: c in r <==> c in cells && c.0 < n
    ensures forall c :: c in r ==> r[c] == cells[c]
  {
    map c | c in cells && c.0 < n :: cells[c]
  }

  /** The rows before row n. */
  function RowsBelow(rows: set<int>, n: int): (r: set<int>)
    ensures forall i :: i in r <==> i in rows && i < n
  {
    set i | i in rows && i < n
  }

  /** setColumnCount: a negative count is ignored; columns cut off take their
      items with them. */
  function SetColumnCount(t: Table, n: int): (r: Table)
    requires Valid(t)
    ensures Valid(r)
    ensures n >= 0 ==> r.cols == n
    ensures n < 0 ==> r == t
    ensures forall c :: c in t.cells && c.1 < r.cols ==> c in r.cells && r.cells[c] == t.cells[c]
    ensures r == t.(cols := r.cols, cells := r.cells)
  {
    if n < 0 then t
    else t.(cols := n, cells := map c | c in t.cells && c.1 < n :: t.cells[c])
  }

  /** hideRow / showRow: an index outside the table is ignored. */
  function SetRowHidden(t: Table, i: int, hiding: bool): (r: Table)
    requires Valid(t)
    ensures Valid(r)
    ensures 0 <= i < t.rows ==> (i in r.hidden <==> hiding)
    ensures forall j :: j != i ==> (j in r.hidden <==> j in t.hidden)
    ensures r == t.(hidden := r.hidden)
  {
    if i < 0 || i >= t.rows then t
    else if hiding then t.(hidden := t.hidden + {i})
    else t.(hidden := t.hidden - {i})
  }

  /** hideRow (or showRow) for every i with lo <= i < hi, as the loops of DetailTreeView do. */
  function SetRowsHidden(t: Table, lo: int, hi: int, hiding: bool): (r: Table)
    requires Valid(t)
    ensures Valid(r)
    ensures forall j :: 0 <= j < t.rows && lo <= j < hi ==> (j in r.hidden <==> hiding)
    ensures forall j :: !(lo <= j < hi) ==> (j in r.hidden <==> j in t.hidden)
    ensures r == t.(hidden := r.hidden)
    decreases hi - lo
  {
    if lo >= hi then t else SetRowsHidden(SetRowHidden(t, lo, hiding), lo + 1, hi, hiding)
  }

  // ------------------------------------------------------------------
  // DetailTreeView operations
  // ------------------------------------------------------------------

  /** setRowCount(row) followed by setColumnCount(column): the items left are
      those inside both new bounds. */
  function Resize(t: Table, row: int, column: int): (r: Table)
    requires Valid(t)
    ensures Valid(r)
    ensures row >= 0 ==> r.rows == row
    ensures column >= 0 ==> r.cols == column
    ensures forall c :: c in r.cells ==> c in t.cells && r.cells[c] == t.cells[c]
    ensures row >= 0 && column >= 0 ==>
              forall c :: c in t.cells && c.0 < row && c.1 < column ==> c in r.cells
    ensures r == t.(rows := r.rows, cols := r.cols, cells := r.cells, hidden := r.hidden)
  {
    SetColumnCount(SetRowCount(t, row), column)
  }

  /** DetailTreeView::setColumnAndRow: the resize, then, when the parent is a
      PageTableWidget, the button and last-row rules. */
  function SetColumnAndRow(t: Table, row: int, column: int): (r: Table)
    requires Valid(t)
    ensures Valid(r)
    ensures r == Resize(t, row, column).(button := r.button, hidden := r.hidden)
    ensures !t.parent.PageTable? ==> r == Resize(t, row, column)
  {
    var s := Resize(t, row, column);
    if !t.parent.PageTable? then s
    else if t.parent.baseBoard && t.expanded then SetRowHidden(s.(button := true), row - 1, false)
    else
      var b := if row > t.limit + 1 then s.(button := true) else s;
      if row <= t.limit + 1 then SetRowHidden(b, row - 1, true) else b
  }

  /** Outside an expanded base-board page, the More button is added when the
      rows exceed limit + 1, and otherwise the last row is hidden; each case
      leaves the other alone. */
  lemma SetColumnAndRowButtonRule(t: Table, row: int, column: int)
    requires Valid(t) && t.parent.PageTable? && !(t.parent.baseBoard && t.expanded)
    requires 0 <= row
    ensures var r := SetColumnAndRow(t, row, column);
            (row > t.limit + 1 ==> r.button)
            && (row <= t.limit + 1 ==> r.button == t.button)
            && (0 < row <= t.limit + 1 ==> row - 1 in r.hidden)
            && (row > t.limit + 1 ==> r.hidden == Resize(t, row, column).hidden)
  {
  }

  /** DetailTreeView::setItem: the height follows the row number up to limit + 1
      rows; the item is stored when the cell exists; while collapsed a row at or
      past the limit is hidden and the last row is shown. */
  function SetItem(t: Table, row: int, column: int, text: string): (r: Table)
    requires Valid(t)
    ensures Valid(r)
    ensures r.height == FixedHeight(t.rowHeight * (if row + 1 < t.limit + 1 then row + 1 else t.limit + 1))
    ensures r.cells == StoreItem(t, row, column, text) && r.hidden == OverflowHidden(t, row)
    ensures r == t.(height := r.height, cells := r.cells, hidden := r.hidden)
  {
    var h := FixedHeight(t.rowHeight * (if row + 1 < t.limit + 1 then row + 1 else t.limit + 1));
    t.(height := h, cells := StoreItem(t, row, column, text), hidden := OverflowHidden(t, row))
  }

  /** The items after setItem: the new one goes in when its cell exists. */
  function StoreItem(t: Table, row: int, column: int, text: string): (m: map<(int, int), string>)
    requires Valid(t)
    ensures forall c :: c in m ==> 0 <= c.0 < t.rows && 0 <= c.1 < t.cols
    ensures 0 <= row < t.rows && 0 <= column < t.cols ==> (row, column) in m && m[(row, column)] == text
    ensures forall c :: c != (row, column) ==> (c in m <==> c in t.cells)
    ensures forall c :: c != (row, column) && c in t.cells ==> m[c] == t.cells[c]
  {
    if 0 <= row < t.rows && 0 <= column < t.cols then t.cells[(row, column) := text] else t.cells
  }

  /** The hidden rows after setItem: while collapsed, hideRow(row) and then
      showRow(rowCount() - 1). */
  function OverflowHidden(t: Table, row: int): (h: set<int>)
    requires Valid(t)
    ensures forall i :: i in h ==> 0 <= i < t.rows
    ensures t.expanded || row < t.limit ==> h == t.hidden
    ensures !t.expanded && t.limit <= row ==>
              (0 <= row < t.rows - 1 ==> row in h) && t.rows - 1 !in h
              && forall k :: k != row && k != t.rows - 1 ==> (k in h <==> k in t.hidden)
  {
    if !t.expanded && row >= t.limit then SetRowHidden(SetRowHidden(t, row, true), t.rows - 1, false).hidden
    else t.hidden
  }

  /** While collapsed, an item at or past the limit hides its row, unless it is
      the last row, and the last row is always left visible. */
  lemma SetItemHidesOverflow(t: Table, row: int, column: int, text: string)
    requires Valid(t) && !t.expanded && 0 <= row < t.rows && t.limit <= row
    ensures var r := SetItem(t, row, column, text);
            (row < t.rows - 1 ==> row in r.hidden) && t.rows - 1 !in r.hidden
  {
  }

  /** DetailTreeView::clear: no rows, no columns, no items, no button. */
  function Clear(t: Table): (r: Table)
    requires Valid(t)
    ensures Valid(r)
    ensures r.rows == 0 && r.cols == 0 && r.cells == map[] && r.hidden == {}
    ensures !HasExpendInfo(r)
    ensures r.expanded == t.expanded && r.limit == t.limit && r.height == t.height
    ensures r.enabled == t.enabled && r.available == t.available && r.parent == t.parent
  {
    var s := SetColumnCount(SetRowCount(t.(cells := map[]), 0), 0);
    s.(button := false)
  }

  /** DetailTreeView::hasExpendInfo: whether the More/Collapse button exists. */
  predicate HasExpendInfo(t: Table) {
    t.button
  }

  /** DetailTreeView::setTableHeight: the value returned and the table after it.
      The branch for at most limit + 1 rows returns (rows - 1) * ROW_HEIGHT as
      computed; the others return height(), the clamped fixed height. */
  function SetTableHeight(t: Table): (r: (int, Table))
    requires Valid(t)
    ensures Valid(r.1)
    ensures !t.enabled || !t.available ==> r.0 == DISABLED_HEIGHT && r.1.height == DISABLED_HEIGHT
    ensures t.enabled && t.available && !(t.parent.PageTable? && t.parent.info.PageInfo?) ==> r == (-1, t)
    ensures r.1 == t.(height := r.1.height)
  {
    if !t.enabled || !t.available then (DISABLED_HEIGHT, t.(height := DISABLED_HEIGHT))
    else if !t.parent.PageTable? || !t.parent.info.PageInfo? then (-1, t)
    else
      var rh := t.rowHeight;
      var maxRow0 := TruncDiv(t.parent.info.height, rh) - 2;
      var maxRow := if t.parent.overview && HasExpendInfo(t) && t.expanded then maxRow0 - 1 else maxRow0;
      var want :=
        if t.parent.baseBoard then (if !t.expanded then rh * (t.limit + 1) else rh * maxRow)
        else if t.parent.info.multi then rh * maxRow
        else if t.rows <= t.limit + 1 then (t.rows - 1) * rh
        else if !t.expanded then rh * (t.limit + 1)
        else rh * Min(t.rows, maxRow);
      var s := t.(height := FixedHeight(want));
      if !t.parent.baseBoard && !t.parent.info.multi && t.rows <= t.limit + 1 then (want, s)
      else (s.height, s)
  }

  /** C++ integer division, which truncates toward zero. */
  function TruncDiv(a: int, b: int): (q: int)
    requires b > 0
    ensures a >= 0 ==> 0 <= a - b * q < b
    ensures a < 0 ==> -b < a - b * q <= 0
  {
    if a >= 0 then a / b else -((-a) / b)
  }

  function Min(a: int, b: int): int {
    if a < b then a else b
  }

  /** The rows a single-device page shows: how many rows the table can take on
      its PageInfo, two fewer than fit its height, one fewer again on an
      expanded overview page with more to show. */
  function MaxRow(t: Table): int
    requires Valid(t) && t.parent.PageTable? && t.parent.info.PageInfo?
  {
    var m := TruncDiv(t.parent.info.height, t.rowHeight) - 2;
    if t.parent.overview && HasExpendInfo(t) && t.expanded then m - 1 else m
  }

  /** The height rules on a single-device page that is not the base board. */
  lemma SingleDeviceHeight(t: Table)
    requires Valid(t) && t.enabled && t.available
    requires t.parent.PageTable? && t.parent.info.PageInfo?
    requires !t.parent.baseBoard && !t.parent.info.multi
    ensures t.rows <= t.limit + 1 ==> SetTableHeight(t).0 == (t.rows - 1) * t.rowHeight
    ensures t.rows > t.limit + 1 && !t.expanded ==>
              SetTableHeight(t).0 == FixedHeight(t.rowHeight * (t.limit + 1))
    ensures t.rows > t.limit + 1 && t.expanded ==>
              SetTableHeight(t).0 == FixedHeight(t.rowHeight * Min(t.rows, MaxRow(t)))
  {
  }

  /** With no rows the height returned is negative, one row height below zero,
      while the height the widget takes is 0. */
  lemma EmptyTableHeight(t: Table)
    requires Valid(t) && t.enabled && t.available && t.rows == 0
    requires t.parent.PageTable? && t.parent.info.PageInfo?
    requires !t.parent.baseBoard && !t.parent.info.multi && t.limit >= 0
    ensures SetTableHeight(t).0 == -t.rowHeight && SetTableHeight(t).1.height == 0
  {
  }

  /** DetailTreeView::setCurDeviceState. A disabled or unavailable device keeps
      only the first row visible; otherwise visibility follows the button and
      the expanded flag. */
  function SetCurDeviceState(t: Table, enable: bool, available: bool): (r: Table)
    requires Valid(t)
    ensures Valid(r)
    ensures r.enabled == enable && r.available == available
    ensures r.rows == t.rows && r.cells == t.cells && r.button == t.button && r.expanded == t.expanded
    ensures !enable || !available ==>
              r.height == DISABLED_HEIGHT
              && (forall i :: 1 <= i < t.rows ==> i in r.hidden)
              && (0 in r.hidden <==> 0 in t.hidden)
  {
    var s := t.(enabled := enable, available := available);
    if !enable || !available then
      SetTableHeight(SetRowsHidden(s, 1, s.rows, true)).1
    else
      var h := SetTableHeight(s).1;
      var a := if h.expanded && HasExpendInfo(h) then SetRowsHidden(h, 1, h.rows, false) else h;
      var b := if !a.expanded && HasExpendInfo(a)
               then SetRowHidden(SetRowsHidden(a, 1, a.limit, false), a.rows - 1, false)
               else a;
      if !HasExpendInfo(b) then SetRowHidden(SetRowsHidden(b, 1, b.rows - 1, false), b.rows - 1, true)
      else b
  }

  /** An enabled device without the button shows every row but the last, which
      is hidden. */
  lemma EnabledWithoutButton(t: Table, enable: bool, available: bool)
    requires Valid(t) && enable && available && !t.button && t.rows > 0
    ensures var r := SetCurDeviceState(t, enable, available);
            (forall i :: 1 <= i < t.rows - 1 ==> i !in r.hidden) && t.rows - 1 in r.hidden
  {
  }

  /** An enabled, expanded device with the button shows every row but the first,
      whose flag is kept. */
  lemma EnabledExpandedShowsAll(t: Table, enable: bool, available: bool)
    requires Valid(t) && enable && available && t.button && t.expanded
    ensures var r := SetCurDeviceState(t, enable, available);
            (forall i :: 1 <= i < t.rows ==> i !in r.hidden) && (0 in r.hidden <==> 0 in t.hidden)
  {
  }

  /** DetailTreeView::expandCommandLinkClicked, the slot of the button's click
      (so the button exists): flip the expanded flag and show (or hide) every
      row from the limit up to, not including, the last. */
  function ExpandClicked(t: Table): (r: Table)
    requires Valid(t) && t.button
    ensures Valid(r) && r.button
    ensures r.expanded == !t.expanded
    ensures forall i :: 0 <= i && t.limit <= i < t.rows - 1 ==> (i in r.hidden <==> !r.expanded)
    ensures forall i :: !(t.limit <= i < t.rows - 1) ==> (i in r.hidden <==> i in t.hidden)
    ensures r == t.(hidden := r.hidden, expanded := r.expanded)
  {
    SetRowsHidden(t.(expanded := !t.expanded), t.limit, t.rows - 1, t.expanded)
  }

  /** Two clicks bring back the flag, and a collapsed table whose overflow rows
      were hidden comes back exactly. */
  lemma ExpandTwice(t: Table)
    requires Valid(t) && t.button && !t.expanded
    requires forall i :: t.limit <= i < t.rows - 1 ==> i in t.hidden
    ensures ExpandClicked(ExpandClicked(t)) == t
  {
    var r := ExpandClicked(ExpandClicked(t));
    assert r.hidden == t.hidden;
  }

  // ------------------------------------------------------------------
  // toString
  // ------------------------------------------------------------------

  /** What one cell adds to toString: its text followed by " : " in column 0 and
      by a line break elsewhere; nothing when the cell holds no item. */
  function CellText(t: Table, i: int, j: int): string {
    if (i, j) in t.cells then t.cells[(i, j)] + (if j == 0 then " : " else "\n") else ""
  }

  /** The first `n` cells of row i, left to right. */
  function RowText(t: Table, i: int, n: nat): string {
    if n == 0 then "" else RowText(t, i, n - 1) + CellText(t, i, n - 1)
  }

  /** The first `n` rows, top to bottom. */
  function RowsText(t: Table, n: nat): string {
    if n == 0 then "" else RowsText(t, n - 1) + RowText(t, n - 1, t.cols)
  }

  /** DetailTreeView::toString: every item, row by row. */
  method ToString(t: Table) returns (s: string)
    ensures s == RowsText(t, t.rows)
  {
    s := "";
    var i := 0;
    while i < t.rows
      invariant 0 <= i <= t.rows
      invariant s == RowsText(t, i)
    {
      var j := 0;
      var line := "";
      while j < t.cols
        invariant 0 <= j <= t.cols
        invariant line == RowText(t, i, j)
      {
        if (i, j) in t.cells {
          var se := if j == 0 then " : " else "\n";
          line := line + (t.cells[(i, j)] + se);
        }
        j := j + 1;
      }
      s := s + line;
      i := i + 1;
    }
  }

  /** Which rows are hidden does not change the text. */
  lemma {:induction false} RowsTextIgnoresHidden(t: Table, h: set<int>, n: nat)
    ensures RowsText(t.(hidden := h), n) == RowsText(t, n)
  {
    if n > 0 {
      RowsTextIgnoresHidden(t, h, n - 1);
      RowTextIgnoresHidden(t, h, n - 1, t.cols);
    }
  }

  lemma {:induction false} RowTextIgnoresHidden(t: Table, h: set<int>, i: int, n: nat)
    ensures RowText(t.(hidden := h), i, n) == RowText(t, i, n)
  {
    if n > 0 {
      RowTextIgnoresHidden(t, h, i, n - 1);
    }
  }

  /** A row without items adds nothing. */
  lemma {:induction false} EmptyRowText(t: Table, i: int, n: nat)
    requires forall j :: 0 <= j < n ==> (i, j) !in t.cells
    ensures RowText(t, i, n) == ""
  {
    if n > 0 {
      EmptyRowText(t, i, n - 1);
    }
  }

  /** A cleared table prints as the empty string. */
  lemma ClearedText(t: Table)
    requires Valid(t)
    ensures RowsText(Clear(t), Clear(t).rows) == ""
  {
  }
}

=== FILE: device_audio.dfy ===
/** A sound card (DeviceAudio): fields from hwinfo, then the lshw record whose bus
    info ends in the same bus id. */
module DeviceAudio {
  import opened QStr
  import opened DeviceBase

  datatype Audio = Audio(
    name: string,
    vendor: string,
    model: string,
    version: string,
    busInfo: string,
    irq: string,
    memory: string,
    width: string,
    clock: string,
    capabilities: string,
    description: string,
    uniqueKey: string,
    /** the arguments of DeviceBaseInfo::addHwinfoUniqueID, in order */
    hwUniqueIds: seq<string>,
    /** the arguments of DeviceBaseInfo::addHwinfoBusID, in order */
    hwBusIds: seq<string>,
    /** every record handed to DeviceBaseInfo::loadOtherDeviceInfo, in order */
    otherInfo: seq<Info>)

  function NewAudio(): Audio {
    Audio("", "", "", "", "", "", "", "", "", "", "", "", [], [], [])
  }

  /** The attribute updates and bookkeeping shared by both hwinfo overloads;
      `recorded` is the map as it stands when loadOtherDeviceInfo receives it. */
  function ApplyHwinfo(a: Audio, info: Info, recorded: Info, attr: Attr): Audio {
    a.(
      name := attr(info, "Device", a.name),
      vendor := attr(info, "Vendor", a.vendor),
      model := attr(info, "Model", a.model),
      version := attr(info, "", a.version),
      busInfo := attr(info, "SysFS BusID", a.busInfo),
      irq := attr(info, "IRQ", a.irq),
      memory := attr(info, "Memory Range", a.memory),
      width := attr(info, "", a.width),
      clock := attr(info, "", a.clock),
      capabilities := attr(info, "", a.capabilities),
      description := attr(info, "Hardware Class", a.description),
      uniqueKey := Get(info, "SysFS BusID"),
      hwUniqueIds := a.hwUniqueIds + [Get(info, "Unique ID")],
      hwBusIds := a.hwBusIds + [Get(info, "SysFS BusID")],
      otherInfo := a.otherInfo + [recorded])
  }

  /** DeviceAudio::setInfoFromHwinfo(const QMap&): the unique key is the record's
      "SysFS BusID" (empty when absent). */
  function SetInfoFromHwinfoMap(a: Audio, info: Info, attr: Attr): (r: Audio)
    ensures r.uniqueKey == Get(info, "SysFS BusID")
    ensures r.hwBusIds == a.hwBusIds + [r.uniqueKey]
    ensures r.otherInfo == a.otherInfo + [info]
    ensures r.hwUniqueIds == a.hwUniqueIds + [Get(info, "Unique ID")]
    ensures r.name == attr(info, "Device", a.name) && r.vendor == attr(info, "Vendor", a.vendor)
            && r.model == attr(info, "Model", a.model)
    ensures r.busInfo == attr(info, "SysFS BusID", a.busInfo) && r.irq == attr(info, "IRQ", a.irq)
            && r.memory == attr(info, "Memory Range", a.memory)
            && r.description == attr(info, "Hardware Class", a.description)
    ensures r.version == attr(info, "", a.version) && r.width == attr(info, "", a.width)
            && r.clock == attr(info, "", a.clock) && r.capabilities == attr(info, "", a.capabilities)
  {
    ApplyHwinfo(a, info, info, attr)
  }

  /** DeviceAudio::setInfoFromHwinfo(const QString&): the text is parsed into a
      fresh map first. That map is not const, so reading "SysFS BusID" and
      "Unique ID" through operator[] inserts them (empty) before the map is handed
      on. */
  function SetInfoFromHwinfoText(a: Audio, text: string, parse: string -> Info, attr: Attr): (r: Audio)
    ensures r.uniqueKey == Get(parse(text), "SysFS BusID")
  {
    var info := parse(text);
    ApplyHwinfo(a, info, Touch(Touch(info, "SysFS BusID"), "Unique ID"), attr)
  }

  /** The text overload sets the same fields as the map overload applied to the
      parsed map; the map it hands on differs only by the two keys it read, which
      it holds with their old value or empty. */
  lemma HwinfoOverloadsAgree(a: Audio, text: string, parse: string -> Info, attr: Attr)
    ensures var t, m := SetInfoFromHwinfoText(a, text, parse, attr), SetInfoFromHwinfoMap(a, parse(text), attr);
            t.(otherInfo := m.otherInfo) == m
    ensures var rec := SetInfoFromHwinfoText(a, text, parse, attr).otherInfo[|a.otherInfo|];
            var info := parse(text);
            rec.Keys == info.Keys + {"SysFS BusID", "Unique ID"}
            && (forall k :: k in info ==> rec[k] == info[k])
            && Get(rec, "SysFS BusID") == Get(info, "SysFS BusID")
  {
    var info := parse(text);
    var t1 := Touch(info, "SysFS BusID");
    var t2 := Touch(t1, "Unique ID");
    assert SetInfoFromHwinfoText(a, text, parse, attr).otherInfo[|a.otherInfo|] == t2;
  }

  /** Both hwinfo overloads leave the same unique key. */
  lemma HwinfoUniqueKey(a: Audio, text: string, parse: string -> Info, attr: Attr)
    ensures SetInfoFromHwinfoText(a, text, parse, attr).uniqueKey
            == SetInfoFromHwinfoMap(a, parse(text), attr).uniqueKey
            == Get(parse(text), "SysFS BusID")
  {
  }

  /** The bus id an lshw "bus info" names: the part after '@', when the value
      splits on '@' into exactly two parts. */
  function LshwBusId(bus: string): (r: seq<string>)
    ensures |r| <= 1
    ensures |r| == 1 <==> |Split(bus, "@")| == 2
  {
    var words := Split(bus, "@");
    if |words| == 2 then [words[1]] else []
  }

  /** DeviceAudio::setInfoFromLshw: the record is taken only when its bus info
      splits on '@' into two parts and the second is the unique key. A rejected
      record changes nothing. */
  function SetInfoFromLshw(a: Audio, text: string, parse: string -> Info, attr: Attr): (r: (bool, Audio))
    ensures r.0 <==> LshwBusId(Get(parse(text), "bus info")) == [a.uniqueKey]
    ensures !r.0 ==> r.1 == a
    ensures r.0 ==> r.1.uniqueKey == a.uniqueKey && r.1.otherInfo == a.otherInfo + [parse(text)]
    ensures r.0 ==> r.1.hwUniqueIds == a.hwUniqueIds && r.1.hwBusIds == a.hwBusIds
    ensures var info := parse(text);
            r.0 ==> r.1.name == attr(info, "product", a.name) && r.1.vendor == attr(info, "vendor", a.vendor)
                    && r.1.version == attr(info, "version", a.version)
                    && r.1.busInfo == attr(info, "bus info", a.busInfo)
    ensures var info := parse(text);
            r.0 ==> r.1.model == attr(info, "", a.model) && r.1.irq == attr(info, "", a.irq)
                    && r.1.memory == attr(info, "", a.memory)
    ensures var info := parse(text);
            r.0 ==> r.1.width == attr(info, "width", a.width) && r.1.clock == attr(info, "clock", a.clock)
                    && r.1.capabilities == attr(info, "capabilities", a.capabilities)
                    && r.1.description == attr(info, "description", a.description)
  {
    var info := parse(text);
    var words := Split(Get(info, "bus info"), "@");
    if |words| != 2 then (false, a)
    else if words[1] != a.uniqueKey then (false, a)
    else
      (true, a.(
        name := attr(info, "product", a.name),
        vendor := attr(info, "vendor", a.vendor),
        model := attr(info, "", a.model),
        version := attr(info, "version", a.version),
        busInfo := attr(info, "bus info", a.busInfo),
        irq := attr(info, "", a.irq),
        memory := attr(info, "", a.memory),
        width := attr(info, "width", a.width),
        clock := attr(info, "clock", a.clock),
        capabilities := attr(info, "capabilities", a.capabilities),
        description := attr(info, "description", a.description),
        otherInfo := a.otherInfo + [info]))
  }

  /** An lshw record whose bus info is "<bus>@<id>", with neither part holding '@',
      is accepted exactly by the device whose unique key is `id`. */
  lemma LshwPairsByBusId(a: Audio, text: string, parse: string -> Info, attr: Attr, bus: string, id: string)
    requires !Contains(bus, "@") && !Contains(id, "@")
    requires Get(parse(text), "bus info") == bus + "@" + id
    ensures SetInfoFromLshw(a, text, parse, attr).0 <==> a.uniqueKey == id
  {
    SplitOnce(bus, '@', id);
  }
}

=== FILE: device_base.dfy ===
/** What the device classes share through DeviceBaseInfo, which is not part
    of this model: the attribute map read from hwinfo/lshw output, and the
    attribute setter, which is passed in as a function. */
module DeviceBase {

  /** A parsed command-output record (QMap<QString, QString>). */
  type Info = map<string, string>

  /** A list of (label, value) rows as shown in the detail table. */
  type Pairs = seq<(string, string)>

  /** The labels of a list of rows, in order. */
  function Labels(rows: Pairs): (ls: seq<string>)
    ensures |ls| == |rows|
    ensures forall i :: 0 <= i < |rows| ==> ls[i] == rows[i].0
  {
    if rows == [] then [] else [rows[0].0] + Labels(rows[1..])
  }

  /** DeviceBaseInfo::setAttribute(mapInfo, key, variable): the new value of
      `variable` given the record, the key and its old value. */
  type Attr = (Info, string, string) -> string

  /** QMap::operator[] on a const map (QMap::value): the stored value, or the
      empty string for a missing key. */
  function Get(m: Info, k: string): string {
    if k in m then m[k] else ""
  }

  /** QMap::operator[] on a non-const map: reading a missing key inserts it with
      the empty string. */
  function Touch(m: Info, k: string): (r: Info)
    ensures r.Keys == m.Keys + {k}
    ensures Get(r, k) == Get(m, k)
    ensures forall x :: x in m ==> r[x] == m[x]
  {
    if k in m then m else m[k := ""]
  }
}

=== FILE: device_input.dfy ===
/** A keyboard, mouse or other input device (DeviceInput): its fields from hwinfo
    and lshw, the key that pairs the two records, and the parse of
    /proc/bus/input/devices text. */
module DeviceInput {
  import opened Wrappers
  import opened QStr
  import opened DeviceBase

  datatype Input = Input(
    name: string,
    vendor: string,
    model: string,
    version: string,
    iface: string,
    busInfo: string,
    capabilities: string,
    description: string,
    driver: string,
    maxPower: string,
    speed: string,
    keyToLshw: string,
    /** every record handed to DeviceBaseInfo::getOtherMapInfo, in order */
    otherInfo: seq<Info>)

  function NewInput(): Input {
    Input("", "", "", "", "", "", "", "", "", "", "", "", [])
  }

  // ------------------------------------------------------------------
  // Pairing hwinfo and lshw records
  // ------------------------------------------------------------------

  /** The template of the lshw key: `QString("usb@%1:%2")`. */
  const KeyTemplate := "usb@%1:%2"

  /** `QString("usb@%1:%2").arg(a).arg(b)`: the second `arg` reads the text the
      first one produced, so an escape inside `a` is filled by `b`. */
  function KeyOf(a: string, b: string): string {
    Arg(Arg(KeyTemplate, a), b)
  }

  /** The first `arg` fills `%1` and keeps `%2`, whatever `a` holds. */
  lemma KeyTemplateFirstArg(a: string)
    ensures Arg(KeyTemplate, a) == "usb@" + a + ":%2"
  {
    assert KeyTemplate == "usb@" + ['%', '1'] + ":" + ['%', '2'] + "";
    ArgOfTwoEscapes("usb@", '1', ":", '2', "", a);
  }

  /** Every key starts with "usb@", and with no '%' in `a` it is "usb@A:B". */
  lemma KeyOfPlain(a: string, b: string)
    ensures StartsWith(KeyOf(a, b), "usb@")
    ensures '%' !in a ==> KeyOf(a, b) == "usb@" + a + ":" + b
  {
    var first := "usb@" + a + ":%2";
    KeyTemplateFirstArg(a);
    assert first[..4] == "usb@";
    ArgKeepsPlainPrefix(first, 4, b);
    if '%' !in a {
      var p := "usb@" + a + ":";
      assert '%' !in p;
      assert first == p + ['%', '2'] + "";
      ArgOfSingleEscape(p, '2', "", b);
    }
  }

  /** The lshw key derived from an hwinfo "SysFS BusID" such as "1-2:1.0": the
      value must split on ':' into two parts and the first of them on '-' into two
      parts A and B; the key is then `QString("usb@%1:%2").arg(A).arg(B)`. */
  function LshwKey(busId: string): (r: Option<string>)
    ensures r.Some? ==> StartsWith(r.value, "usb@")
    ensures r.Some? <==> |Split(busId, ":")| == 2 && |Split(Split(busId, ":")[0], "-")| == 2
  {
    var words := Split(busId, ":");
    if |words| == 2 then
      var chs := Split(words[0], "-");
      if |chs| == 2 then
        KeyOfPlain(chs[0], chs[1]);
        Some(KeyOf(chs[0], chs[1]))
      else None
    else None
  }

  /** A bus id "A-B:C" whose parts hold neither ':' nor '-' gives the key
      `"usb@%1:%2".arg(A).arg(B)`, which is "usb@A:B" when A holds no '%'. */
  lemma LshwKeyOfBusId(a: string, b: string, c: string)
    requires !Contains(a, ":") && !Contains(b, ":") && !Contains(c, ":")
    requires !Contains(a, "-") && !Contains(b, "-")
    ensures LshwKey(a + "-" + b + ":" + c) == Some(KeyOf(a, b))
    ensures '%' !in a ==> LshwKey(a + "-" + b + ":" + c) == Some("usb@" + a + ":" + b)
  {
    var ab := a + "-" + b;
    assert !Contains(ab, ":") by {
      LacksOf(a, '-', b, ':');
    }
    SplitOnce(ab, ':', c);
    SplitOnce(a, '-', b);
    KeyOfPlain(a, b);
  }

  /** A '%' escape in the part before '-' is filled by the part after it: the bus
      id "%1-B:C" gives the key "usb@B:%2", not "usb@%1:B". */
  lemma LshwKeyRefillsEscape(b: string, c: string)
    requires !Contains(b, ":") && !Contains(c, ":") && !Contains(b, "-")
    ensures LshwKey("%1-" + b + ":" + c) == Some("usb@" + b + ":%2")
  {
    var a := "%1";
    assert !Contains(a, ":") && !Contains(a, "-") by {
      LacksChar(a, ':');
      LacksChar(a, '-');
    }
    assert "%1-" + b + ":" + c == a + "-" + b + ":" + c;
    LshwKeyOfBusId(a, b, c);
    KeyOfEscape(b);
  }

  /** With A = "%1" the first `arg` gives the template back. */
  lemma KeyOfEscape(b: string)
    ensures KeyOf("%1", b) == "usb@" + b + ":%2"
  {
    assert Arg(KeyTemplate, "%1") == KeyTemplate by {
      KeyTemplateFirstArg("%1");
      assert "usb@" + "%1" + ":%2" == KeyTemplate;
    }
    KeyTemplateFirstArg(b);
  }

  /** a + [c] + b lacks `d` when a and b lack it and c differs from it. */
  lemma LacksOf(a: string, c: char, b: string, d: char)
    requires !Contains(a, [d]) && !Contains(b, [d]) && c != d
    ensures !Contains(a + [c] + b, [d])
  {
    var s := a + [c] + b;
    forall j | 0 <= j < |s|
      ensures !OccursAt(s, [d], j)
    {
      assert s[j..j + 1] == [s[j]];
      if j < |a| {
        assert a[j..j + 1] == [s[j]];
        if s[j] == d {
          ContainsIff(a, [d], j);
        }
      } else if j > |a| {
        assert b[j - |a| - 1..j - |a|] == [s[j]];
        if s[j] == d {
          ContainsIff(b, [d], j - |a| - 1);
        }
      }
    }
  }

  /** An lshw record belongs to this device when its bus info is the key, or
      becomes the key once every "a" in it is replaced by "10" (a hexadecimal
      port number 10). */
  predicate LshwMatches(key: string, bus: string) {
    key == bus || key == ReplaceAll(bus, "a", "10")
  }

  /** DeviceInput::setInfoFromlshw: a record that does not match changes nothing. */
  function SetInfoFromlshw(d: Input, info: Info, attr: Attr): (r: (bool, Input))
    ensures r.0 <==> LshwMatches(d.keyToLshw, Get(info, "bus info"))
    ensures !r.0 ==> r.1 == d
    ensures r.0 ==> r.1.keyToLshw == d.keyToLshw && r.1.otherInfo == d.otherInfo + [info]
    ensures r.0 ==> r.1.name == attr(info, "product", d.name) && r.1.vendor == attr(info, "vendor", d.vendor)
                    && r.1.version == attr(info, "version", d.version)
    ensures r.0 ==> r.1.model == attr(info, "", d.model) && r.1.iface == attr(info, "", d.iface)
    ensures r.0 ==> r.1.busInfo == attr(info, "bus info", d.busInfo)
                    && r.1.capabilities == attr(info, "capabilities", d.capabilities)
                    && r.1.description == attr(info, "description", d.description)
    ensures r.0 ==> r.1.driver == attr(info, "driver", d.driver) && r.1.maxPower == attr(info, "maxpower", d.maxPower)
                    && r.1.speed == attr(info, "speed", d.speed)
  {
    if !LshwMatches(d.keyToLshw, Get(info, "bus info")) then (false, d)
    else
      (true, d.(
        name := attr(info, "product", d.name),
        vendor := attr(info, "vendor", d.vendor),
        model := attr(info, "", d.model),
        version := attr(info, "version", d.version),
        iface := attr(info, "", d.iface),
        busInfo := attr(info, "bus info", d.busInfo),
        capabilities := attr(info, "capabilities", d.capabilities),
        description := attr(info, "description", d.description),
        driver := attr(info, "driver", d.driver),
        maxPower := attr(info, "maxpower", d.maxPower),
        speed := attr(info, "speed", d.speed),
        otherInfo := d.otherInfo + [info]))
  }

  /** `mapInfo.find(key)->contains("Bluetooth", Qt::CaseInsensitive)` with the
      short-circuit `||` of DeviceInput::setInfoFromHwinfo: None when a missing key's end() iterator
      would be dereferenced. */
  function BluetoothTest(info: Info): (r: Option<bool>)
    ensures r.None? <==> "Model" !in info || (!ContainsCI(info["Model"], "Bluetooth") && "Device" !in info)
    ensures (r == Some(true)) <==>
              ("Model" in info && (ContainsCI(info["Model"], "Bluetooth")
                                   || ("Device" in info && ContainsCI(info["Device"], "Bluetooth"))))
  {
    if "Model" !in info then None
    else if ContainsCI(info["Model"], "Bluetooth") then Some(true)
    else if "Device" !in info then None
    else Some(ContainsCI(info["Device"], "Bluetooth"))
  }

  /** DeviceInput::setInfoFromHwinfo; setKLUInfoFromHwinfo performs the same
      statements in the same order. A record without "Model", or without "Device"
      when the model does not name Bluetooth, dereferences an end() iterator. */
  function SetInfoFromHwinfo(d: Input, info: Info, attr: Attr): (r: Result<Input>)
    ensures r.Crash? <==> BluetoothTest(info).None?
    ensures r.Ok? ==>
              r.value.iface == (if BluetoothTest(info) == Some(true) then "Bluetooth"
                                else if "Hotplug" in info then attr(info, "Hotplug", d.iface)
                                else "PS/2")
    ensures r.Ok? ==> r.value.keyToLshw == LshwKey(Get(info, "SysFS BusID")).GetOr(d.keyToLshw)
    ensures r.Ok? ==> r.value.otherInfo == d.otherInfo + [info]
    ensures r.Ok? ==> r.value.name == attr(info, "Device", d.name) && r.value.vendor == attr(info, "Vendor", d.vendor)
                      && r.value.model == attr(info, "Model", d.model)
                      && r.value.version == attr(info, "Revision", d.version)
    ensures r.Ok? ==> r.value.busInfo == attr(info, "SysFS BusID", d.busInfo)
                      && r.value.description == attr(info, "Hardware Class", d.description)
                      && r.value.driver == attr(info, "Driver", d.driver)
                      && r.value.speed == attr(info, "Speed", d.speed)
    ensures r.Ok? ==> r.value.capabilities == d.capabilities && r.value.maxPower == d.maxPower
  {
    match BluetoothTest(info)
    case None => Crash("dereferenced QMap::end()")
    case Some(bluetooth) =>
      var plugged := if "Hotplug" in info then attr(info, "Hotplug", d.iface) else "PS/2";
      Ok(d.(
        name := attr(info, "Device", d.name),
        vendor := attr(info, "Vendor", d.vendor),
        model := attr(info, "Model", d.model),
        version := attr(info, "Revision", d.version),
        iface := if bluetooth then "Bluetooth" else plugged,
        busInfo := attr(info, "SysFS BusID", d.busInfo),
        description := attr(info, "Hardware Class", d.description),
        driver := attr(info, "Driver", d.driver),
        speed := attr(info, "Speed", d.speed),
        keyToLshw := match LshwKey(Get(info, "SysFS BusID")) case Some(k) => k case None => d.keyToLshw,
        otherInfo := d.otherInfo + [info]))
  }

  /** The key set from an hwinfo record whose bus id is "A-B:C" is exactly what an
      lshw record with bus info `"usb@%1:%2".arg(A).arg(B)` needs, so that record
      is accepted; for an A without '%' that bus info is "usb@A:B". */
  lemma HwinfoPairsWithLshw(d: Input, hw: Info, lshw: Info, attr: Attr, a: string, b: string, c: string)
    requires !Contains(a, ":") && !Contains(b, ":") && !Contains(c, ":")
    requires !Contains(a, "-") && !Contains(b, "-")
    requires Get(hw, "SysFS BusID") == a + "-" + b + ":" + c
    requires SetInfoFromHwinfo(d, hw, attr).Ok?
    requires Get(lshw, "bus info") == KeyOf(a, b)
    ensures SetInfoFromlshw(SetInfoFromHwinfo(d, hw, attr).value, lshw, attr).0
  {
    LshwKeyOfBusId(a, b, c);
  }

  // ------------------------------------------------------------------
  // /proc/bus/input/devices
  // ------------------------------------------------------------------

  /** `replace(QRegExp("^\""), "")` then `replace(QRegExp("\"$"), "")`: one leading
      and then one trailing double quote removed. */
  function StripQuotes(v: string): (r: string)
    ensures |v| >= 2 && v[0] == '"' && v[|v| - 1] == '"' ==> r == v[1..|v| - 1]
    ensures (|v| == 0 || (v[0] != '"' && v[|v| - 1] != '"')) ==> r == v
  {
    var a := if |v| > 0 && v[0] == '"' then v[1..] else v;
    if |a| > 0 && a[|a| - 1] == '"' then a[..|a| - 1] else a
  }

  /** The entry an "N:" or "B:" payload such as `Name="AT keyboard"` adds: present
      when the payload splits on '=' into exactly two parts. */
  function PropertyEntry(payload: string): (r: Option<(string, string)>)
    ensures r.Some? <==> |Split(payload, "=")| == 2
  {
    var keys := Split(payload, "=");
    if |keys| == 2 then Some((Trim(keys[0]), StripQuotes(Trim(keys[1])))) else None
  }

  /** "event" and a digit start at index p. */
  predicate EventAt(s: string, p: int) {
    0 <= p && p + 5 < |s| && s[p..p + 5] == "event" && IsDigit(s[p + 5])
  }

  /** The greatest p < from at which EventAt holds, or -1. */
  function LastEvent(s: string, from: int): (p: int)
    requires from <= |s|
    ensures p == -1 || (EventAt(s, p) && p < from)
    ensures forall q :: p < q < from ==> !EventAt(s, q)
    decreases from
  {
    if from <= 0 then -1
    else if EventAt(s, from - 1) then from - 1
    else LastEvent(s, from - 1)
  }

  /** The capture of `.*(event[0-9]{1,2}).*` under exactMatch: the greedy `.*` puts
      it at the last "event" followed by a digit, and it takes a second digit when
      one follows. */
  function EventToken(s: string): (r: Option<string>)
    ensures r.Some? <==> exists p :: EventAt(s, p)
    ensures r.Some? ==> 6 <= |r.value| <= 7 && r.value[..5] == "event" && AllDigits(r.value[5..])
    ensures r.Some? ==>
              exists p :: EventAt(s, p) && (forall q :: p < q < |s| ==> !EventAt(s, q))
                          && p + |r.value| <= |s| && r.value == s[p..p + |r.value|]
                          && (|r.value| == 7 <==> p + 6 < |s| && IsDigit(s[p + 6]))
  {
    var p := LastEvent(s, |s|);
    if p < 0 then None
    else
      var n := if p + 6 < |s| && IsDigit(s[p + 6]) then 7 else 6;
      assert EventAt(s, p) && (forall q :: p < q < |s| ==> !EventAt(s, q));
      Some(s[p..p + n])
  }

  /** The handler list ending in "event" and one or two digits yields that token. */
  lemma EventTokenAtEnd(a: string, dd: string)
    requires 1 <= |dd| <= 2 && AllDigits(dd)
    ensures EventToken(a + "event" + dd) == Some("event" + dd)
  {
    var s := a + "event" + dd;
    LastEventAtEnd(a, dd);
    assert |a| + 6 < |s| <==> |dd| == 2;
    assert |dd| == 2 ==> IsDigit(s[|a| + 6]) by {
      if |dd| == 2 { assert s[|a| + 6] == dd[1]; }
    }
    assert s[|a|..|s|] == "event" + dd;
  }

  lemma LastEventAtEnd(a: string, dd: string)
    requires 1 <= |dd| <= 2 && AllDigits(dd)
    ensures LastEvent(a + "event" + dd, |a| + 5 + |dd|) == |a|
  {
    var s := a + "event" + dd;
    assert s[|a|..|a| + 5] == "event";
    assert EventAt(s, |a|);
    NoEventAfter(a, dd);
  }

  lemma NoEventAfter(a: string, dd: string)
    requires 1 <= |dd| <= 2
    ensures forall q :: |a| < q < |a| + 5 + |dd| ==> !EventAt(a + "event" + dd, q)
  {
    var s := a + "event" + dd;
    forall q | |a| < q < |s|
      ensures !EventAt(s, q)
    {
      if q + 5 < |s| {
        assert s[q] == 'v';
      }
    }
  }

  /** One line of /proc/bus/input/devices applied to the map being built. */
  function ApplyDeviceLine(m: Info, line: string): (r: Info)
    ensures m.Keys <= r.Keys
    ensures |Split(line, ": ")| != 2 ==> r == m
    ensures forall k :: k in r && (k !in m || r[k] != m[k]) ==>
              (k == "HwinfoKey" && Split(line, ": ")[0] == "H")
              || (|Split(line, ": ")| == 2 && Split(line, ": ")[0] in {"N", "B"}
                  && PropertyEntry(Split(line, ": ")[1]) == Some((k, r[k])))
  {
    var words := Split(line, ": ");
    if |words| != 2 then m
    else if words[0] == "N" || words[0] == "B" then
      match PropertyEntry(words[1])
      case Some((k, v)) => m[k := v]
      case None => m
    else if words[0] == "H" then
      match EventToken(words[1])
      case Some(t) => m["HwinfoKey" := t]
      case None => m
    else m
  }

  function ApplyDeviceLines(m: Info, lines: seq<string>): (r: Info)
    ensures m.Keys <= r.Keys
    decreases |lines|
  {
    if |lines| == 0 then m else ApplyDeviceLines(ApplyDeviceLine(m, lines[0]), lines[1..])
  }

  /** DeviceInput::getKeyboardMapInfoFromInputDevice: the map after every line of
      the text; existing entries are kept unless a line overwrites them. */
  function KeyboardMapInfo(m: Info, info: string): (r: Info)
    ensures m.Keys <= r.Keys
  {
    ApplyDeviceLines(m, Split(info, "\n"))
  }

  /** A line "<tag>: <payload>" splits on ": " into the tag and the payload. */
  lemma SplitTaggedLine(tag: char, payload: string)
    requires tag != ':' && !Contains(payload, ": ")
    ensures Split([tag] + ": " + payload, ": ") == [[tag], payload]
  {
    var line := [tag] + ": " + payload;
    assert line[1..3] == ": ";
    assert OccursAt(line, ": ", 1);
    assert !OccursAt(line, ": ", 0) by {
      assert line[0] == tag;
    }
    assert IndexOf(line, ": ") == 1;
    SplitAtFirst(line, ": ", 1);
    assert line[..1] == [tag];
    assert line[3..] == payload;
    SplitWithoutSeparator(payload, ": ");
  }

  /** `key="value"` gives the entry (key, value). */
  lemma PropertyEntryOfQuoted(k: string, v: string)
    requires |k| > 0 && !IsSpace(k[0]) && !IsSpace(k[|k| - 1])
    requires !Contains(k, "=") && !Contains(v, "=")
    ensures PropertyEntry(k + "=\"" + v + "\"") == Some((k, v))
  {
    var quoted := "\"" + v + "\"";
    var payload := k + "=\"" + v + "\"";
    assert !Contains(quoted, "=") by {
      assert !Contains(v + "\"", "=") by {
        LacksOf(v, '"', "", '=');
        assert v + ['"'] + "" == v + "\"";
      }
      LacksOf("", '"', v + "\"", '=');
      assert "" + ['"'] + (v + "\"") == quoted;
    }
    assert Split(payload, "=") == [k, quoted] by {
      assert payload == k + ['='] + quoted;
      SplitOnce(k, '=', quoted);
    }
    assert Trim(k) == k by {
      TrimOfTrimmed(k);
    }
    assert StripQuotes(Trim(quoted)) == v by {
      TrimOfTrimmed(quoted);
      assert quoted[1..|quoted| - 1] == v;
    }
  }

  /** An "N:" or "B:" line whose payload parses stores the parsed entry. */
  lemma PropertyLineApplied(m: Info, line: string, tag: string, payload: string, k: string, v: string)
    requires tag in {"N", "B"}
    requires Split(line, ": ") == [tag, payload] && PropertyEntry(payload) == Some((k, v))
    ensures ApplyDeviceLine(m, line) == m[k := v]
  {
  }

  /** An "N:" or "B:" line whose payload does not split into one key and one value
      adds nothing. */
  lemma PropertyLineWithoutEntry(m: Info, line: string, tag: string, payload: string)
    requires tag in {"N", "B"}
    requires Split(line, ": ") == [tag, payload] && |Split(payload, "=")| != 2
    ensures ApplyDeviceLine(m, line) == m
  {
  }

  /** An "H:" line without "event" and one or two digits adds nothing. */
  lemma HandlerLineWithoutEvent(m: Info, line: string, payload: string)
    requires Split(line, ": ") == ["H", payload] && EventToken(payload).None?
    ensures ApplyDeviceLine(m, line) == m
  {
  }

  /** The text is read line by line: the first line is applied before the rest. */
  lemma KeyboardMapInfoFirstLine(m: Info, first: string, rest: string)
    requires !Contains(first, "\n")
    ensures KeyboardMapInfo(m, first + "\n" + rest) == KeyboardMapInfo(ApplyDeviceLine(m, first), rest)
  {
    SplitFirst(first, '\n', rest);
    assert first + "\n" + rest == first + ['\n'] + rest;
    assert ([first] + Split(rest, "\n"))[1..] == Split(rest, "\n");
  }

  /** The last line of the text is applied after all the others, so it overwrites
      what they stored under the same key. */
  lemma KeyboardMapInfoLastLine(m: Info, text: string, last: string)
    requires !Contains(last, "\n")
    ensures KeyboardMapInfo(m, text + "\n" + last) == ApplyDeviceLine(KeyboardMapInfo(m, text), last)
  {
    SplitAppend(text, '\n', last);
    assert text + "\n" + last == text + ['\n'] + last;
    ApplyDeviceLinesSnoc(m, Split(text, "\n"), last);
  }

  /** Applying one more line after a list of lines. */
  lemma {:induction false} ApplyDeviceLinesSnoc(m: Info, lines: seq<string>, last: string)
    ensures ApplyDeviceLines(m, lines + [last]) == ApplyDeviceLine(ApplyDeviceLines(m, lines), last)
    decreases |lines|
  {
    if |lines| == 0 {
      assert lines + [last] == [last];
      assert ApplyDeviceLines(ApplyDeviceLine(m, last), []) == ApplyDeviceLine(m, last);
    } else {
      assert (lines + [last])[0] == lines[0];
      assert (lines + [last])[1..] == lines[1..] + [last];
      ApplyDeviceLinesSnoc(ApplyDeviceLine(m, lines[0]), lines[1..], last);
    }
  }

  /** An "H:" line whose payload holds an event token stores it as HwinfoKey. */
  lemma HandlerLineApplied(m: Info, line: string, payload: string, t: string)
    requires Split(line, ": ") == ["H", payload] && EventToken(payload) == Some(t)
    ensures ApplyDeviceLine(m, line) == m["HwinfoKey" := t]
  {
  }

  /** An "N: " line naming a property with a quoted value stores the bare value
      under the key. */
  lemma PropertyLineStoresValue(m: Info, k: string, v: string)
    requires |k| > 0 && !IsSpace(k[0]) && !IsSpace(k[|k| - 1])
    requires !Contains(k, "=") && !Contains(v, "=")
    requires !Contains(k + "=\"" + v + "\"", ": ")
    ensures ApplyDeviceLine(m, "N: " + k + "=\"" + v + "\"") == m[k := v]
  {
    var payload := k + "=\"" + v + "\"";
    PropertyLineSplit(payload);
    assert "N: " + k + "=\"" + v + "\"" == "N: " + payload;
    PropertyEntryOfQuoted(k, v);
    PropertyLineApplied(m, "N: " + payload, "N", payload, k, v);
  }

  /** An "H: " line ending in "event" and one or two digits stores that token
      under "HwinfoKey". */
  lemma HandlerLineStoresEvent(m: Info, a: string, dd: string)
    requires 1 <= |dd| <= 2 && AllDigits(dd)
    requires !Contains(a + "event" + dd, ": ")
    ensures ApplyDeviceLine(m, "H: " + a + "event" + dd) == m["HwinfoKey" := "event" + dd]
  {
    HandlerLineSplit(a, dd);
    EventTokenAtEnd(a, dd);
    HandlerLineApplied(m, "H: " + a + "event" + dd, a + "event" + dd, "event" + dd);
  }

  lemma PropertyLineSplit(payload: string)
    requires !Contains(payload, ": ")
    ensures Split("N: " + payload, ": ") == ["N", payload]
  {
    SplitTaggedLine('N', payload);
    assert "N: " + payload == ['N'] + ": " + payload;
  }

  lemma HandlerLineSplit(a: string, dd: string)
    requires !Contains(a + "event" + dd, ": ")
    ensures Split("H: " + a + "event" + dd, ": ") == ["H", a + "event" + dd]
  {
    SplitTaggedLine('H', a + "event" + dd);
    assert "H: " + a + "event" + dd == ['H'] + ": " + (a + "event" + dd);
  }

  /** A line whose prefix before ": " is none of N, B and H adds nothing. */
  lemma OtherLinesIgnored(m: Info, line: string)
    requires |Split(line, ": ")| == 2
    requires Split(line, ": ")[0] !in {"N", "B", "H"}
    ensures ApplyDeviceLine(m, line) == m
  {
  }
}

=== FILE: device_monitor.dfy ===
/** A display device as the device manager assembles it from hwinfo, xrandr,
    D-Bus, EDID and TOML data (DeviceMonitor). */
module DeviceMonitor {
  import opened Wrappers
  import opened QStr
  import opened DeviceBase
  import QDate

  datatype Monitor = Monitor(
    name: string,
    vendor: string,
    model: string,
    displayInput: string,
    interfaceType: string,
    screenSize: string,
    aspectRatio: string,
    mainScreen: string,
    currentResolution: string,
    serialNumber: string,
    productionWeek: string,
    supportResolution: string,
    isTomlSet: bool,
    /** every record handed to DeviceBaseInfo::getOtherMapInfo, in order */
    otherInfo: seq<Info>)

  /** TomlFixMethod: TOML_None, or another enumerator by name (the enumeration is
      declared with DeviceBaseInfo, which is not part of this model). */
  datatype TomlFixMethod = TomlNone | TomlMethod(name: string)

  /** What the monitor code asks of code outside this model. */
  datatype Env = Env(
    /** DeviceBaseInfo::setAttribute */
    attr: Attr,
    /** DeviceBaseInfo::setTomlAttribute: the value it leaves in the attribute */
    tomlAttr: Attr,
    /** DeviceBaseInfo::setTomlAttribute: the fix method it reports for a key, given
        the attribute's old value */
    tomlFix: (Info, string, string) -> TomlFixMethod,
    /** DApplication::isDXcbPlatform() */
    isXcb: bool,
    /** !Common::boardVendorType().isEmpty() */
    boardVendorSet: bool,
    /** QString::number(ceil(text.toDouble())) */
    ceilRate: string -> string,
    /** findAspectRatio's pair, found with a floating-point tolerance */
    aspect: (int, int) -> (int, int),
    /** the text parseMonitorSize returns for a size description */
    sizeText: string -> string,
    /** caculateScreenSize(edid): success and the monitor it leaves behind */
    edid: (Monitor, string) -> (bool, Monitor))

  function NewMonitor(): Monitor {
    Monitor("", "", "", "", "", "", "", "", "", "", "", "", false, [])
  }

  // ------------------------------------------------------------------
  // gcd and the display ratio
  // ------------------------------------------------------------------

  /** `d` divides `n`. */
  predicate Divides(d: int, n: int)
    requires d > 0
  {
    n % d == 0
  }

  /** Multiples of a positive `d` by `e` lie outside (-d, 0) and (0, d). */
  lemma MulBounds(d: int, e: int)
    requires d > 0
    ensures e >= 1 ==> d * e >= d
    ensures e <= 0 ==> d * e <= 0
    ensures e <= -1 ==> d * e <= -d
  {
    if e >= 1 {
      assert d * e == d + d * (e - 1);
    } else if e <= -1 {
      assert d * e == -d + d * (e + 1);
    }
  }

  lemma MultipleIsDivisible(d: int, k: int)
    requires d > 0
    ensures Divides(d, d * k)
  {
    var n := d * k;
    var q := n / d;
    assert n == d * q + n % d;
    assert d * (k - q) == n % d;
    MulBounds(d, k - q);
  }

  /** A divisor of `y` divides `x` exactly when it divides `x % y`. */
  lemma DividesRemainder(d: int, x: int, y: int)
    requires d > 0 && y > 0 && Divides(d, y)
    ensures Divides(d, x) <==> Divides(d, x % y)
  {
    var p := y / d;
    assert y == d * p;
    var a := x / y;
    assert x == y * a + x % y;
    assert y * a == d * (p * a);
    if Divides(d, x) {
      var u := x / d;
      assert x == d * u;
      assert x % y == d * (u - p * a);
      MultipleIsDivisible(d, u - p * a);
    }
    if Divides(d, x % y) {
      var v := (x % y) / d;
      assert x % y == d * v;
      assert x == d * (p * a + v);
      MultipleIsDivisible(d, p * a + v);
    }
  }

  lemma CommonDivisorsOfRemainder(x: int, y: int)
    requires y > 0
    ensures forall d :: d > 0 && Divides(d, x) && Divides(d, y) ==> Divides(d, x % y)
  {
    forall d | d > 0 && Divides(d, x) && Divides(d, y)
      ensures Divides(d, x % y)
    {
      DividesRemainder(d, x, y);
    }
  }

  /** DeviceMonitor::gcd: Euclid's algorithm, larger argument first. It
      evaluates `a % b` before any test, so both arguments must be positive. */
  function Gcd(a: int, b: int): (g: int)
    requires a > 0 && b > 0
    ensures g > 0 && Divides(g, a) && Divides(g, b)
    ensures forall d :: d > 0 && Divides(d, a) && Divides(d, b) ==> Divides(d, g)
    decreases a + b
  {
    var x := if a < b then b else a;
    var y := if a < b then a else b;
    if x % y == 0 then y
    else
      var g := Gcd(y, x % y);
      DividesRemainder(g, x, y);
      CommonDivisorsOfRemainder(x, y);
      g
  }

  lemma GcdSymmetric(a: int, b: int)
    requires a > 0 && b > 0
    ensures Gcd(a, b) == Gcd(b, a)
  {
  }

  lemma DivisorIsNotLarger(d: int, n: int)
    requires d > 0 && n > 0 && Divides(d, n)
    ensures d <= n
  {
    var k := n / d;
    assert n == d * k;
    MulBounds(d, k);
  }

  /** gcd is the greatest common divisor. */
  lemma GcdIsGreatest(a: int, b: int, d: int)
    requires a > 0 && b > 0 && d > 0 && Divides(d, a) && Divides(d, b)
    ensures d <= Gcd(a, b)
  {
    DivisorIsNotLarger(d, Gcd(a, b));
  }

  /** gcd as called by caculateScreenRatio on numbers that may be 0: for a zero
      argument the C++ code divides by zero. */
  function GcdChecked(a: nat, b: nat): (r: Result<int>)
    ensures r.Crash? <==> a == 0 || b == 0
    ensures r.Ok? ==> r.value == Gcd(a, b)
  {
    if a == 0 || b == 0 then Crash("integer division by zero in gcd") else Ok(Gcd(a, b))
  }

  /** What `(.*)$` accepts: no line feed except possibly as the last character
      (`.` stops at a line feed, `$` also matches before a final one). */
  predicate NoInnerLineBreak(r: string) {
    forall i :: 0 <= i < |r| - 1 ==> r[i] != '\n'
  }

  /** The two captures of `^([\d]*)x([\d]*)(.*)$`, when it matches. */
  function RatioMatch(s: string): (r: Option<(string, string)>)
    ensures r.Some? ==> AllDigits(r.value.0) && AllDigits(r.value.1)
    ensures r.Some? ==> StartsWith(s, r.value.0 + "x" + r.value.1)
    ensures r.Some? ==> NoInnerLineBreak(s[|r.value.0| + 1 + |r.value.1|..])
  {
    var w := DigitPrefix(s);
    if |w| < |s| && s[|w|] == 'x' then
      var after := s[|w| + 1..];
      var h := DigitPrefix(after);
      if NoInnerLineBreak(after[|h|..]) then
        assert s[..|w| + 1 + |h|] == w + "x" + h;
        assert after[|h|..] == s[|w| + 1 + |h|..];
        Some((w, h))
      else None
    else None
  }

  /** QString::toInt of a digit string: its value, or 0 when empty or too large. */
  lemma ToIntOfDigits(d: string)
    requires AllDigits(d)
    ensures ToInt(d) == (if |d| > 0 && DigitsValue(d) <= INT_MAX then DigitsValue(d) else 0)
    ensures ToInt(d) >= 0
  {
    if |d| > 0 {
      TrimOfTrimmed(d);
    }
  }

  /** DeviceMonitor::caculateScreenRatio applied to the current resolution: the ratio
      text for a match, the old ratio otherwise, a crash for a zero dimension. */
  function CaculateScreenRatio(cur: string, ratio: string, aspect: (int, int) -> (int, int))
    : (r: Result<string>)
    ensures RatioMatch(cur).None? ==> r == Ok(ratio)
    ensures RatioMatch(cur).Some? ==>
              (r.Crash? <==> ToInt(RatioMatch(cur).value.0) == 0 || ToInt(RatioMatch(cur).value.1) == 0)
  {
    match RatioMatch(cur)
    case None => Ok(ratio)
    case Some((ws, hs)) =>
      ToIntOfDigits(ws);
      ToIntOfDigits(hs);
      var width: nat := ToInt(ws);
      var height: nat := ToInt(hs);
      match GcdChecked(width, height)
      case Crash(why) => Crash(why)
      case Ok(g) =>
        var w := width / g;
        var h := height / g;
        var (w', h') := if w > 21 then aspect(w, h) else (w, h);
        Ok(IntToString(w') + " : " + IntToString(h'))
  }

  /** A divisor of `w` scaled by `g` divides `g * w`. */
  lemma ScaledDivisor(d: int, g: int, w: int)
    requires d > 0 && g > 0 && Divides(d, w)
    ensures Divides(d * g, g * w)
  {
    var s := w / d;
    assert w == d * s;
    assert g * w == (d * g) * s;
    MultipleIsDivisible(d * g, s);
  }

  lemma UnitFactor(d: int, g: int)
    requires d > 0 && g > 0 && d * g <= g
    ensures d == 1
  {
    assert d * g == g + g * (d - 1);
    MulBounds(g, d - 1);
  }

  lemma QuotientTimes(n: int, g: int)
    requires g > 0 && Divides(g, n)
    ensures n == g * (n / g)
  {
  }

  lemma Proportion(w: int, h: int, g: int)
    ensures w * (g * h) == h * (g * w)
  {
    assert w * (g * h) == (w * g) * h;
    assert h * (g * w) == (h * g) * w;
  }

  /** Dividing by the gcd keeps the proportion and leaves no common divisor but 1. */
  lemma ReducedRatio(W: int, H: int)
    requires W > 0 && H > 0
    ensures var g := Gcd(W, H); (W / g) * H == (H / g) * W
    ensures var g := Gcd(W, H);
              forall d :: d > 0 && Divides(d, W / g) && Divides(d, H / g) ==> d == 1
  {
    var g := Gcd(W, H);
    var w, h := W / g, H / g;
    QuotientTimes(W, g);
    QuotientTimes(H, g);
    Proportion(w, h, g);
    forall d | d > 0 && Divides(d, w) && Divides(d, h)
      ensures d == 1
    {
      ScaledDivisor(d, g, w);
      ScaledDivisor(d, g, h);
      DivisorIsNotLarger(d * g, g);
      UnitFactor(d, g);
    }
  }

  /** With a positive width W and height H whose reduced width is at most 21, the
      ratio becomes "W/g : H/g" for g = gcd(W, H), a pair in lowest terms. */
  lemma RatioOfResolution(cur: string, ratio: string, aspect: (int, int) -> (int, int))
    requires RatioMatch(cur).Some?
    requires ToInt(RatioMatch(cur).value.0) > 0 && ToInt(RatioMatch(cur).value.1) > 0
    requires ToInt(RatioMatch(cur).value.0) / Gcd(ToInt(RatioMatch(cur).value.0), ToInt(RatioMatch(cur).value.1)) <= 21
    ensures var W, H := ToInt(RatioMatch(cur).value.0), ToInt(RatioMatch(cur).value.1);
            var g := Gcd(W, H);
            CaculateScreenRatio(cur, ratio, aspect) == Ok(IntToString(W / g) + " : " + IntToString(H / g))
            && (W / g) * H == (H / g) * W
            && forall d :: d > 0 && Divides(d, W / g) && Divides(d, H / g) ==> d == 1
  {
    ReducedRatio(ToInt(RatioMatch(cur).value.0), ToInt(RatioMatch(cur).value.1));
  }

  // ------------------------------------------------------------------
  // Supported resolutions (setInfoFromHwinfo)
  // ------------------------------------------------------------------

  /** The words that contain '@', in their original order. */
  function WithAt(words: seq<string>): (r: seq<string>)
    ensures forall i :: 0 <= i < |r| ==> Contains(r[i], "@") && r[i] in words
    decreases |words|
  {
    if |words| == 0 then []
    else if Contains(words[0], "@") then [words[0]] + WithAt(words[1..])
    else WithAt(words[1..])
  }

  /** The append loop: each word holding '@' followed by ", ". */
  function ListResolutions(words: seq<string>): string
    decreases |words|
  {
    if |words| == 0 then ""
    else (if Contains(words[0], "@") then words[0] + ", " else "") + ListResolutions(words[1..])
  }

  /** replace(QRegularExpression(", $"), ""): `$` matches at the end and before a
      final line feed. */
  function DropTrailingComma(s: string): string {
    if |s| >= 2 && s[|s| - 2..] == ", " then s[..|s| - 2]
    else if |s| >= 3 && s[|s| - 3..] == ", \n" then s[..|s| - 3] + "\n"
    else s
  }

  /** How setInfoFromHwinfo rewrites the "Resolution" attribute. */
  function FilterSupportResolution(s: string): string {
    DropTrailingComma(ListResolutions(Split(s, " ")))
  }

  lemma {:induction false} ListResolutionsIsJoin(words: seq<string>)
    ensures ListResolutions(words) ==
            (if WithAt(words) == [] then "" else Join(WithAt(words), ", ") + ", ")
    decreases |words|
  {
    if |words| > 0 {
      ListResolutionsIsJoin(words[1..]);
      var rest := WithAt(words[1..]);
      if Contains(words[0], "@") {
        assert WithAt(words) == [words[0]] + rest;
        if rest != [] {
          assert ([words[0]] + rest)[1..] == rest;
        }
      }
    }
  }

  /** The supported-resolution text keeps exactly the space-separated words that
      contain '@', in order, separated by ", " and with no trailing separator. */
  lemma SupportResolutionKeepsWordsWithAt(s: string)
    ensures FilterSupportResolution(s) == Join(WithAt(Split(s, " ")), ", ")
  {
    var words := Split(s, " ");
    ListResolutionsIsJoin(words);
    if WithAt(words) != [] {
      var j := Join(WithAt(words), ", ");
      assert (j + ", ")[|j + ", "| - 2..] == ", ";
      assert (j + ", ")[..|j + ", "| - 2] == j;
    }
  }

  // ------------------------------------------------------------------
  // Production date
  // ------------------------------------------------------------------

  /** A 32-bit signed result for `w * 7 - 1` on an int. Signed overflow is
      undefined in C++; this is the two's-complement wrap a typical build gives. */
  function Wrap32(v: int): (r: int)
    ensures InInt32(r)
    ensures InInt32(v) ==> r == v
  {
    (v - INT_MIN) % 0x1_0000_0000 + INT_MIN
  }

  /** DeviceMonitor::transWeekToDate: the year and month of January 1 of `year`
      plus `7 * week - 1` days; an unreadable or zero year gives "", and so does a
      date that leaves QDate's range of years. */
  function TransWeekToDate(year: string, week: string): (s: string)
    ensures ToInt(year) == 0 ==> s == ""
    ensures s == "" <==>
              ToInt(year) == 0 || !QDate.InRange(QDate.Normalize(ToInt(year), Wrap32(ToInt(week) * 7 - 1)).0)
  {
    QDate.YearMonthAfter(ToInt(year), Wrap32(ToInt(week) * 7 - 1))
  }

  /** The date stays in the given year while the offset fits in it, and rolls over
      into the following year once it exceeds the year's length. */
  lemma TransWeekRollsOver(year: string, week: string)
    requires ToInt(year) != 0
    requires InInt32(ToInt(week) * 7 - 1)
    ensures var y, off := ToInt(year), ToInt(week) * 7 - 1;
            0 <= off < QDate.YearLength(y) ==>
              TransWeekToDate(year, week) == QDate.FormatYearMonth(y, QDate.MonthOf(y, off, 1))
    ensures var y, off := ToInt(year), ToInt(week) * 7 - 1;
            var ny := QDate.NextYear(y);
            QDate.YearLength(y) <= off < QDate.YearLength(y) + QDate.YearLength(ny) && QDate.InRange(ny) ==>
              TransWeekToDate(year, week)
              == QDate.FormatYearMonth(ny, QDate.MonthOf(ny, off - QDate.YearLength(y), 1))
    ensures var y, off := ToInt(year), ToInt(week) * 7 - 1;
            var ny := QDate.NextYear(y);
            QDate.YearLength(y) <= off < QDate.YearLength(y) + QDate.YearLength(ny) && !QDate.InRange(ny) ==>
              TransWeekToDate(year, week) == ""
  {
    var y, off := ToInt(year), ToInt(week) * 7 - 1;
    assert TransWeekToDate(year, week) == QDate.YearMonthAfter(y, off) by {
      assert Wrap32(off) == off;
    }
    assert QDate.InRange(y);
    QDate.YearMonthAfterRollsOver(y, off);
  }

  /** Any week number moves the date by at most 5883517 years, so a non-zero
      year that far inside the 32-bit range always gives a date. */
  lemma TransWeekInsideRange(year: string, week: string)
    requires ToInt(year) != 0
    requires INT_MIN + 5883520 <= ToInt(year) <= INT_MAX - 5883520
    ensures TransWeekToDate(year, week) != ""
  {
    var y, off := ToInt(year), Wrap32(ToInt(week) * 7 - 1);
    assert TransWeekToDate(year, week) == QDate.YearMonthAfter(y, off);
    assert InInt32(off);
    QDate.YearMonthAfterInside(y, off, 5883520);
  }

  /** At the top of the range, week 53 of year 2147483647 lands in the year after
      it, which QDate cannot represent, so the text is empty. */
  lemma TransWeekPastLastYear(year: string, week: string)
    requires ToInt(year) == INT_MAX && ToInt(week) == 53
    ensures TransWeekToDate(year, week) == ""
  {
    assert Wrap32(53 * 7 - 1) == 370;
    assert TransWeekToDate(year, week) == QDate.YearMonthAfter(INT_MAX, 370);
    assert QDate.YearLength(INT_MAX) == 365 by { assert INT_MAX % 4 == 3; }
    QDate.PastLastYear(INT_MAX, 370);
  }

  // ------------------------------------------------------------------
  // Record setters
  // ------------------------------------------------------------------

  /** DeviceMonitor::setInfoFromHwinfo. The ratio step crashes on a current
      resolution with a zero width or height. */
  function SetInfoFromHwinfo(m: Monitor, info: Info, env: Env): (r: Result<Monitor>)
    ensures r.Crash? <==> CaculateScreenRatio(m.currentResolution, m.aspectRatio, env.aspect).Crash?
    ensures r.Ok? ==>
              r.value.supportResolution
              == Join(WithAt(Split(env.attr(info, "Resolution", m.supportResolution), " ")), ", ")
    ensures r.Ok? ==>
              r.value.productionWeek
              == TransWeekToDate(Get(info, "Year of Manufacture"), Get(info, "Week of Manufacture"))
    ensures r.Ok? ==> r.value.otherInfo == m.otherInfo + [info]
    ensures r.Ok? ==>
              r.value.aspectRatio == CaculateScreenRatio(m.currentResolution, m.aspectRatio, env.aspect).value
    ensures r.Ok? ==> r.value.currentResolution == m.currentResolution
                      && r.value.interfaceType == m.interfaceType
                      && r.value.isTomlSet == m.isTomlSet
    ensures r.Ok? ==> r.value.name == env.attr(info, "Model", m.name)
                      && r.value.model == env.attr(info, "Model", m.model)
                      && r.value.vendor == env.attr(info, "Vendor", m.vendor)
    ensures r.Ok? ==> r.value.displayInput == env.attr(info, "", m.displayInput)
                      && r.value.mainScreen == env.attr(info, "", m.mainScreen)
    ensures r.Ok? ==> r.value.screenSize == env.sizeText(env.attr(info, "Size", m.screenSize))
    ensures r.Ok? ==> r.value.serialNumber == env.attr(info, "Serial ID", m.serialNumber)
    ensures r.Ok? ==>
              r.value == m.(name := r.value.name, vendor := r.value.vendor, model := r.value.model,
                            displayInput := r.value.displayInput, screenSize := r.value.screenSize,
                            mainScreen := r.value.mainScreen, supportResolution := r.value.supportResolution,
                            aspectRatio := r.value.aspectRatio, productionWeek := r.value.productionWeek,
                            serialNumber := r.value.serialNumber, otherInfo := r.value.otherInfo)
  {
    var support := env.attr(info, "Resolution", m.supportResolution);
    SupportResolutionKeepsWordsWithAt(support);
    match CaculateScreenRatio(m.currentResolution, m.aspectRatio, env.aspect)
    case Crash(why) => Crash(why)
    case Ok(ratio) =>
      Ok(m.(
        name := env.attr(info, "Model", m.name),
        vendor := env.attr(info, "Vendor", m.vendor),
        model := env.attr(info, "Model", m.model),
        displayInput := env.attr(info, "", m.displayInput),
        screenSize := env.sizeText(env.attr(info, "Size", m.screenSize)),
        mainScreen := env.attr(info, "", m.mainScreen),
        supportResolution := FilterSupportResolution(support),
        aspectRatio := ratio,
        productionWeek := TransWeekToDate(Get(info, "Year of Manufacture"), Get(info, "Week of Manufacture")),
        serialNumber := env.attr(info, "Serial ID", m.serialNumber),
        otherInfo := m.otherInfo + [info]))
  }

  /** DeviceMonitor::setInfoFromTomlOneByOne: marks the monitor as fixed by TOML data,
      passes ten attributes through setTomlAttribute and reports the fix method of
      the last of them, "Product Date"; the methods of the other nine are dropped. */
  function SetInfoFromToml(m: Monitor, info: Info, env: Env): (r: (TomlFixMethod, Monitor))
    ensures r.0 == env.tomlFix(info, "Product Date", m.productionWeek)
    ensures r.1.isTomlSet
    ensures r.1.otherInfo == m.otherInfo + [info]
    ensures r.1.name == m.name && r.1.vendor == m.vendor
    ensures r.1.currentResolution == env.tomlAttr(info, "Current Resolution", m.currentResolution)
    ensures r.1.model == env.tomlAttr(info, "Type", m.model)
    ensures r.1.displayInput == env.tomlAttr(info, "Display Input", m.displayInput)
    ensures r.1.interfaceType == env.tomlAttr(info, "Interface Type", m.interfaceType)
    ensures r.1.supportResolution == env.tomlAttr(info, "Support Resolution", m.supportResolution)
    ensures r.1.aspectRatio == env.tomlAttr(info, "Display Ratio", m.aspectRatio)
    ensures r.1.mainScreen == env.tomlAttr(info, "Primary Monitor", m.mainScreen)
    ensures r.1.screenSize == env.tomlAttr(info, "Size", m.screenSize)
    ensures r.1.serialNumber == env.tomlAttr(info, "Serial Number", m.serialNumber)
    ensures r.1.productionWeek == env.tomlAttr(info, "Product Date", m.productionWeek)
    ensures r.1 == m.(isTomlSet := true, model := r.1.model, displayInput := r.1.displayInput,
                      interfaceType := r.1.interfaceType, supportResolution := r.1.supportResolution,
                      currentResolution := r.1.currentResolution, aspectRatio := r.1.aspectRatio,
                      mainScreen := r.1.mainScreen, screenSize := r.1.screenSize,
                      serialNumber := r.1.serialNumber, productionWeek := r.1.productionWeek,
                      otherInfo := r.1.otherInfo)
  {
    (env.tomlFix(info, "Product Date", m.productionWeek), m.(
      isTomlSet := true,
      model := env.tomlAttr(info, "Type", m.model),
      displayInput := env.tomlAttr(info, "Display Input", m.displayInput),
      interfaceType := env.tomlAttr(info, "Interface Type", m.interfaceType),
      supportResolution := env.tomlAttr(info, "Support Resolution", m.supportResolution),
      currentResolution := env.tomlAttr(info, "Current Resolution", m.currentResolution),
      aspectRatio := env.tomlAttr(info, "Display Ratio", m.aspectRatio),
      mainScreen := env.tomlAttr(info, "Primary Monitor", m.mainScreen),
      screenSize := env.tomlAttr(info, "Size", m.screenSize),
      serialNumber := env.tomlAttr(info, "Serial Number", m.serialNumber),
      productionWeek := env.tomlAttr(info, "Product Date", m.productionWeek),
      otherInfo := m.otherInfo + [info]))
  }

  /** DeviceMonitor::setInfoFromSelfDefine: six attributes, nothing else; the
      record is not handed on to getOtherMapInfo. */
  function SetInfoFromSelfDefine(m: Monitor, info: Info, attr: Attr): (r: Monitor)
    ensures r.name == attr(info, "Name", m.name) && r.vendor == attr(info, "Vendor", m.vendor)
    ensures r.currentResolution == attr(info, "CurResolution", m.currentResolution)
    ensures r.supportResolution == attr(info, "SupportResolution", m.supportResolution)
    ensures r.screenSize == attr(info, "Size", m.screenSize)
    ensures r.productionWeek == attr(info, "Date", m.productionWeek)
    ensures r == m.(name := r.name, vendor := r.vendor, currentResolution := r.currentResolution,
                    supportResolution := r.supportResolution, screenSize := r.screenSize,
                    productionWeek := r.productionWeek)
  {
    m.(
      name := attr(info, "Name", m.name),
      vendor := attr(info, "Vendor", m.vendor),
      currentResolution := attr(info, "CurResolution", m.currentResolution),
      supportResolution := attr(info, "SupportResolution", m.supportResolution),
      screenSize := attr(info, "Size", m.screenSize),
      productionWeek := attr(info, "Date", m.productionWeek))
  }

  /** DeviceMonitor::setInfoFromEdid: the name is "Monitor " and the vendor text. */
  function SetInfoFromEdid(m: Monitor, info: Info, attr: Attr): (r: Monitor)
    ensures r.name == "Monitor " + Get(info, "Vendor")
    ensures r.otherInfo == m.otherInfo + [info]
    ensures r.screenSize == attr(info, "Size", m.screenSize)
    ensures r.vendor == attr(info, "Vendor", m.vendor)
    ensures r.productionWeek == attr(info, "Date", m.productionWeek)
    ensures r.displayInput == attr(info, "Display Input", m.displayInput)
    ensures r.model == attr(info, "Model", m.model)
    ensures r == m.(name := r.name, screenSize := r.screenSize, vendor := r.vendor,
                    productionWeek := r.productionWeek, displayInput := r.displayInput,
                    model := r.model, otherInfo := r.otherInfo)
  {
    m.(
      name := "Monitor " + Get(info, "Vendor"),
      screenSize := attr(info, "Size", m.screenSize),
      vendor := attr(info, "Vendor", m.vendor),
      productionWeek := attr(info, "Date", m.productionWeek),
      displayInput := attr(info, "Display Input", m.displayInput),
      model := attr(info, "Model", m.model),
      otherInfo := m.otherInfo + [info])
  }

  /** DeviceMonitor::setInfoFromDbus: the current resolution is taken over when the
      D-Bus name contains the display input, ignoring case. An empty display input is
      contained in every name. */
  function SetInfoFromDbus(m: Monitor, info: Info, attr: Attr): (r: Monitor)
    ensures r == m.(currentResolution := r.currentResolution)
    ensures ContainsCI(Get(info, "Name"), m.displayInput) ==>
              r.currentResolution == attr(info, "CurResolution", m.currentResolution)
    ensures !ContainsCI(Get(info, "Name"), m.displayInput) ==> r == m
  {
    if ContainsCI(Lower(Get(info, "Name")), Lower(m.displayInput)) then
      LowerIdempotent(Get(info, "Name"));
      LowerIdempotent(m.displayInput);
      m.(currentResolution := attr(info, "CurResolution", m.currentResolution))
    else
      LowerIdempotent(Get(info, "Name"));
      LowerIdempotent(m.displayInput);
      m
  }

  /** The display input read from EDID decides whether a later D-Bus record's
      resolution is taken: the EDID step leaves the resolution alone, and the D-Bus
      step compares the record's name with the new display input. */
  lemma EdidDisplayInputGatesDbus(m: Monitor, edid: Info, dbus: Info, attr: Attr)
    ensures var r := SetInfoFromDbus(SetInfoFromEdid(m, edid, attr), dbus, attr);
            r.currentResolution
            == if ContainsCI(Get(dbus, "Name"), attr(edid, "Display Input", m.displayInput))
               then attr(dbus, "CurResolution", m.currentResolution)
               else m.currentResolution
  {
    var e := SetInfoFromEdid(m, edid, attr);
    assert e.currentResolution == m.currentResolution;
    assert e.displayInput == attr(edid, "Display Input", m.displayInput);
  }

  lemma LowerIdempotent(s: string)
    ensures Lower(Lower(s)) == Lower(s)
  {
  }

  /** With an empty display input every D-Bus record sets the current resolution. */
  lemma DbusWithEmptyInput(m: Monitor, info: Info, attr: Attr)
    requires m.displayInput == ""
    ensures SetInfoFromDbus(m, info, attr).currentResolution
            == attr(info, "CurResolution", m.currentResolution)
  {
  }

  // ------------------------------------------------------------------
  // xrandr
  // ------------------------------------------------------------------

  /** The longest prefix of ASCII letters. */
  function LetterPrefix(s: string): (l: string)
    ensures |l| <= |s| && l == s[..|l|]
    ensures forall i :: 0 <= i < |l| ==> IsLetter(l[i])
    ensures |l| < |s| ==> !IsLetter(s[|l|])
    decreases |s|
  {
    if |s| > 0 && IsLetter(s[0]) then [s[0]] + LetterPrefix(s[1..]) else ""
  }

  /** The capture of `^([a-zA-Z]*)-[\s\S]*`: the leading letters (possibly none)
      when a '-' follows them. */
  function InterfaceMatch(s: string): (r: Option<string>)
    ensures r.Some? ==> StartsWith(s, r.value + "-") && forall i :: 0 <= i < |r.value| ==> IsLetter(r.value[i])
    ensures r.None? ==> forall l :: (forall i :: 0 <= i < |l| ==> IsLetter(l[i])) ==> !StartsWith(s, l + "-")
  {
    var l := LetterPrefix(s);
    if |l| < |s| && s[|l|] == '-' then
      assert s[..|l| + 1] == l + "-";
      Some(l)
    else
      NoDashAfterLetters(s);
      None
  }

  /** Any run of letters followed by '-' at the start of `s` is the whole leading
      letter run. */
  lemma DashAfterLetters(s: string, l: string)
    requires forall i :: 0 <= i < |l| ==> IsLetter(l[i])
    requires StartsWith(s, l + "-")
    ensures |l| == |LetterPrefix(s)| && |l| < |s| && s[|l|] == '-'
  {
    var p := LetterPrefix(s);
    assert s[|l|] == (l + "-")[|l|] == '-';
    assert forall i :: 0 <= i < |l| ==> s[i] == l[i];
    assert !IsLetter('-');
    assert forall i :: 0 <= i < |p| ==> IsLetter(s[i]);
  }

  lemma NoDashAfterLetters(s: string)
    requires !(|LetterPrefix(s)| < |s| && s[|LetterPrefix(s)|] == '-')
    ensures forall l :: (forall i :: 0 <= i < |l| ==> IsLetter(l[i])) ==> !StartsWith(s, l + "-")
  {
    forall l | forall i :: 0 <= i < |l| ==> IsLetter(l[i])
      ensures !StartsWith(s, l + "-")
    {
      if StartsWith(s, l + "-") {
        DashAfterLetters(s, l);
      }
    }
  }

  /** A digit, an 'x' and a digit start at index `p` of `line`. */
  predicate DxdAt(line: string, p: int) {
    0 <= p && p + 2 < |line| && IsDigit(line[p]) && line[p + 1] == 'x' && IsDigit(line[p + 2])
  }

  /** The greatest p < from at which a digit-x-digit starts, or -1. */
  function LastDxd(line: string, from: int): (p: int)
    requires from <= |line|
    ensures p == -1 || (DxdAt(line, p) && p < from)
    ensures forall q :: p < q < from ==> !DxdAt(line, q)
    decreases from
  {
    if from <= 0 then -1
    else if DxdAt(line, from - 1) then from - 1
    else LastDxd(line, from - 1)
  }

  /** A capture whose width part is a single digit: a digit, 'x', one to five digits. */
  predicate IsCapturedToken(t: string) {
    3 <= |t| <= 7 && IsDigit(t[0]) && t[1] == 'x' && AllDigits(t[2..])
  }

  /** The greedy match of `.*([0-9]{1,5}x[0-9]{1,5}).*` within one line: the leading `.*` pushes the capture to the LAST digit-x-digit of the
      line, so the width part is a single digit; the height takes up to five digits. */
  function CaptureInLine(line: string): (r: Option<string>)
    ensures r.Some? ==> IsCapturedToken(r.value)
    ensures r.Some? <==> exists p :: DxdAt(line, p)
    ensures r.Some? ==> exists p :: DxdAt(line, p) && StartsWith(line[p..], r.value)
                                   && forall q :: p < q ==> !DxdAt(line, q)
  {
    var p := LastDxd(line, |line|);
    if p < 0 then None
    else
      var digits := DigitPrefix(line[p + 2..]);
      var n := if |digits| < 5 then |digits| else 5;
      var t := line[p..p + 2 + n];
      assert t[2..] == digits[..n];
      assert StartsWith(line[p..], t);
      Some(t)
  }

  /** The match in the first line that has one: `.` does not cross a line feed, and
      the unanchored search takes the leftmost starting line. */
  function FirstCapture(lines: seq<string>, inLine: string -> Option<string>): (r: Option<string>)
    ensures r.Some? ==> exists i :: 0 <= i < |lines| && inLine(lines[i]) == r
    ensures r.None? <==> forall i :: 0 <= i < |lines| ==> inLine(lines[i]).None?
    decreases |lines|
  {
    if |lines| == 0 then None
    else if inLine(lines[0]).Some? then inLine(lines[0])
    else
      assert forall i :: 0 <= i < |lines| - 1 ==> lines[1..][i] == lines[i + 1];
      FirstCapture(lines[1..], inLine)
  }

  /** The capture of `.*([0-9]{1,5}x[0-9]{1,5}).*` (lines 265 and 429). */
  function CaptureResolution(s: string): (r: Option<string>)
    ensures r.Some? ==> IsCapturedToken(r.value)
  {
    FirstCapture(Split(s, "\n"), CaptureInLine)
  }

  lemma CaptureInResolutionLine()
    ensures CaptureInLine("1920x1080") == Some("0x1080")
  {
    var s := "1920x1080";
    assert !DxdAt(s, 8) && !DxdAt(s, 7) && !DxdAt(s, 6) && !DxdAt(s, 5) && !DxdAt(s, 4);
    assert DxdAt(s, 3);
    assert LastDxd(s, |s|) == 3;
    assert s[5..] == "1080";
    assert DigitPrefix("") == "";
    assert DigitPrefix("0") == "0";
    assert DigitPrefix("80") == "80";
    assert DigitPrefix("080") == "080";
    assert DigitPrefix("1080") == "1080";
    assert s[3..9] == "0x1080";
  }

  /** The regular expression keeps only the last digit of the width:
      "1920x1080" yields "0x1080". */
  lemma CaptureDropsWidthDigits()
    ensures CaptureResolution("1920x1080") == Some("0x1080")
  {
    LacksChar("1920x1080", '\n');
    SplitWithoutSeparator("1920x1080", "\n");
    CaptureInResolutionLine();
  }

  /** The first letter's index in a refresh-rate text, or -1 (capturedStart of
      `[a-zA-Z]`). */
  function FirstLetter(s: string): (p: int)
    ensures p == -1 || (0 <= p < |s| && IsLetter(s[p]))
    ensures forall i :: 0 <= i < |s| && (p == -1 || i < p) ==> !IsLetter(s[i])
    decreases |s|
  {
    if |s| == 0 then -1
    else if IsLetter(s[0]) then 0
    else
      var k := FirstLetter(s[1..]);
      if k < 0 then -1 else k + 1
  }

  /** The refresh-rate text: with a board vendor set, the number in front of the
      unit is rounded up. */
  function AdjustRate(rate: string, env: Env): (r: string)
    ensures !env.boardVendorSet ==> r == rate
    ensures (forall i :: 0 <= i < |rate| ==> !IsLetter(rate[i])) ==> r == rate
    ensures |rate| > 0 && IsLetter(rate[0]) ==> r == rate
  {
    var pos := FirstLetter(rate);
    if pos > 0 && |rate| > pos && env.boardVendorSet then env.ceilRate(rate[..pos]) + rate[pos..]
    else rate
  }

  /** A rate made of a number `n` without letters and a unit `u` starting with a
      letter: with a board vendor set the number is replaced by its rounded-up text
      and the unit is kept; otherwise the rate is unchanged. */
  lemma AdjustRateRoundsNumber(n: string, u: string, env: Env)
    requires |n| > 0 && forall i :: 0 <= i < |n| ==> !IsLetter(n[i])
    requires |u| > 0 && IsLetter(u[0])
    ensures AdjustRate(n + u, env) == (if env.boardVendorSet then env.ceilRate(n) else n) + u
  {
    var s := n + u;
    var p := FirstLetter(s);
    assert IsLetter(s[|n|]);
    assert forall i :: 0 <= i < |n| ==> s[i] == n[i];
    assert p == |n|;
    assert s[..p] == n && s[p..] == u;
  }

  /** "%1@%2" with the capture and the rate, or "%1" with the capture alone. */
  function ResolutionText(cap: string, rate: string, env: Env): (r: string)
    ensures rate == "" ==> r == cap
    ensures rate != "" ==> StartsWith(r, cap + "@")
    ensures rate != "" && !env.boardVendorSet ==> r == cap + "@" + rate
    ensures rate != "" ==> r == cap + "@" + AdjustRate(rate, env)
  {
    if rate == "" then cap
    else
      var t := cap + "@" + AdjustRate(rate, env);
      assert t[..|cap + "@"|] == cap + "@";
      t
  }

  /** DeviceMonitor::setMainInfoFromXrandr: interface type, primary flag and current
      resolution from one xrandr line. It always reports success. */
  function SetMainInfoFromXrandr(m: Monitor, info: string, rate: string, env: Env)
    : (r: (bool, Monitor))
    ensures r.0
    ensures r.1 == m.(interfaceType := r.1.interfaceType, mainScreen := r.1.mainScreen,
                      currentResolution := r.1.currentResolution)
    ensures r.1.interfaceType == InterfaceMatch(info).GetOr(m.interfaceType)
    ensures r.1.mainScreen == (if !env.isXcb then m.mainScreen
                               else if Contains(info, "primary") then "Yes" else "NO")
    ensures CaptureResolution(info).None? ==> r.1.currentResolution == m.currentResolution
    ensures CaptureResolution(info).Some? && rate == "" ==>
              r.1.currentResolution == CaptureResolution(info).value
    ensures CaptureResolution(info).Some? && rate != "" ==>
              r.1.currentResolution == CaptureResolution(info).value + "@" + AdjustRate(rate, env)
  {
    var iface := match InterfaceMatch(info) case Some(l) => l case None => m.interfaceType;
    var main := if !env.isXcb then m.mainScreen else if Contains(info, "primary") then "Yes" else "NO";
    var cur := match CaptureResolution(info)
               case Some(c) => ResolutionText(c, rate, env)
               case None => m.currentResolution;
    (true, m.(interfaceType := iface, mainScreen := main, currentResolution := cur))
  }

  /** With a board vendor set, a rate "<number><unit>" appears in the current
      resolution with its number rounded up: "1920x1080@59.94Hz" becomes
      "1920x1080@60Hz" when the rounding gives "60". */
  lemma XrandrRoundsRate(m: Monitor, info: string, n: string, u: string, env: Env)
    requires CaptureResolution(info).Some?
    requires |n| > 0 && forall i :: 0 <= i < |n| ==> !IsLetter(n[i])
    requires |u| > 0 && IsLetter(u[0])
    requires env.boardVendorSet
    ensures SetMainInfoFromXrandr(m, info, n + u, env).1.currentResolution
            == CaptureResolution(info).value + "@" + env.ceilRate(n) + u
  {
    AdjustRateRoundsNumber(n, u, env);
  }

  /** DeviceMonitor::setInfoFromXradr: takes xrandr data only for a monitor without
      TOML data and without an interface type; a later line can only fill an empty
      current resolution and reports false. */
  function SetInfoFromXradr(m: Monitor, main: string, edid: string, rate: string, env: Env)
    : (r: (bool, Monitor))
    ensures m.isTomlSet ==> r == (false, m)
    ensures !m.isTomlSet && m.interfaceType != "" ==>
              !r.0 && r.1 == m.(currentResolution := r.1.currentResolution)
              && (m.currentResolution != "" ==> r.1 == m)
    ensures !m.isTomlSet && m.interfaceType != "" && m.currentResolution == ""
            && CaptureResolution(main).Some? ==>
              r.1.currentResolution == ResolutionText(CaptureResolution(main).value, rate, env)
    ensures !m.isTomlSet && m.interfaceType == "" && Contains(main, "disconnected") ==> r == (false, m)
    ensures r.0 ==> !m.isTomlSet && m.interfaceType == "" && !Contains(main, "disconnected")
    ensures r.0 && env.isXcb ==> edid != ""
  {
    if m.isTomlSet then (false, m)
    else if m.interfaceType != "" then
      if m.currentResolution == "" then
        match CaptureResolution(main)
        case Some(c) => (false, m.(currentResolution := ResolutionText(c, rate, env)))
        case None => (false, m)
      else (false, m)
    else if Contains(main, "disconnected") then (false, m)
    else if env.isXcb && edid == "" then (false, m)
    else
      var (sized, m1) := if env.isXcb then env.edid(m, edid) else (true, m);
      if !sized then (false, m1)
      else
        var (ok, m2) := SetMainInfoFromXrandr(m1, main, rate, env);
        if !ok then (false, m2) else (true, m2)
  }

  /** Once TOML data has been applied, xrandr changes nothing. */
  lemma TomlBlocksXrandr(m: Monitor, info: Info, main: string, edid: string, rate: string, env: Env)
    ensures var t := SetInfoFromToml(m, info, env).1;
            SetInfoFromXradr(t, main, edid, rate, env) == (false, t)
  {
  }

  /** A second xrandr line for a monitor that already has an interface type reports
      false and can at most fill the current resolution. */
  lemma XrandrOnlyOnce(m: Monitor, main: string, edid: string, rate: string,
                       main2: string, edid2: string, rate2: string, env: Env)
    requires SetInfoFromXradr(m, main, edid, rate, env).0
    requires SetInfoFromXradr(m, main, edid, rate, env).1.interfaceType != ""
    ensures var m1 := SetInfoFromXradr(m, main, edid, rate, env).1;
            var r := SetInfoFromXradr(m1, main2, edid2, rate2, env);
            !r.0 && r.1 == m1.(currentResolution := r.1.currentResolution)
  {
  }

  // ------------------------------------------------------------------
  // Rows shown in the detail table
  // ------------------------------------------------------------------

  /** The member of DeviceMonitor each detail-table label displays. */
  function Shown(m: Monitor, caption: string): Option<string> {
    match caption
    case "Name" => Some(m.name)
    case "Vendor" => Some(m.vendor)
    case "Type" => Some(m.model)
    case "Display Input" => Some(m.displayInput)
    case "Interface Type" => Some(m.interfaceType)
    case "Support Resolution" => Some(m.supportResolution)
    case "Current Resolution" => Some(m.currentResolution)
    case "Display Ratio" => Some(m.aspectRatio)
    case "Primary Monitor" => Some(m.mainScreen)
    case "Size" => Some(m.screenSize)
    case "Serial Number" => Some(m.serialNumber)
    case _ => None
  }

  /** Every row shows the member its label names. */
  predicate ShowsMembers(m: Monitor, rows: Pairs) {
    forall i :: 0 <= i < |rows| ==> Shown(m, rows[i].0) == Some(rows[i].1)
  }

  /** DeviceMonitor::loadBaseDeviceInfo: the rows requested from addBaseDeviceInfo. */
  function LoadBaseDeviceInfo(m: Monitor): (rows: Pairs)
    ensures Labels(rows) == ["Name", "Vendor", "Type", "Display Input", "Interface Type"]
    ensures ShowsMembers(m, rows)
  {
    [("Name", m.name), ("Vendor", m.vendor), ("Type", m.model),
     ("Display Input", m.displayInput), ("Interface Type", m.interfaceType)]
  }

  /** DeviceMonitor::loadOtherDeviceInfo: the rows requested from addOtherDeviceInfo.
      "Current Resolution" and "Display Ratio" are left out exactly when the current
      resolution is "@Hz"; "Product Date" is never shown. */
  function LoadOtherDeviceInfo(m: Monitor): (rows: Pairs)
    ensures (exists i :: 0 <= i < |rows| && rows[i] == ("Current Resolution", m.currentResolution))
            <==> m.currentResolution != "@Hz"
    ensures (exists i :: 0 <= i < |rows| && rows[i].0 == "Display Ratio") <==> m.currentResolution != "@Hz"
    ensures |rows| == (if m.currentResolution == "@Hz" then 4 else 6)
    ensures rows[0] == ("Support Resolution", m.supportResolution)
    ensures rows[|rows| - 1] == ("Serial Number", m.serialNumber)
    ensures Labels(rows)
            == ["Support Resolution"]
               + (if m.currentResolution != "@Hz" then ["Current Resolution", "Display Ratio"] else [])
               + ["Primary Monitor", "Size", "Serial Number"]
    ensures ShowsMembers(m, rows)
  {
    var shown := if m.currentResolution != "@Hz" then
                   [("Current Resolution", m.currentResolution), ("Display Ratio", m.aspectRatio)]
                 else [];
    var rows := [("Support Resolution", m.supportResolution)] + shown
                + [("Primary Monitor", m.mainScreen), ("Size", m.screenSize), ("Serial Number", m.serialNumber)];
    assert m.currentResolution != "@Hz" ==>
             rows[1] == ("Current Resolution", m.currentResolution) && rows[2].0 == "Display Ratio";
    rows
  }

  /** A self-defined record shows up in the table: its name and vendor in the
      base rows, while the type, display input and interface rows keep their
      values; its resolutions and size in the other rows, with the current
      resolution row present exactly when the new value is not "@Hz". */
  lemma SelfDefineShownInRows(m: Monitor, info: Info, attr: Attr)
    ensures var r := SetInfoFromSelfDefine(m, info, attr);
            var base := LoadBaseDeviceInfo(r);
            base[0].1 == attr(info, "Name", m.name) && base[1].1 == attr(info, "Vendor", m.vendor)
            && base[2..] == LoadBaseDeviceInfo(m)[2..]
    ensures var r := SetInfoFromSelfDefine(m, info, attr);
            var other := LoadOtherDeviceInfo(r);
            other[0].1 == attr(info, "SupportResolution", m.supportResolution)
            && other[|other| - 2] == ("Size", attr(info, "Size", m.screenSize))
            && ((exists i :: 0 <= i < |other| && other[i] == ("Current Resolution", attr(info, "CurResolution", m.currentResolution)))
                <==> attr(info, "CurResolution", m.currentResolution) != "@Hz")
  {
    var r := SetInfoFromSelfDefine(m, info, attr);
    var other := LoadOtherDeviceInfo(r);
    assert Labels(other)[|other| - 2] == "Size";
    assert ShowsMembers(r, other);
  }
}

=== FILE: driver_installer.dfy ===
/** The package installer of the device-control service (DriverInstaller): the
    dpkg-lock retry loop, the decisions around the apt transaction, and the
    network check that reads ping's summary. The apt backend, dpkg's lock, the
    timer and the ping process are inputs. */
module DriverInstaller {
  import opened Wrappers
  import opened QStr

  /** MAX_DPKGRUNING_TEST: how often a locked dpkg is waited for. */
  const MAX_RETRIES: int := 20

  /** What the installer emits, in order. `Retry` stands for a retry scheduled
      on the timer and `Operate` for the call of doOperate. */
  datatype Event =
    | Retry
    | ErrorNull
    | ErrorNotFound
    | ErrorNetwork
    | ErrorCancel
    | Finished(success: bool)
    | Progress(percent: int)
    | Operate
    | TransactionStarted
    | CancelRequested

  /** m_iRuningTestCount and m_Cancel. */
  datatype Installer = Installer(count: int, cancel: bool)

  // ------------------------------------------------------------------
  // installPackage and its retry counter
  // ------------------------------------------------------------------

  /** What one attempt does when dpkg is locked or not: schedule a retry while
      the counter is below the limit, otherwise report the failure when locked
      and operate anyway. The flag says whether a retry was scheduled. */
  function Attempt(count: int, locked: bool): (r: (seq<Event>, bool))
    ensures r.1 <==> locked && count < MAX_RETRIES
    ensures r.1 ==> r.0 == [Retry]
    ensures !r.1 ==> r.0 == (if locked then [ErrorNull, Finished(false), Operate] else [Operate])
  {
    if locked then
      if count < MAX_RETRIES then ([Retry], true)
      else ([ErrorNull, Finished(false), Operate], false)
    else ([Operate], false)
  }

  /** installPackage as written, on the successive answers `locks` of the lock
      test (one per attempt; attempts past the end are not observed). The retry
      lambda calls installPackage first and increments the counter after it, so
      an attempt run from the timer leaves the counter one higher than the
      attempt set it: a retry that operates resets it to 0 and then it becomes 1. */
  function InstallAsWritten(s: Installer, locks: seq<bool>, fromTimer: bool): (r: (seq<Event>, Installer))
    decreases |locks|
  {
    if |locks| == 0 then ([], s)
    else
      var a := Attempt(s.count, locks[0]);
      var after := if a.1 then s else Installer(0, false);
      var bumped := if fromTimer then after.(count := after.count + 1) else after;
      if a.1 then
        var rest := InstallAsWritten(bumped, locks[1..], true);
        (a.0 + rest.0, rest.1)
      else (a.0, bumped)
  }

  /** installPackage with the counter incremented before the retried call, as
      the limit of 20 retries intends. */
  function Install(s: Installer, locks: seq<bool>): (r: (seq<Event>, Installer))
    ensures Operate in r.0 ==> r.1.count == 0 && !r.1.cancel
    decreases |locks|
  {
    if |locks| == 0 then ([], s)
    else
      var a := Attempt(s.count, locks[0]);
      if a.1 then
        var rest := Install(s.(count := s.count + 1), locks[1..]);
        (a.0 + rest.0, rest.1)
      else (a.0, Installer(0, false))
  }

  /** `n` scheduled retries. */
  function Retries(n: nat): (r: seq<Event>)
    ensures |r| == n && forall i :: 0 <= i < n ==> r[i] == Retry
  {
    if n == 0 then [] else [Retry] + Retries(n - 1)
  }

  const GIVE_UP: seq<Event> := [ErrorNull, Finished(false), Operate]

  /** Corrected: with dpkg locked throughout, the installer retries exactly as
      often as the counter allows, then reports the failure, operates anyway and
      leaves the counter at 0. */
  lemma {:induction false} InstallWhileLocked(s: Installer, locks: seq<bool>)
    requires 0 <= s.count <= MAX_RETRIES
    requires |locks| > MAX_RETRIES - s.count
    requires forall i :: 0 <= i < |locks| ==> locks[i]
    ensures Install(s, locks).0 == Retries(MAX_RETRIES - s.count) + GIVE_UP
    ensures Install(s, locks).1 == Installer(0, false)
    decreases MAX_RETRIES - s.count
  {
    assert locks[0];
    if s.count < MAX_RETRIES {
      var s' := s.(count := s.count + 1);
      assert forall i :: 0 <= i < |locks[1..]| ==> locks[1..][i];
      InstallWhileLocked(s', locks[1..]);
      assert Install(s, locks).0 == [Retry] + Install(s', locks[1..]).0;
      assert Install(s, locks).1 == Install(s', locks[1..]).1;
      assert Retries(MAX_RETRIES - s.count) == [Retry] + Retries(MAX_RETRIES - s'.count);
    }
  }

  /** Corrected: one locked attempt followed by a free one operates after one
      retry and leaves the counter at 0. */
  lemma InstallAfterOneRetry()
    ensures Install(Installer(0, false), [true, false]).0 == [Retry, Operate]
    ensures Install(Installer(0, false), [true, false]).1 == Installer(0, false)
  {
    assert [true, false][1..] == [false];
    assert Install(Installer(1, false), [false]) == ([Operate], Installer(0, false));
  }

  /** As written: the same answers leave the counter at 1, so the next
      installation gets one retry fewer. */
  lemma AsWrittenLeavesCounterAtOne()
    ensures InstallAsWritten(Installer(0, false), [true, false], false).0 == [Retry, Operate]
    ensures InstallAsWritten(Installer(0, false), [true, false], false).1 == Installer(1, false)
  {
    assert [true, false][1..] == [false];
    assert InstallAsWritten(Installer(0, false), [false], true) == ([Operate], Installer(1, false));
  }

  /** As written, from the timer: with dpkg locked throughout, every attempt
      sees the counter as the previous one left it. */
  lemma {:induction false} AsWrittenWhileLocked(s: Installer, locks: seq<bool>)
    requires 0 <= s.count <= MAX_RETRIES
    requires |locks| > MAX_RETRIES - s.count
    requires forall i :: 0 <= i < |locks| ==> locks[i]
    ensures InstallAsWritten(s, locks, true).0 == Retries(MAX_RETRIES - s.count) + GIVE_UP
    ensures InstallAsWritten(s, locks, true).1 == Installer(1, false)
    decreases MAX_RETRIES - s.count
  {
    assert locks[0];
    if s.count < MAX_RETRIES {
      var s' := s.(count := s.count + 1);
      assert forall i :: 0 <= i < |locks[1..]| ==> locks[1..][i];
      AsWrittenWhileLocked(s', locks[1..]);
      assert InstallAsWritten(s, locks, true).0 == [Retry] + InstallAsWritten(s', locks[1..], true).0;
      assert InstallAsWritten(s, locks, true).1 == InstallAsWritten(s', locks[1..], true).1;
      assert Retries(MAX_RETRIES - s.count) == [Retry] + Retries(MAX_RETRIES - s'.count);
    }
  }

  /** As written: a first call with dpkg locked throughout retries 21 times, one
      more than the limit, because the first retried attempt still sees 0. */
  lemma AsWrittenRetriesOnceMore(locks: seq<bool>)
    requires |locks| > MAX_RETRIES + 1
    requires forall i :: 0 <= i < |locks| ==> locks[i]
    ensures InstallAsWritten(Installer(0, false), locks, false).0 == Retries(MAX_RETRIES + 1) + GIVE_UP
    ensures InstallAsWritten(Installer(0, false), locks, false).1 == Installer(1, false)
  {
    var s := Installer(0, false);
    assert locks[0];
    assert forall i :: 0 <= i < |locks[1..]| ==> locks[1..][i];
    AsWrittenWhileLocked(s, locks[1..]);
    assert InstallAsWritten(s, locks, false).0 == [Retry] + InstallAsWritten(s, locks[1..], true).0;
    assert InstallAsWritten(s, locks, false).1 == InstallAsWritten(s, locks[1..], true).1;
    assert Retries(MAX_RETRIES + 1) == [Retry] + Retries(MAX_RETRIES);
  }

  // ------------------------------------------------------------------
  // doOperate and the transaction's signals
  // ------------------------------------------------------------------

  /** What the apt backend answers: whether it initialises, knows the package,
      has the version, and hands back a transaction. */
  datatype Backend = Backend(initOk: bool, hasPackage: bool, hasVersion: bool, transactionOk: bool)

  /** DriverInstaller::doOperate: each failure emits one error and starts
      nothing; otherwise the transaction is started. */
  function DoOperate(b: Backend): (r: seq<Event>)
    ensures |r| == 1
    ensures r == [TransactionStarted] <==> b.initOk && b.hasPackage && b.hasVersion && b.transactionOk
    ensures !b.initOk ==> r == [ErrorNull]
    ensures b.initOk && !(b.hasPackage && b.hasVersion) ==> r == [ErrorNotFound]
    ensures b.initOk && b.hasPackage && b.hasVersion && !b.transactionOk ==> r == [ErrorNull]
  {
    if !b.initOk then [ErrorNull]
    else if !b.hasPackage then [ErrorNotFound]
    else if !b.hasVersion then [ErrorNotFound]
    else if !b.transactionOk then [ErrorNull]
    else [TransactionStarted]
  }

  datatype ExitStatus = ExitSuccess | ExitFailed | ExitCancelled | ExitOther
  datatype ErrorCode = Success | CommitError | FetchError | OtherError

  /** The transaction's finished handler for package `package`. `online` is what
      isNetworkOnline would answer, a crash included; it is only asked for a
      commit error of a failed transaction. */
  function OnFinished(package: string, status: ExitStatus, code: ErrorCode, online: Result<bool>)
    : (r: Result<seq<Event>>)
    ensures r.Crash? <==> status == ExitFailed && code == CommitError && online.Crash?
    ensures status == ExitSuccess ==> r == Ok(if code == Success then [Finished(true)] else [])
    ensures status == ExitCancelled ==> r == Ok([ErrorCancel])
    ensures status == ExitFailed && r.Ok? ==>
              (Finished(true) in r.value <==> Contains(package, "nvidia-driver") && code == CommitError)
              && (ErrorNetwork in r.value <==> code == FetchError || (code == CommitError && !online.value))
    ensures status == ExitFailed && r.Ok? ==>
              |r.value| <= 2 && (forall e :: e in r.value ==> e == Finished(true) || e == ErrorNetwork)
              && (|r.value| == 2 ==> r.value == [Finished(true), ErrorNetwork])
    ensures status == ExitOther ==> r == Ok([])
  {
    match status
    case ExitSuccess => Ok(if code == Success then [Finished(true)] else [])
    case ExitFailed =>
      var nvidia := if Contains(package, "nvidia-driver") && code == CommitError then [Finished(true)] else [];
      if code == FetchError then Ok(nvidia + [ErrorNetwork])
      else if code != CommitError then Ok(nvidia)
      else
        (match online
         case Crash(why) => Crash(why)
         case Ok(up) => Ok(nvidia + (if up then [] else [ErrorNetwork])))
    case ExitCancelled => Ok([ErrorCancel])
    case ExitOther => Ok([])
  }

  /** An nvidia driver whose commit fails while offline is reported both as
      installed and as a network error. */
  lemma NvidiaOfflineBoth(package: string)
    requires Contains(package, "nvidia-driver")
    ensures OnFinished(package, ExitFailed, CommitError, Ok(false)) == Ok([Finished(true), ErrorNetwork])
  {
  }

  /** A failed commit of a package that is not an nvidia driver, while online,
      reports nothing: neither success nor an error. */
  lemma CommitErrorOnlineSilent(package: string)
    requires !Contains(package, "nvidia-driver")
    ensures OnFinished(package, ExitFailed, CommitError, Ok(true)) == Ok([])
  {
  }

  /** The progressChanged handler: once cancelled the transaction is asked to
      cancel and the progress is not forwarded. */
  function OnProgress(s: Installer, percent: int): (r: seq<Event>)
    ensures Progress(percent) in r <==> !s.cancel
    ensures CancelRequested in r <==> s.cancel
  {
    if s.cancel then [CancelRequested] else [Progress(percent)]
  }

  /** The downloadProgressChanged handler: it only ever asks to cancel. */
  function OnDownloadProgress(s: Installer): (r: seq<Event>)
    ensures r != [] <==> s.cancel
    ensures forall e :: e in r ==> e == CancelRequested
  {
    if s.cancel then [CancelRequested] else []
  }

  /** DriverInstaller::undoInstallDriver: only with a running transaction. */
  function UndoInstall(s: Installer, running: bool): (r: (Installer, seq<Event>))
    ensures running ==> r.0.cancel && r.1 == [CancelRequested]
    ensures !running ==> r == (s, [])
  {
    if running then (s.(cancel := true), [CancelRequested]) else (s, [])
  }

  /** After undo, progress is no longer forwarded. */
  lemma UndoStopsProgress(s: Installer, percent: int)
    ensures OnProgress(UndoInstall(s, true).0, percent) == [CancelRequested]
    ensures OnDownloadProgress(UndoInstall(s, true).0) == [CancelRequested]
  {
  }

  // ------------------------------------------------------------------
  // isNetworkOnline
  // ------------------------------------------------------------------

  /** The lines std::getline reads from a file: split at line feeds, where a
      final line feed does not start another, empty line. */
  function GetLines(text: string): (lines: seq<string>)
    ensures text == "" ==> lines == []
  {
    if text == "" then []
    else
      var parts := Split(text, "\n");
      if parts[|parts| - 1] == "" then parts[..|parts| - 1] else parts
  }

  /** The white space the C library's isspace accepts. */
  predicate IsCSpace(c: char) {
    c == ' ' || c == '\t' || c == '\n' || c == '\U{0B}' || c == '\U{0C}' || c == '\r'
  }

  function SkipCSpace(s: string): (r: string)
    ensures |r| <= |s| && r == s[|s| - |r|..]
    ensures |r| > 0 ==> !IsCSpace(r[0])
    decreases |s|
  {
    if |s| > 0 && IsCSpace(s[0]) then SkipCSpace(s[1..]) else s
  }

  /** atoi on a short string: leading white space, an optional sign, then the
      digits up to the first other character; 0 when there are none. */
  function Atoi(s: string): int {
    var t := SkipCSpace(s);
    var neg := |t| > 0 && t[0] == '-';
    var body := if |t| > 0 && (t[0] == '-' || t[0] == '+') then t[1..] else t;
    var v := DigitsValue(DigitPrefix(body)) as int;
    if neg then -v else v
  }

  /** std::string::substr(pos, 3): a position past the end throws, which ends
      the process. */
  function Substr3(s: string, pos: int): (r: Result<string>)
    ensures r.Ok? <==> 0 <= pos <= |s|
    ensures r.Ok? ==> |r.value| == (if pos + 3 <= |s| then 3 else |s| - pos)
    ensures r.Ok? ==> pos + |r.value| <= |s| && r.value == s[pos..pos + |r.value|]
  {
    if pos < 0 || pos > |s| then Crash("std::out_of_range from substr")
    else if pos + 3 <= |s| then Ok(s[pos..pos + 3]) else Ok(s[pos..])
  }

  /** DriverInstaller::isNetworkOnline with the ping process's exit and the
      file it wrote as inputs: the second-to-last line must hold "received,",
      and the three characters starting one past the comma's following
      character must read as 0 (the packet loss). */
  function IsNetworkOnline(normalExit: bool, exitCode: int, output: string): (r: Result<bool>)
    ensures !(normalExit && exitCode == 0) ==> r == Ok(false)
    ensures |GetLines(output)| < 2 ==> r == Ok(false)
    ensures r == Ok(true) ==>
              normalExit && exitCode == 0 && |GetLines(output)| >= 2
              && Contains(GetLines(output)[|GetLines(output)| - 2], "received,")
  {
    if !(normalExit && exitCode == 0) then Ok(false)
    else
      var v := GetLines(output);
      if |v| > 1 then LossAnswer(v[|v| - 2]) else Ok(false)
  }

  /** The answer read from the summary line: the three characters starting 10
      past "received," must read as 0; without "received," the answer is false. */
  function LossAnswer(data: string): (r: Result<bool>)
    ensures r == Ok(true) ==> Contains(data, "received,")
  {
    LossAfter(data, IndexOf(data, "received,"))
  }

  /** The answer once "received," was searched for and found at `pos` (-1: absent). */
  function LossAfter(data: string, pos: int): (r: Result<bool>)
    requires pos == -1 || OccursAt(data, "received,", pos)
    ensures r == Ok(true) ==> Contains(data, "received,")
    ensures pos >= 0 && pos + 10 <= |data| ==> r == Ok(Atoi(Substr3(data, pos + 10).value) == 0)
    ensures pos >= 0 && pos + 10 > |data| ==> r.Crash?
  {
    if pos != -1 then
      match Substr3(data, pos + 10)
      case Crash(why) => Crash(why)
      case Ok(loss) => Ok(Atoi(loss) == 0)
    else Ok(false)
  }

  /** Lines written one after the other, each ended by a line feed. */
  function Terminated(lines: seq<string>): string
    decreases |lines|
  {
    if |lines| == 0 then "" else lines[0] + "\n" + Terminated(lines[1..])
  }

  lemma {:induction false} SplitTerminated(lines: seq<string>)
    requires forall i :: 0 <= i < |lines| ==> !Contains(lines[i], "\n")
    ensures Split(Terminated(lines), "\n") == lines + [""]
    decreases |lines|
  {
    if |lines| == 0 {
      SplitWithoutSeparator("", "\n");
    } else {
      var rest := Terminated(lines[1..]);
      assert Split(rest, "\n") == lines[1..] + [""] by {
        SplitTerminated(lines[1..]);
      }
      assert Split(Terminated(lines), "\n") == [lines[0]] + Split(rest, "\n") by {
        LineThenRest(lines[0], rest);
      }
      assert [lines[0]] + (lines[1..] + [""]) == lines + [""];
    }
  }

  /** One line feed after a line free of them separates it from the rest. */
  lemma LineThenRest(line: string, rest: string)
    requires !Contains(line, "\n")
    ensures Split(line + "\n" + rest, "\n") == [line] + Split(rest, "\n")
  {
    SplitFirst(line, '\n', rest);
  }

  /** Reading back what was written line by line gives the lines. */
  lemma GetLinesOfTerminated(lines: seq<string>)
    requires forall i :: 0 <= i < |lines| ==> !Contains(lines[i], "\n")
    ensures GetLines(Terminated(lines)) == lines
  {
    if |lines| > 0 {
      SplitTerminated(lines);
      assert (lines + [""])[..|lines|] == lines;
    }
  }

  /** Ping's output, with `summary` the line before the last. */
  function PingOutput(head: string, summary: string, last: string): string {
    Terminated([head, summary, last])
  }

  /** The summary line is the one read. */
  lemma SummaryIsRead(head: string, summary: string, last: string)
    requires !Contains(head, "\n") && !Contains(summary, "\n") && !Contains(last, "\n")
    ensures GetLines(PingOutput(head, summary, last)) == [head, summary, last]
  {
    GetLinesOfTerminated([head, summary, last]);
  }

  /** With "received," at `p` in the line before the last, the answer is read
      from the three characters at p + 10. */
  lemma ReadsLossAt(output: string, summary: string, p: int)
    requires |GetLines(output)| >= 2 && GetLines(output)[|GetLines(output)| - 2] == summary
    requires p >= 0 && IndexOf(summary, "received,") == p
    ensures p + 10 <= |summary| && Atoi(Substr3(summary, p + 10).value) == 0 ==>
              IsNetworkOnline(true, 0, output) == Ok(true)
    ensures p + 10 <= |summary| && Atoi(Substr3(summary, p + 10).value) != 0 ==>
              IsNetworkOnline(true, 0, output) == Ok(false)
    ensures p + 10 > |summary| ==> IsNetworkOnline(true, 0, output).Crash?
  {
    OnlineIsLossAnswer(output, summary);
    LossAnswerAt(summary, p);
  }

  lemma OnlineIsLossAnswer(output: string, summary: string)
    requires |GetLines(output)| >= 2 && GetLines(output)[|GetLines(output)| - 2] == summary
    ensures IsNetworkOnline(true, 0, output) == LossAnswer(summary)
  {
  }

  lemma LossAnswerAt(summary: string, p: int)
    requires p >= 0 && IndexOf(summary, "received,") == p
    ensures p + 10 <= |summary| ==> LossAnswer(summary) == Ok(Atoi(Substr3(summary, p + 10).value) == 0)
    ensures p + 10 > |summary| ==> LossAnswer(summary).Crash?
  {
    assert LossAnswer(summary) == LossAfter(summary, p);
  }

  /** atoi of a digit followed by a non-digit is that digit's value. */
  lemma AtoiOneDigit(s: string)
    requires |s| >= 2 && IsDigit(s[0]) && !IsDigit(s[1])
    ensures Atoi(s) == DigitValue(s[0])
  {
    assert SkipCSpace(s) == s;
    assert DigitPrefix(s[1..]) == "";
    assert DigitPrefix(s) == [s[0]];
    assert DigitsValue([s[0]]) == 10 * DigitsValue([]) + DigitValue(s[0]);
  }

  /** The loss read at p + 10 when a single digit stands there. */
  lemma LossDigit(summary: string, p: int)
    requires p >= 0 && p + 12 <= |summary| && IsDigit(summary[p + 10]) && !IsDigit(summary[p + 11])
    ensures Substr3(summary, p + 10).Ok?
    ensures Atoi(Substr3(summary, p + 10).value) == DigitValue(summary[p + 10])
    ensures Atoi(Substr3(summary, p + 10).value) == 0 <==> summary[p + 10] == '0'
  {
    var loss := Substr3(summary, p + 10).value;
    assert loss[0] == summary[p + 10] && loss[1] == summary[p + 11];
    AtoiOneDigit(loss);
    assert DigitValue(loss[0]) == 0 <==> loss[0] == '0' by {
      assert loss[0] as int - '0' as int == 0 <==> loss[0] as int == '0' as int;
    }
  }

  /** A single digit after "received, " decides: 0 is online, anything else is
      not. */
  lemma LossDigitDecides(output: string, summary: string, p: int)
    requires |GetLines(output)| >= 2 && GetLines(output)[|GetLines(output)| - 2] == summary
    requires p >= 0 && IndexOf(summary, "received,") == p
    requires p + 12 <= |summary| && IsDigit(summary[p + 10]) && !IsDigit(summary[p + 11])
    ensures IsNetworkOnline(true, 0, output) == Ok(summary[p + 10] == '0')
  {
    LossDigit(summary, p);
    ReadsLossAt(output, summary, p);
    if summary[p + 10] == '0' {
      assert IsNetworkOnline(true, 0, output) == Ok(true);
    } else {
      assert IsNetworkOnline(true, 0, output) == Ok(false);
    }
  }

  /** A summary whose loss, one character after "received,", is a lone 0
      ("0% packet loss") means online. */
  lemma NoLossOnline(head: string, summary: string, last: string, p: int)
    requires !Contains(head, "\n") && !Contains(summary, "\n") && !Contains(last, "\n")
    requires p >= 0 && IndexOf(summary, "received,") == p
    requires p + 12 <= |summary| && summary[p + 10] == '0' && !IsDigit(summary[p + 11])
    ensures IsNetworkOnline(true, 0, PingOutput(head, summary, last)) == Ok(true)
  {
    var output := PingOutput(head, summary, last);
    assert |GetLines(output)| >= 2 && GetLines(output)[|GetLines(output)| - 2] == summary by {
      SummaryIsRead(head, summary, last);
    }
    LossDigitDecides(output, summary, p);
  }

  /** A loss that is a single non-zero digit ("2% packet loss") means offline. */
  lemma SomeLossOffline(head: string, summary: string, last: string, p: int)
    requires !Contains(head, "\n") && !Contains(summary, "\n") && !Contains(last, "\n")
    requires p >= 0 && IndexOf(summary, "received,") == p
    requires p + 12 <= |summary| && '1' <= summary[p + 10] <= '9' && !IsDigit(summary[p + 11])
    ensures IsNetworkOnline(true, 0, PingOutput(head, summary, last)) == Ok(false)
  {
    var output := PingOutput(head, summary, last);
    assert |GetLines(output)| >= 2 && GetLines(output)[|GetLines(output)| - 2] == summary by {
      SummaryIsRead(head, summary, last);
    }
    LossDigitDecides(output, summary, p);
  }

  /** A summary ending right after "received," makes substr throw: the position
      read is one past the end of the line. */
  lemma ReceivedAtLineEndCrashes(head: string, summary: string, last: string)
    requires !Contains(head, "\n") && !Contains(summary, "\n") && !Contains(last, "\n")
    requires |summary| >= 9 && IndexOf(summary, "received,") == |summary| - 9
    ensures IsNetworkOnline(true, 0, PingOutput(head, summary, last)).Crash?
  {
    var output := PingOutput(head, summary, last);
    assert |GetLines(output)| >= 2 && GetLines(output)[|GetLines(output)| - 2] == summary by {
      SummaryIsRead(head, summary, last);
    }
    ReadsLossAt(output, summary, |summary| - 9);
  }
}

=== FILE: klu_generator.dfy ===
/** The device-list fixes applied on KLU machines (KLUGenerator): boot-disk
    overrides, the wired-network filter, the wifi information file and a fixed
    built-in panel. */
module KLUGenerator {
  import opened Wrappers
  import opened QStr
  import opened DeviceBase
  import DeviceMonitor

  // ------------------------------------------------------------------
  // Disks
  // ------------------------------------------------------------------

  /** What the two `cat` processes report: exit code and standard output. The
      second one only runs when the first says "true". */
  datatype UfsProbe = UfsProbe(wbExit: int, wbOut: string, specExit: int, specOut: string)

  /** The exit codes 126 and 127 mean the command could not be run. */
  predicate Ran(exitCode: int) {
    exitCode != 126 && exitCode != 127
  }

  /** UFS 3.1 is reported when write booster is on and the spec version is 310. */
  predicate IsUfs31(p: UfsProbe) {
    Ran(p.wbExit) && Trim(p.wbOut) == "true" && Ran(p.specExit) && Trim(p.specOut) == "310"
  }

  /** The boot-device model: the first line of /proc/bootdevice/product_name,
      simplified, or "" when the file cannot be opened. */
  function BootModel(file: Option<string>): string {
    match file
    case None => ""
    case Some(text) => Simplified(Split(text, "\n")[0])
  }

  /** One lshw disk record as forwarded. Reading "product" through the non-const
      operator[] inserts it (empty) when absent. */
  function DiskRecord(d: Info, model: string, probe: UfsProbe): (r: Info)
    ensures "product" in r && Get(r, "product") == Get(d, "product")
    ensures d.Keys <= r.Keys
  {
    var t := Touch(d, "product");
    var iface := if IsUfs31(probe) then "UFS 3.1" else "UFS 3.0";
    if t["product"] != model then t
    else t["description" := "Universal Flash Storage"]["interface" := iface]
  }

  /** Only "description" and "interface" may change: every other field of the
      lshw record is forwarded as it was. */
  lemma DiskRecordKeepsOtherFields(d: Info, model: string, probe: UfsProbe)
    ensures forall k :: k in d && k != "description" && k != "interface" ==>
              DiskRecord(d, model, probe)[k] == d[k]
  {
    var t := Touch(d, "product");
    var r := DiskRecord(d, model, probe);
    forall k | k in d && k != "description" && k != "interface"
      ensures r[k] == d[k]
    {
      assert t[k] == d[k];
    }
  }

  /** A disk that is not the boot device is forwarded unchanged, except that it
      now holds a "product" key. */
  lemma NonBootDiskUnchanged(d: Info, model: string, probe: UfsProbe)
    requires Get(d, "product") != model
    ensures DiskRecord(d, model, probe) == Touch(d, "product")
  {
  }

  /** The boot disk is described as Universal Flash Storage with interface
      UFS 3.1 exactly when both reads succeed with "true" and "310", else UFS 3.0. */
  lemma BootDiskIsUfs(d: Info, model: string, probe: UfsProbe)
    requires Get(d, "product") == model
    ensures var r := DiskRecord(d, model, probe);
            r["description"] == "Universal Flash Storage"
            && (r["interface"] == "UFS 3.1" <==> IsUfs31(probe))
            && (r["interface"] == "UFS 3.0" <==> !IsUfs31(probe))
  {
  }

  /** Without a readable boot-device file the model is "", so every disk that has
      no product (or an empty one) is taken for the boot device. */
  lemma NoBootFileMatchesProductless(d: Info, probe: UfsProbe)
    requires "product" !in d
    ensures DiskRecord(d, BootModel(None), probe)["description"] == "Universal Flash Storage"
  {
  }

  /** KLUGenerator::getDiskInfoFromLshw: the records handed to
      addLshwinfoIntoStorageDevice, in order; records with fewer than two fields
      are skipped. */
  function DiskInfoFromLshw(disks: seq<Info>, model: string, probe: UfsProbe): (r: seq<Info>)
    ensures |r| <= |disks|
    ensures (forall j :: 0 <= j < |disks| ==> |disks[j]| >= 2) ==> |r| == |disks|
    ensures forall j :: 0 <= j < |disks| && |disks[j]| >= 2 ==> DiskRecord(disks[j], model, probe) in r
    decreases |disks|
  {
    if |disks| == 0 then []
    else
      var rest := DiskInfoFromLshw(disks[1..], model, probe);
      if |disks[0]| < 2 then rest
      else [DiskRecord(disks[0], model, probe)] + rest
  }

  /** Every forwarded record is the rewrite of an input record with at least two
      fields. */
  lemma {:induction false} DiskInfoFromLshwSources(disks: seq<Info>, model: string, probe: UfsProbe)
    ensures forall x :: x in DiskInfoFromLshw(disks, model, probe) ==>
              exists d :: d in disks && |d| >= 2 && x == DiskRecord(d, model, probe)
    decreases |disks|
  {
    if |disks| > 0 {
      var r := DiskInfoFromLshw(disks, model, probe);
      var rest := DiskInfoFromLshw(disks[1..], model, probe);
      DiskInfoFromLshwSources(disks[1..], model, probe);
      forall x | x in r
        ensures exists d :: d in disks && |d| >= 2 && x == DiskRecord(d, model, probe)
      {
        if x in rest {
          var d :| d in disks[1..] && |d| >= 2 && x == DiskRecord(d, model, probe);
          assert d in disks;
        } else {
          assert disks[0] in disks && |disks[0]| >= 2 && x == DiskRecord(disks[0], model, probe);
        }
      }
    }
  }

  /** The records with at least two fields, in order. */
  function LargeEnough(disks: seq<Info>): (r: seq<Info>)
    ensures forall i :: 0 <= i < |r| ==> |r[i]| >= 2 && r[i] in disks
    ensures forall d :: d in disks && |d| >= 2 ==> d in r
    decreases |disks|
  {
    if |disks| == 0 then []
    else if |disks[0]| < 2 then LargeEnough(disks[1..])
    else [disks[0]] + LargeEnough(disks[1..])
  }

  /** Each record rewritten on its own. */
  function RewriteEach(disks: seq<Info>, model: string, probe: UfsProbe): (r: seq<Info>)
    ensures |r| == |disks|
    ensures forall i :: 0 <= i < |r| ==> r[i] == DiskRecord(disks[i], model, probe)
  {
    seq(|disks|, i requires 0 <= i < |disks| => DiskRecord(disks[i], model, probe))
  }

  /** The forwarded records are exactly the rewrites of the records with at
      least two fields, in the order lshw listed them. */
  lemma {:induction false} DiskInfoFromLshwFilterThenRewrite(disks: seq<Info>, model: string, probe: UfsProbe)
    ensures DiskInfoFromLshw(disks, model, probe) == RewriteEach(LargeEnough(disks), model, probe)
    decreases |disks|
  {
    if |disks| > 0 {
      var rest := DiskInfoFromLshw(disks[1..], model, probe);
      var tail := LargeEnough(disks[1..]);
      assert rest == RewriteEach(tail, model, probe) by {
        DiskInfoFromLshwFilterThenRewrite(disks[1..], model, probe);
      }
      if |disks[0]| >= 2 {
        assert DiskInfoFromLshw(disks, model, probe) == [DiskRecord(disks[0], model, probe)] + rest;
        assert LargeEnough(disks) == [disks[0]] + tail;
        RewriteCons(disks[0], tail, model, probe);
      } else {
        assert DiskInfoFromLshw(disks, model, probe) == rest;
        assert LargeEnough(disks) == tail;
      }
    }
  }

  lemma RewriteCons(d: Info, tail: seq<Info>, model: string, probe: UfsProbe)
    ensures RewriteEach([d] + tail, model, probe) == [DiskRecord(d, model, probe)] + RewriteEach(tail, model, probe)
  {
    var a := RewriteEach([d] + tail, model, probe);
    var b := [DiskRecord(d, model, probe)] + RewriteEach(tail, model, probe);
    assert |a| == |b|;
    forall i | 0 <= i < |a|
      ensures a[i] == b[i]
    {
      if i > 0 {
        assert ([d] + tail)[i] == tail[i - 1];
      }
    }
  }

  // ------------------------------------------------------------------
  // Network
  // ------------------------------------------------------------------

  /** A wireless interface, recognised by its lshw configuration or capabilities. */
  predicate IsWireless(m: Info) {
    IndexOf(Get(m, "configuration"), "wireless=IEEE 802.11") > -1
    || IndexOf(Get(m, "capabilities"), "wireless") > -1
  }

  /** A network device created from an lshw record, with the flags the KLU
      generator forces on it. */
  datatype NetDevice = NetDevice(lshw: Info, canEnable: bool, canUninstall: bool, forcedDisplay: bool)

  /** A record that becomes a network device: at least two fields, not wireless. */
  predicate Kept(m: Info) {
    |m| >= 2 && !IsWireless(m)
  }

  /** KLUGenerator::generatorNetworkDevice (the lshw part): one device per wired
      record with at least two fields, in order. */
  function GeneratorNetworkDevice(records: seq<Info>): (r: seq<NetDevice>)
    ensures |r| <= |records|
    ensures forall i :: 0 <= i < |r| ==>
              Kept(r[i].lshw) && r[i].lshw in records
              && !r[i].canEnable && !r[i].canUninstall && r[i].forcedDisplay
    decreases |records|
  {
    if |records| == 0 then []
    else
      var rest := GeneratorNetworkDevice(records[1..]);
      if !Kept(records[0]) then rest
      else [NetDevice(records[0], false, false, true)] + rest
  }

  /** When every record is wired and has two fields, each one becomes a device,
      in the same order. */
  lemma {:induction false} AllWiredRecordsKept(records: seq<Info>)
    requires forall j :: 0 <= j < |records| ==> Kept(records[j])
    ensures |GeneratorNetworkDevice(records)| == |records|
    ensures forall i :: 0 <= i < |records| ==> GeneratorNetworkDevice(records)[i].lshw == records[i]
    decreases |records|
  {
    if |records| > 0 {
      AllWiredRecordsKept(records[1..]);
    }
  }

  /** A wireless record, wherever it stands, produces no device. */
  lemma {:induction false} WirelessRecordDropped(a: seq<Info>, w: Info, b: seq<Info>)
    requires IsWireless(w)
    ensures GeneratorNetworkDevice(a + [w] + b) == GeneratorNetworkDevice(a + b)
    decreases |a|
  {
    if |a| == 0 {
      assert (a + [w] + b)[1..] == b;
      assert a + b == b;
    } else {
      assert (a + [w] + b)[1..] == a[1..] + [w] + b;
      assert (a + b)[1..] == a[1..] + b;
      WirelessRecordDropped(a[1..], w, b);
    }
  }

  // ------------------------------------------------------------------
  // Wifi information file
  // ------------------------------------------------------------------

  /** One line of the wifi information file: recorded when it splits on ':'
      (skipping empty parts) into exactly two parts; a later line with the same
      key overwrites an earlier one. */
  function ApplyWifiLine(m: Info, line: string): (r: Info)
    ensures m.Keys <= r.Keys
  {
    if line == "" then m
    else
      var parts := SplitSkipEmpty(line, ":");
      if |parts| == 2 then m[parts[0] := parts[1]] else m
  }

  function ApplyWifiLines(m: Info, lines: seq<string>): (r: Info)
    ensures m.Keys <= r.Keys
    decreases |lines|
  {
    if |lines| == 0 then m else ApplyWifiLines(ApplyWifiLine(m, lines[0]), lines[1..])
  }

  /** The map parsed from the whole file. */
  function ParseWifiInfo(text: string): Info {
    ApplyWifiLines(map[], Split(text, "\n"))
  }

  lemma {:induction false} ApplyWifiLinesAppend(m: Info, lines: seq<string>, line: string)
    ensures ApplyWifiLines(m, lines + [line]) == ApplyWifiLine(ApplyWifiLines(m, lines), line)
    decreases |lines|
  {
    if |lines| > 0 {
      assert (lines + [line])[1..] == lines[1..] + [line];
      ApplyWifiLinesAppend(ApplyWifiLine(m, lines[0]), lines[1..], line);
    }
  }

  /** A "key:value" line with no further ':' sets the key to the value, whatever
      the lines before it said. */
  lemma {:induction false} LastWifiLineWins(m: Info, lines: seq<string>, k: string, v: string)
    requires k != "" && v != "" && !Contains(k, ":") && !Contains(v, ":")
    ensures var r := ApplyWifiLines(m, lines + [k + ":" + v]); k in r && r[k] == v
  {
    ApplyWifiLinesAppend(m, lines, k + ":" + v);
    SplitOnce(k, ':', v);
    assert k + ":" + v == k + [':'] + v;
    NonEmptyKeepsFull([k, v]);
  }

  /** A line whose value itself holds ':' splits into three parts and is dropped. */
  lemma ValueWithColonDropped(m: Info, k: string, a: string, b: string)
    requires k != "" && a != "" && b != ""
    requires !Contains(k, ":") && !Contains(a, ":") && !Contains(b, ":")
    ensures ApplyWifiLine(m, k + ":" + a + ":" + b) == m
  {
    var line := k + ":" + a + ":" + b;
    assert Split(line, ":") == [k, a, b] by {
      SplitTwice(k, ':', a, b);
    }
    assert SplitSkipEmpty(line, ":") == [k, a, b] by {
      NonEmptyKeepsFull([k, a, b]);
    }
  }

  /** `remove("HUAWEI")` leaves a string without the word unchanged. */
  lemma RemoveAbsent(s: string, pat: string)
    requires |pat| > 0 && !Contains(s, pat)
    ensures ReplaceAll(s, pat, "") == s
  {
    ReplaceAllIsJoinSplit(s, pat, "");
    SplitWithoutSeparator(s, pat);
  }

  /** The chip type after the fix: when it names HUAWEI in any case, the
      upper-case word is removed and the rest trimmed. */
  function FixChipType(chip: string): (r: string)
    ensures !ContainsCI(chip, "HUAWEI") ==> r == chip
  {
    if ContainsCI(chip, "HUAWEI") then Trim(ReplaceAll(chip, "HUAWEI", "")) else chip
  }

  /** The record handed to setNetworkInfoFromWifiInfo. Reading "Chip Type"
      through operator[] inserts it (empty) when absent. */
  function FixWifiInfo(m: Info): (r: Info)
    ensures r.Keys == m.Keys + {"Chip Type", "Vendor", "Type"}
  {
    var t := Touch(m, "Chip Type");
    t["Chip Type" := FixChipType(t["Chip Type"])]["Vendor" := "HISILICON"]["Type" := "Wireless network"]
  }

  /** What the fixed record holds: the vendor and type are forced, the chip type
      is fixed, everything else is kept. */
  lemma FixWifiInfoFields(m: Info)
    ensures var r := FixWifiInfo(m);
            r["Vendor"] == "HISILICON" && r["Type"] == "Wireless network"
            && r["Chip Type"] == FixChipType(Get(m, "Chip Type"))
            && (!ContainsCI(Get(m, "Chip Type"), "HUAWEI") ==> r["Chip Type"] == Get(m, "Chip Type"))
  {
    var t := Touch(m, "Chip Type");
    assert t["Chip Type"] == Get(m, "Chip Type");
  }

  lemma FixWifiInfoKeepsOtherFields(m: Info)
    ensures forall k :: k in m && k !in {"Chip Type", "Vendor", "Type"} ==> FixWifiInfo(m)[k] == m[k]
  {
    var t := Touch(m, "Chip Type");
    var r := FixWifiInfo(m);
    forall k | k in m && k !in {"Chip Type", "Vendor", "Type"}
      ensures r[k] == m[k]
    {
      assert t[k] == m[k];
    }
  }

  /** The chip type read from wifi_devices_info, "HUAWEI HI103", loses the leading
      word: a chip type that starts with "HUAWEI" and does not name it again becomes
      the rest, trimmed. */
  lemma HuaweiPrefixRemoved(rest: string)
    requires !Contains(rest, "HUAWEI")
    ensures FixChipType("HUAWEI" + rest) == Trim(rest)
  {
    var chip := "HUAWEI" + rest;
    assert ContainsCI(chip, "HUAWEI") by {
      assert Lower("HUAWEI") == "huawei";
      assert Lower(chip)[0..6] == "huawei";
      ContainsIff(Lower(chip), Lower("HUAWEI"), 0);
    }
    assert ReplaceAll(chip, "HUAWEI", "") == ReplaceAll(rest, "HUAWEI", "") by {
      assert chip[..6] == "HUAWEI" && chip[6..] == rest;
    }
    RemoveAbsent(rest, "HUAWEI");
  }

  /** A chip type naming HUAWEI only in lower case keeps the word: it is trimmed,
      nothing is removed. */
  lemma LowerCaseHuaweiKept(m: Info)
    requires ContainsCI(Get(m, "Chip Type"), "HUAWEI") && !Contains(Get(m, "Chip Type"), "HUAWEI")
    ensures FixWifiInfo(m)["Chip Type"] == Trim(Get(m, "Chip Type"))
  {
    FixWifiInfoFields(m);
    RemoveAbsent(Get(m, "Chip Type"), "HUAWEI");
  }

  /** KLUGenerator::getNetworkInfoFromCatWifiInfo: nothing when the file cannot be
      opened or yields an empty map; a map of fewer than three entries is ignored;
      otherwise one fixed record. */
  function WifiInfoFromFile(file: Option<string>): (r: seq<Info>)
    ensures |r| <= 1
    ensures |r| == 1 <==> file.Some? && |ParseWifiInfo(file.value)| >= 3
    ensures |r| == 1 ==> r[0] == FixWifiInfo(ParseWifiInfo(file.value))
  {
    match file
    case None => []
    case Some(text) =>
      var info := ParseWifiInfo(text);
      var listed := if |info| != 0 then [info] else [];
      if |listed| == 1 && |listed[0]| >= 3 then [FixWifiInfo(listed[0])] else []
  }

  // ------------------------------------------------------------------
  // Built-in panel
  // ------------------------------------------------------------------

  /** The map KLUGenerator::generatorMonitorDevice hands to setInfoFromSelfDefine. */
  const FixedMonitorInfo: Info :=
    map["Name" := "LCD", "CurResolution" := "2160x1440@60Hz",
        "SupportResolution" := "2160x1440@60Hz", "Size" := "14 Inch"]

  /** KLUGenerator::generatorMonitorDevice: a fresh monitor filled from the fixed
      map; each of the six attributes is whatever the setter gives for its key
      in that map, starting from an empty value, and the rest stay empty. */
  function GeneratorMonitorDevice(attr: Attr): (m: DeviceMonitor.Monitor)
    ensures m.interfaceType == "" && m.aspectRatio == "" && m.otherInfo == []
    ensures m.name == attr(FixedMonitorInfo, "Name", "")
    ensures m.vendor == attr(FixedMonitorInfo, "Vendor", "")
    ensures m.currentResolution == attr(FixedMonitorInfo, "CurResolution", "")
    ensures m.supportResolution == attr(FixedMonitorInfo, "SupportResolution", "")
    ensures m.screenSize == attr(FixedMonitorInfo, "Size", "")
    ensures m.productionWeek == attr(FixedMonitorInfo, "Date", "")
  {
    DeviceMonitor.SetInfoFromSelfDefine(DeviceMonitor.NewMonitor(), FixedMonitorInfo, attr)
  }

  /** With a setter that takes a present key's value, the panel is the 14-inch
      2160x1440 "LCD" with no vendor. */
  lemma FixedPanel(attr: Attr)
    requires forall info, k, old' :: attr(info, k, old') == (if k in info then info[k] else old')
    ensures var m := GeneratorMonitorDevice(attr);
            m.name == "LCD" && m.currentResolution == "2160x1440@60Hz"
            && m.supportResolution == "2160x1440@60Hz" && m.screenSize == "14 Inch" && m.vendor == ""
  {
    var info := FixedMonitorInfo;
    assert attr(info, "Name", "") == "LCD";
    assert attr(info, "CurResolution", "") == "2160x1440@60Hz";
    assert attr(info, "SupportResolution", "") == "2160x1440@60Hz";
    assert attr(info, "Size", "") == "14 Inch";
    assert "Vendor" !in info;
    assert attr(info, "Vendor", "") == "";
  }
}

=== FILE: page_driver_control.dfy ===
/** The driver install / uninstall dialog (PageDriverControl) as a state machine.
    Install pages: 0 choose a folder, 1 choose a package, 2 wait, then a result
    page. Uninstall pages: 0 warning, 1 wait, then a result page. The D-Bus
    service, the file system and the two choosing widgets are inputs. */
module PageDriverControl {
  const FOLDER_MISSING: string := "The selected folder does not exist, please select again"
  const FILE_MISSING: string := "The selected file does not exist, please select again"
  const NOT_DRIVER: string := "It is not a driver"
  const ARCH_MISMATCH: string := "Unmatched package architecture"

  /** What the first button (Cancel / Previous / OK) is connected to. */
  datatype FirstAction = CancelAction | BackAction | CloseAction

  /** Requests sent to the driver service or the device-info service, in order. */
  datatype Request =
    | LoadAllDrivers(includeSubdir: bool, path: string)
    | InstallDriver(name: string)
    | UninstallPrinter(vendor: string, model: string)
    | UninstallDriver(name: string)
    | RefreshDeviceInfo

  /** What the two choosing pages and the services answer when Next is clicked:
      the folder and whether it exists, the selected package, whether it exists,
      is a driver package, and matches the architecture. */
  datatype Choice = Choice(path: string, pathExists: bool, includeSubdir: bool,
                           name: string, nameExists: bool, isDriver: bool, archMatched: bool)

  /** `index` and `pageCount` describe the stacked widget; `buttons` holds the
      button texts; `refreshes` counts refreshInfo signals; `closing` is Qt's
      guard against re-entering close(). */
  datatype Dialog = Dialog(
    install: bool,
    driverName: string,
    printerVendor: string,
    printerModel: string,
    index: int,
    pageCount: int,
    buttons: seq<string>,
    first: FirstAction,
    nextEnabled: bool,
    pathTip: string,
    nameTip: string,
    resultText: string,
    isDoing: bool,
    isDone: bool,
    requests: seq<Request>,
    refreshes: nat,
    closing: bool,
    closed: bool)

  /** A freshly constructed dialog. */
  function NewDialog(install: bool, driverName: string, vendor: string, model: string): (d: Dialog)
    ensures d.index == 0 && !d.isDoing && !d.isDone && d.first == CancelAction && d.requests == []
  {
    Dialog(install, driverName, vendor, model, 0, if install then 3 else 2,
           if install then ["Cancel", "Next"] else ["Cancel", "Uninstall"], CancelAction, true,
           "", "", "", false, false, [], 0, false, false)
  }

  /** QStackedWidget::setCurrentIndex: an index without a page is ignored. */
  function SetIndex(d: Dialog, i: int): Dialog {
    if 0 <= i < d.pageCount then d.(index := i) else d
  }

  /** The tip page 1 shows for a selection, or "" when the selection is
      accepted. The driver-package test comes first, because the service also
      answers "no" for a missing file. */
  function PackageTip(c: Choice): string {
    if !c.isDriver then (if c.name == "" || !c.nameExists then FILE_MISSING else NOT_DRIVER)
    else if c.name == "" || !c.nameExists then FILE_MISSING
    else if !c.archMatched then ARCH_MISMATCH
    else ""
  }

  /** The tip's precedence in plain terms: a missing file always says so; an
      existing file that is no driver package says so next; then the
      architecture. */
  lemma PackageTipPrecedence(c: Choice)
    ensures (c.name == "" || !c.nameExists) ==> PackageTip(c) == FILE_MISSING
    ensures c.name != "" && c.nameExists && !c.isDriver ==> PackageTip(c) == NOT_DRIVER
    ensures c.name != "" && c.nameExists && c.isDriver && !c.archMatched ==> PackageTip(c) == ARCH_MISMATCH
    ensures PackageTip(c) == "" <==> c.name != "" && c.nameExists && c.isDriver && c.archMatched
  {
  }

  /** PageDriverControl::installDriverLogical; the flag says whether the
      installation was started. Only the folder page and the package page act. */
  function InstallDriverLogical(d: Dialog, c: Choice): (r: (Dialog, bool))
    requires d.pageCount >= 3
    ensures r.0.isDoing == d.isDoing && r.0.isDone == d.isDone
    ensures r.1 ==> d.index == 1
    ensures d.index != 0 && d.index != 1 ==> r == (d, false)
  {
    if d.index == 0 then (ChooseFolder(d, c), false)
    else if d.index == 1 then ChoosePackage(d, c)
    else (d, false)
  }

  /** The folder page: a missing folder shows a tip and stays; an existing one
      has its drivers listed and moves on to the package page, whose Update
      button starts disabled and whose first button leads back. */
  function ChooseFolder(d: Dialog, c: Choice): (r: Dialog)
    requires d.pageCount >= 3
    ensures r.isDoing == d.isDoing && r.isDone == d.isDone
    ensures c.path == "" || !c.pathExists ==>
              r == d.(pathTip := FOLDER_MISSING)
    ensures c.path != "" && c.pathExists ==>
              r.index == 1 && !r.nextEnabled && r.first == BackAction && r.pathTip == ""
              && r.requests == d.requests + [LoadAllDrivers(c.includeSubdir, c.path)]
  {
    var d1 := d.(pathTip := "");
    if c.path == "" || !c.pathExists then d1.(pathTip := FOLDER_MISSING)
    else
      var d2 := SetIndex(d1.(requests := d1.requests + [LoadAllDrivers(c.includeSubdir, c.path)]), 1);
      d2.(buttons := SetText(SetText(d2.buttons, 1, "Update"), 0, "Previous"),
          nextEnabled := false, first := BackAction)
  }

  /** The package page: a rejected selection shows its tip and stays; an
      accepted one removes the buttons, moves to the waiting page and asks the
      service to install it. */
  function ChoosePackage(d: Dialog, c: Choice): (r: (Dialog, bool))
    requires d.pageCount >= 3
    ensures r.1 <==> PackageTip(c) == ""
    ensures !r.1 ==> r.0 == d.(nameTip := PackageTip(c))
    ensures r.1 ==> r.0 == d.(nameTip := "", index := r.0.index, buttons := [], requests := r.0.requests)
    ensures r.1 ==> r.0.index == 2 && r.0.requests == d.requests + [InstallDriver(c.name)]
  {
    // the tip is cleared first and then set by the first check that fails
    var tip := PackageTip(c);
    if tip != "" then (d.(nameTip := tip), false)
    else (d.(nameTip := "", buttons := [], index := 2, requests := d.requests + [InstallDriver(c.name)]), true)
  }

  /** DDialog::setButtonText: a missing button is left alone. */
  function SetText(buttons: seq<string>, i: int, text: string): (r: seq<string>)
    ensures |r| == |buttons|
    ensures 0 <= i < |buttons| ==> r[i] == text
    ensures forall j :: 0 <= j < |buttons| && j != i ==> r[j] == buttons[j]
  {
    if 0 <= i < |buttons| then buttons[i := text] else buttons
  }

  /** PageDriverControl::uninstallDriverLogical: go to the waiting page and ask
      for the printer to be removed when a printer vendor is known, else the
      driver. The uninstallation is always started. */
  function UninstallDriverLogical(d: Dialog): (r: (Dialog, bool))
    ensures r.1
    ensures r.0 == d.(buttons := [], index := r.0.index, requests := r.0.requests)
    ensures r.0.index == (if 0 <= d.index + 1 < d.pageCount then d.index + 1 else d.index)
    ensures d.printerVendor != "" ==> r.0.requests == d.requests + [UninstallPrinter(d.printerVendor, d.printerModel)]
    ensures d.printerVendor == "" ==> r.0.requests == d.requests + [UninstallDriver(d.driverName)]
  {
    // setCurrentIndex ignores an index without a page
    var next := if 0 <= d.index + 1 < d.pageCount then d.index + 1 else d.index;
    var request := if |d.printerVendor| > 0 then UninstallPrinter(d.printerVendor, d.printerModel)
                   else UninstallDriver(d.driverName);
    (d.(buttons := [], index := next, requests := d.requests + [request]), true)
  }

  /** PageDriverControl::slotBtnNext as written: the dialog is marked busy
      whatever happened, even when validation stopped it on the same page. */
  function SlotBtnNextAsWritten(d: Dialog, c: Choice): (r: Dialog)
    requires d.install ==> d.pageCount >= 3
    ensures r.isDoing
  {
    var step := if d.install then InstallDriverLogical(d, c) else UninstallDriverLogical(d);
    step.0.(isDoing := true)
  }

  /** slotBtnNext corrected: the dialog is marked busy only when an installation
      or uninstallation was actually started. */
  function SlotBtnNext(d: Dialog, c: Choice): (r: Dialog)
    requires d.install ==> d.pageCount >= 3
    ensures r.isDoing <==> d.isDoing || (if d.install then InstallDriverLogical(d, c).1 else true)
    ensures r.(isDoing := true) == SlotBtnNextAsWritten(d, c)
  {
    var step := if d.install then InstallDriverLogical(d, c) else UninstallDriverLogical(d);
    if step.1 then step.0.(isDoing := true) else step.0
  }

  /** PageDriverControl::slotProcessEnd: a result page with an OK button (the
      first button once the others were removed, and then wired to slotClose);
      a device-info refresh after success; no longer busy, and done. */
  function SlotProcessEnd(d: Dialog, success: bool): (r: Dialog)
    ensures !r.isDoing && r.isDone
    ensures r.requests == d.requests + (if success then [RefreshDeviceInfo] else [])
    ensures r == d.(pageCount := r.pageCount, resultText := r.resultText, buttons := r.buttons, first := r.first,
                    index := r.index, requests := r.requests, isDoing := false, isDone := true)
  {
    var status := if d.install then (if success then "Update successful" else "Update failed")
                  else (if success then "Uninstallation successful" else "Uninstallation failed");
    // the new page makes index + 1 valid whenever index was
    var next := if 0 <= d.index + 1 < d.pageCount + 1 then d.index + 1 else d.index;
    d.(pageCount := d.pageCount + 1, resultText := status, buttons := d.buttons + ["OK"],
       // with buttons left, button 0 would get slotClose as a second connection;
       // `first` keeps only its earlier action (callers remove the buttons first)
       first := if |d.buttons| == 0 then CloseAction else d.first, index := next,
       requests := d.requests + (if success then [RefreshDeviceInfo] else []),
       isDoing := false, isDone := true)
  }

  /** The result page is appended and shown, with an OK button; a dialog that had
      no buttons left gets Close as its first action. */
  lemma SlotProcessEndPage(d: Dialog, success: bool)
    ensures var r := SlotProcessEnd(d, success);
            r.pageCount == d.pageCount + 1
            && (0 <= d.index < d.pageCount ==> r.index == d.index + 1)
            && r.buttons == d.buttons + ["OK"]
            && (d.buttons == [] ==> r.first == CloseAction)
  {
  }

  /** The result text names the operation and its outcome. */
  lemma SlotProcessEndText(d: Dialog, success: bool)
    ensures SlotProcessEnd(d, success).resultText
            == (if d.install then (if success then "Update successful" else "Update failed")
                else (if success then "Uninstallation successful" else "Uninstallation failed"))
  {
  }

  /** PageDriverControl::slotBackPathPage: back to the folder page with Next
      enabled and Cancel wired again. */
  function SlotBackPathPage(d: Dialog): (r: Dialog)
    requires d.pageCount >= 1
    ensures r.index == 0 && r.nextEnabled && r.first == CancelAction
    ensures r.isDoing == d.isDoing && r.isDone == d.isDone && r.requests == d.requests
  {
    d.(index := 0, nextEnabled := true, buttons := SetText(SetText(d.buttons, 1, "Next"), 0, "Cancel"),
       first := CancelAction)
  }

  /** Previous undoes an accepted folder: the folder page of a fresh install
      dialog comes back exactly as it was, except that the tip is cleared and
      the driver list request stays sent. */
  lemma BackUndoesChooseFolder(d: Dialog, c: Choice)
    requires d.pageCount >= 3 && d.index == 0 && d.nextEnabled && d.first == CancelAction
    requires d.buttons == ["Cancel", "Next"]
    requires c.path != "" && c.pathExists
    ensures SlotBackPathPage(ChooseFolder(d, c))
            == d.(pathTip := "", requests := d.requests + [LoadAllDrivers(c.includeSubdir, c.path)])
  {
    var f := ChooseFolder(d, c);
    assert f.buttons == ["Previous", "Update"];
    assert SetText(SetText(f.buttons, 1, "Next"), 0, "Cancel") == d.buttons;
  }

  /** PageDriverControl::closeEvent, entered from close(): busy ignores the
      close; done refreshes (the close() inside slotClose returns at once, since
      a close is already under way) and lets it through; otherwise it goes
      through. The flag says whether the close is accepted. */
  function CloseEvent(d: Dialog): (r: (Dialog, bool))
    ensures r.1 <==> !d.isDoing
    ensures r.0.refreshes == d.refreshes + (if !d.isDoing && d.isDone then 1 else 0)
    ensures r.0 == d.(refreshes := r.0.refreshes)
  {
    if d.isDoing then (d, false)
    else if d.isDone then (d.(refreshes := d.refreshes + 1), true)
    else (d, true)
  }

  /** QWidget::close: nothing while a close is under way; otherwise the close
      event decides whether the dialog closes. */
  function Close(d: Dialog): (r: Dialog)
    ensures d.closing ==> r == d
    ensures !d.closing ==> (r.closed <==> d.closed || !d.isDoing) && !r.closing
  {
    if d.closing then d
    else
      var e := CloseEvent(d.(closing := true));
      e.0.(closing := false, closed := d.closed || e.1)
  }

  /** PageDriverControl::slotClose (the OK button): refresh, then close. */
  function SlotClose(d: Dialog): (r: Dialog)
    requires !d.closing
    ensures r.closed <==> d.closed || !d.isDoing
  {
    Close(d.(refreshes := d.refreshes + 1))
  }

  /** Cancel on the first page. */
  function SlotBtnCancel(d: Dialog): Dialog {
    Close(d)
  }

  datatype Key = Escape | F4 | OtherKey
  datatype Modifier = Alt | Control | Shift | Meta

  /** Esc, or F4 with Alt among the modifiers, asks to close. */
  predicate IsCloseKey(key: Key, mods: set<Modifier>) {
    key == Escape || (key == F4 && mods != {} && Alt in mods)
  }

  /** PageDriverControl::keyPressEvent: a close key closes (with a refresh) only
      once the work is done; while busy, before starting, or for other keys,
      nothing happens. */
  function KeyPress(d: Dialog, key: Key, mods: set<Modifier>): (r: Dialog)
    requires !d.closing
    ensures !IsCloseKey(key, mods) || d.isDoing || !d.isDone ==> r == d
    ensures IsCloseKey(key, mods) && !d.isDoing && d.isDone ==> r.closed && r.refreshes == d.refreshes + 2
  {
    if !IsCloseKey(key, mods) then d
    else if d.isDoing then d
    else if d.isDone then SlotClose(d)
    else d
  }

  /** F4 counts only together with Alt. */
  lemma F4NeedsAlt(mods: set<Modifier>)
    ensures IsCloseKey(F4, mods) <==> Alt in mods
  {
  }

  // ------------------------------------------------------------------
  // The busy flag
  // ------------------------------------------------------------------

  /** The first page showing a folder that was chosen earlier and no longer
      exists. */
  function VanishedFolder(path: string): Choice {
    Choice(path, false, false, "", false, false, false)
  }

  /** As written: Next on the folder page with a vanished folder starts nothing,
      yet afterwards Cancel no longer closes the dialog. */
  lemma AsWrittenCancelIgnored(driverName: string, path: string)
    ensures var d := SlotBtnNextAsWritten(NewDialog(true, driverName, "", ""), VanishedFolder(path));
            d.requests == [] && d.index == 0 && d.pathTip == FOLDER_MISSING && !SlotBtnCancel(d).closed
  {
  }

  /** Corrected: the same click leaves the dialog closable by Cancel. */
  lemma CorrectedCancelCloses(driverName: string, path: string)
    ensures var d := SlotBtnNext(NewDialog(true, driverName, "", ""), VanishedFolder(path));
            d.requests == [] && d.index == 0 && d.pathTip == FOLDER_MISSING && SlotBtnCancel(d).closed
  {
  }

  /** A request that starts an installation or uninstallation. */
  predicate StartsWork(q: Request) {
    q.InstallDriver? || q.UninstallPrinter? || q.UninstallDriver?
  }

  /** The dialog is busy only right after it requested an installation or
      uninstallation. */
  predicate BusyMeansRunning(d: Dialog) {
    d.isDoing ==> |d.requests| > 0 && StartsWork(d.requests[|d.requests| - 1])
  }

  /** The corrected Next keeps that invariant; the process end clears the flag. */
  lemma NextKeepsBusyMeansRunning(d: Dialog, c: Choice)
    requires d.install ==> d.pageCount >= 3
    requires BusyMeansRunning(d) && !d.isDoing
    ensures BusyMeansRunning(SlotBtnNext(d, c))
  {
  }
}

=== FILE: page_info_widget.dfy ===
/** The device-information area (PageInfoWidget): four pages, of which the one
    fitting the selection is made visible and becomes the current page. */
module PageInfoWidget {
  import opened Wrappers
  import opened DeviceBase

  datatype Page = Overview | Single | Multi | Board

  /** A listed device matters here only for whether it is a BIOS record. */
  datatype DeviceKind = Bios | OtherDevice

  /** The calls the widget makes on its pages, in order. */
  datatype Call =
    | ClearWidgets(page: Page)
    | SetLabel(page: Page, text: string)
    | UpdateList(page: Page, devices: seq<DeviceKind>)
    | UpdateMap(page: Page, info: Info)
    | SetOverviewLabel(page: Page, overview: string, os: string)

  /** `current` is mp_PageInfo, null until a first update. */
  datatype Widget = Widget(current: Option<Page>, visible: set<Page>, calls: seq<Call>)

  function NewWidget(visible: set<Page>): Widget {
    Widget(None, visible, [])
  }

  /** setVisible on one page. */
  function SetVisible(w: Widget, p: Page, on: bool): (r: Widget)
    ensures p in r.visible <==> on
    ensures forall q :: q != p ==> (q in r.visible <==> q in w.visible)
    ensures r == w.(visible := r.visible)
  {
    w.(visible := if on then w.visible + {p} else w.visible - {p})
  }

  /** Exactly one page is visible, and it is the current one. */
  predicate ShowsOnly(w: Widget, p: Page) {
    w.current == Some(p) && w.visible == {p}
  }

  /** The page a device list calls for: the overview for none, the single page
      for one, and for several the board page when the first is a BIOS record,
      else the multi page. */
  function PageFor(lst: seq<DeviceKind>): Page {
    if |lst| == 0 then Overview
    else if |lst| == 1 then Single
    else if lst[0] == Bios then Board
    else Multi
  }

  /** PageInfoWidget::updateTable(const QString&, const QList&): clear the current
      page, switch the visibility of all four pages, and hand the label and the
      list to the page now current. The current page is cleared before anything
      else, so a current page must already exist. */
  function UpdateTableList(w: Widget, itemStr: string, lst: seq<DeviceKind>): (r: Widget)
    requires w.current.Some?
    ensures ShowsOnly(r, PageFor(lst))
    ensures r.calls == w.calls + [ClearWidgets(w.current.value), SetLabel(r.current.value, itemStr),
                                  UpdateList(r.current.value, lst)]
  {
    var w1 := w.(calls := w.calls + [ClearWidgets(w.current.value)]);
    var w2 :=
      if |lst| == 0 then
        SetVisible(SetVisible(SetVisible(SetVisible(w1, Overview, true), Single, false), Multi, false), Board, false)
          .(current := Some(Overview))
      else if |lst| == 1 then
        SetVisible(SetVisible(SetVisible(SetVisible(w1, Overview, false), Single, true), Multi, false), Board, false)
          .(current := Some(Single))
      else
        var w3 := SetVisible(SetVisible(w1, Overview, false), Single, false);
        if lst[0] == Bios then
          SetVisible(SetVisible(w3.(current := Some(Board)), Board, true), Multi, false)
        else
          SetVisible(SetVisible(w3.(current := Some(Multi)), Board, false), Multi, true);
    w2.(calls := w2.calls + [SetLabel(w2.current.value, itemStr), UpdateList(w2.current.value, lst)])
  }

  /** The selection rules, one per list shape. */
  lemma ListSelection(w: Widget, itemStr: string, lst: seq<DeviceKind>)
    requires w.current.Some?
    ensures |lst| == 0 ==> ShowsOnly(UpdateTableList(w, itemStr, lst), Overview)
    ensures |lst| == 1 ==> ShowsOnly(UpdateTableList(w, itemStr, lst), Single)
    ensures |lst| > 1 ==>
              (ShowsOnly(UpdateTableList(w, itemStr, lst), Board) <==> lst[0] == Bios)
              && (ShowsOnly(UpdateTableList(w, itemStr, lst), Multi) <==> lst[0] != Bios)
  {
  }

  /** PageInfoWidget::updateTable(const QMap&): always the overview page, which
      gets the map and then the "Overview" and "OS" entries as its labels (empty
      when absent; the map is const, so nothing is inserted). */
  function UpdateTableMap(w: Widget, m: Info): (r: Widget)
    ensures ShowsOnly(r, Overview)
    ensures r.calls == w.calls + [UpdateMap(Overview, m), SetOverviewLabel(Overview, Get(m, "Overview"), Get(m, "OS"))]
  {
    var w1 := SetVisible(SetVisible(SetVisible(SetVisible(w, Overview, true), Single, false), Multi, false), Board, false);
    var w2 := w1.(current := Some(Overview));
    w2.(calls := w2.calls + [UpdateMap(Overview, m), SetOverviewLabel(Overview, Get(m, "Overview"), Get(m, "OS"))])
  }

  /** After the map overload has run once, the list overload can be called. */
  lemma MapUpdateEnablesList(w: Widget, m: Info, itemStr: string, lst: seq<DeviceKind>)
    ensures UpdateTableMap(w, m).current.Some?
    ensures UpdateTableList(UpdateTableMap(w, m), itemStr, lst).calls[|w.calls| + 2] == ClearWidgets(Overview)
  {
  }
}

=== FILE: page_single_info.dfy ===
/** The single-device page (PageSingleInfo): the device's attribute pairs laid
    out in a two-column DetailTreeView, one pair per row, plus an empty last row. */
module PageSingleInfo {
  import opened DetailTreeView

  /** Attribute pairs (name, value) as DeviceBaseInfo::getBaseAttribs and
      getOtherAttribs return them. */
  type Pairs = seq<(string, string)>

  datatype Device = Device(baseAttribs: Pairs, otherAttribs: Pairs)

  /** The text toString gives back for a list of pairs. */
  function PairsText(lst: Pairs): string {
    if |lst| == 0 then "" else PairsText(lst[..|lst| - 1]) + PairLine(lst[|lst| - 1])
  }

  function PairLine(p: (string, string)): string {
    p.0 + " : " + p.1 + "\n"
  }

  /** Rows 0 .. |lst|-1 hold the pairs, name in column 0 and value in column 1. */
  predicate HoldsPairs(t: Table, lst: Pairs) {
    t.rows == |lst| + 1 && t.cols == 2
    && (forall i :: 0 <= i < |lst| ==>
          (i, 0) in t.cells && t.cells[(i, 0)] == lst[i].0
          && (i, 1) in t.cells && t.cells[(i, 1)] == lst[i].1)
  }

  /** PageSingleInfo::loadDeviceInfo. An empty list leaves the table alone;
      otherwise the table gets |lst| + 1 rows and 2 columns and each pair its row.
      The table's parent is the page itself, so setColumnAndRow only resizes. */
  method LoadDeviceInfo(t: Table, lst: Pairs) returns (r: Table)
    requires Valid(t) && t.parent == OtherParent
    ensures Valid(r)
    ensures |lst| == 0 ==> r == t
    ensures |lst| > 0 ==> HoldsPairs(r, lst)
    ensures |lst| > 0 ==> forall j :: 0 <= j < 2 ==> ((|lst|, j) in r.cells <==> (|lst|, j) in t.cells)
    ensures |lst| > 0 ==> r.height == FixedHeight(t.rowHeight * Min(|lst|, t.limit + 1))
    ensures |lst| > 0 && !t.expanded ==>
              (forall i :: 0 <= i < |lst| && t.limit <= i ==> i in r.hidden)
              && (t.limit < |lst| ==> |lst| !in r.hidden)
    ensures r.button == t.button && r.expanded == t.expanded
  {
    if |lst| < 1 {
      return t;
    }
    var s := SetColumnAndRow(t, |lst| + 1, 2);
    r := FillRows(s, lst);
  }

  /** The loop of loadDeviceInfo: one pair per row, top to bottom. */
  method FillRows(s: Table, lst: Pairs) returns (r: Table)
    requires Valid(s) && s.rows == |lst| + 1 && s.cols == 2 && |lst| > 0
    ensures Valid(r) && HoldsPairs(r, lst)
    ensures forall j :: 0 <= j < 2 ==> ((|lst|, j) in r.cells <==> (|lst|, j) in s.cells)
    ensures r.height == FixedHeight(s.rowHeight * Min(|lst|, s.limit + 1))
    ensures !s.expanded ==>
              (forall i :: 0 <= i < |lst| && s.limit <= i ==> i in r.hidden)
              && (s.limit < |lst| ==> |lst| !in r.hidden)
    ensures r.button == s.button && r.expanded == s.expanded
  {
    r := s;
    var i := 0;
    assert Filled(s, lst, r, 0);
    while i < |lst|
      invariant 0 <= i <= |lst|
      invariant Filled(s, lst, r, i)
    {
      FilledStep(s, lst, r, i);
      r := SetPair(r, i, lst[i]);
      i := i + 1;
    }
    FilledAll(s, lst, r);
  }

  /** Once every pair is in, the loop's invariant gives the table loadDeviceInfo promises. */
  lemma FilledAll(s: Table, lst: Pairs, r: Table)
    requires s.rows == |lst| + 1 && |lst| > 0
    requires Filled(s, lst, r, |lst|)
    ensures Valid(r) && HoldsPairs(r, lst)
    ensures forall j :: 0 <= j < 2 ==> ((|lst|, j) in r.cells <==> (|lst|, j) in s.cells)
    ensures r.height == FixedHeight(s.rowHeight * Min(|lst|, s.limit + 1))
    ensures !s.expanded ==>
              (forall i :: 0 <= i < |lst| && s.limit <= i ==> i in r.hidden)
              && (s.limit < |lst| ==> |lst| !in r.hidden)
    ensures r.button == s.button && r.expanded == s.expanded
  {
  }

  /** What the first i rounds of the loop have done to the table `s`. */
  predicate Filled(s: Table, lst: Pairs, r: Table, i: int)
    requires s.rows == |lst| + 1
  {
    0 <= i <= |lst| && Valid(r) && r.rows == s.rows && r.cols == 2 && r.limit == s.limit
    && r.rowHeight == s.rowHeight && r.expanded == s.expanded && r.button == s.button
    && FilledCells(lst, r, i) && LastRowKept(s, lst, r)
    && (i > 0 ==> r.height == FixedHeight(s.rowHeight * Min(i, s.limit + 1)))
    && FilledHidden(s, lst, r, i)
  }

  /** Rows 0 .. i-1 hold their pairs. */
  predicate FilledCells(lst: Pairs, r: Table, i: int)
    requires 0 <= i <= |lst|
  {
    forall k :: 0 <= k < i ==>
      (k, 0) in r.cells && r.cells[(k, 0)] == lst[k].0
      && (k, 1) in r.cells && r.cells[(k, 1)] == lst[k].1
  }

  /** The last row's items are those of `s`. */
  predicate LastRowKept(s: Table, lst: Pairs, r: Table) {
    forall j :: 0 <= j < 2 ==> ((|lst|, j) in r.cells <==> (|lst|, j) in s.cells)
  }

  /** While collapsed, the filled rows past the limit are hidden and, once one
      of them was filled, the last row is visible. */
  predicate FilledHidden(s: Table, lst: Pairs, r: Table, i: int) {
    (!s.expanded ==> forall k :: 0 <= k < i && s.limit <= k ==> k in r.hidden)
    && (!s.expanded && 0 < i && s.limit < i ==> |lst| !in r.hidden)
  }

  /** One more round keeps the loop's invariant. */
  lemma FilledStep(s: Table, lst: Pairs, r: Table, i: int)
    requires s.rows == |lst| + 1 && 0 <= i < |lst|
    requires Filled(s, lst, r, i)
    ensures Valid(r) && r.cols == 2 && 0 <= i < r.rows - 1
    ensures Filled(s, lst, SetPair(r, i, lst[i]), i + 1)
  {
    var r2 := SetPair(r, i, lst[i]);
    assert FilledCells(lst, r2, i + 1) && LastRowKept(s, lst, r2) by { FilledCellsStep(s, lst, r, i); }
    assert r2.height == FixedHeight(s.rowHeight * Min(i + 1, s.limit + 1)) by { SetPairHeight(r, i, lst[i]); }
    assert FilledHidden(s, lst, r2, i + 1) by { FilledHiddenStep(s, lst, r, i); }
  }

  lemma FilledCellsStep(s: Table, lst: Pairs, r: Table, i: int)
    requires 0 <= i < |lst| && Valid(r) && r.cols == 2 && r.rows == |lst| + 1
    requires FilledCells(lst, r, i) && LastRowKept(s, lst, r)
    ensures FilledCells(lst, SetPair(r, i, lst[i]), i + 1) && LastRowKept(s, lst, SetPair(r, i, lst[i]))
  {
    SetPairCells(r, i, lst[i]);
  }

  lemma FilledHiddenStep(s: Table, lst: Pairs, r: Table, i: int)
    requires 0 <= i < |lst| && Valid(r) && r.cols == 2 && r.rows == |lst| + 1
    requires r.expanded == s.expanded && r.limit == s.limit
    requires FilledHidden(s, lst, r, i)
    ensures FilledHidden(s, lst, SetPair(r, i, lst[i]), i + 1)
  {
    SetPairHidden(r, i, lst[i]);
  }

  /** The two setItem calls for one pair, on a two-column table. */
  function SetPair(t: Table, i: int, p: (string, string)): (r: Table)
    requires Valid(t) && t.cols == 2 && 0 <= i < t.rows - 1
    ensures Valid(r)
    ensures r == t.(height := r.height, cells := r.cells, hidden := r.hidden)
  {
    SetItem(SetItem(t, i, 0, p.0), i, 1, p.1)
  }

  /** The pair lands in row i; every other row keeps its items. */
  lemma SetPairCells(t: Table, i: int, p: (string, string))
    requires Valid(t) && t.cols == 2 && 0 <= i < t.rows - 1
    ensures var r := SetPair(t, i, p);
            (i, 0) in r.cells && r.cells[(i, 0)] == p.0 && (i, 1) in r.cells && r.cells[(i, 1)] == p.1
            && (forall c: (int, int) :: c.0 != i ==> (c in r.cells <==> c in t.cells))
            && (forall c: (int, int) :: c.0 != i && c in t.cells ==> r.cells[c] == t.cells[c])
  {
  }

  /** The height covers rows 0 .. i, up to limit + 1 rows. */
  lemma SetPairHeight(t: Table, i: int, p: (string, string))
    requires Valid(t) && t.cols == 2 && 0 <= i < t.rows - 1
    ensures SetPair(t, i, p).height == FixedHeight(t.rowHeight * Min(i + 1, t.limit + 1))
  {
  }

  /** While collapsed, a row at or past the limit is hidden and the last row
      shown; no other row changes. */
  lemma SetPairHidden(t: Table, i: int, p: (string, string))
    requires Valid(t) && t.cols == 2 && 0 <= i < t.rows - 1
    ensures var r := SetPair(t, i, p);
            (forall k :: k != i && k != t.rows - 1 ==> (k in r.hidden <==> k in t.hidden))
            && (!t.expanded && t.limit <= i ==> i in r.hidden && t.rows - 1 !in r.hidden)
            && (t.expanded || i < t.limit ==> r.hidden == t.hidden)
  {
    var u := SetItem(t, i, 0, p.0);
    assert Valid(u) && u.rows == t.rows && u.limit == t.limit && u.expanded == t.expanded;
    assert u.hidden == OverflowHidden(t, i);
    assert SetPair(t, i, p).hidden == OverflowHidden(u, i);
  }

  /** PageSingleInfo::updateInfo: clear the table, then load the first device's
      base attributes followed by its other attributes. The list must not be
      empty: its first element is read unchecked. */
  method UpdateInfo(t: Table, devices: seq<Device>) returns (r: Table)
    requires Valid(t) && t.parent == OtherParent
    requires |devices| > 0
    ensures Valid(r)
    ensures var lst := devices[0].baseAttribs + devices[0].otherAttribs;
            (|lst| == 0 ==> r == Clear(t))
            && (|lst| > 0 ==> HoldsPairs(r, lst) && (|lst|, 0) !in r.cells && (|lst|, 1) !in r.cells)
  {
    var lst := devices[0].baseAttribs + devices[0].otherAttribs;
    var c := Clear(t);
    r := LoadDeviceInfo(c, lst);
  }

  /** The round trip: a table holding the pairs, with nothing in its last row,
      prints as "name : value\n" for each pair in order. */
  lemma LoadedTableText(t: Table, lst: Pairs)
    requires HoldsPairs(t, lst) && (|lst|, 0) !in t.cells && (|lst|, 1) !in t.cells
    ensures RowsText(t, t.rows) == PairsText(lst)
  {
    PrefixText(t, lst, |lst|);
    assert lst[..|lst|] == lst;
    EmptyRowText(t, |lst|, 2);
  }

  lemma {:induction false} PrefixText(t: Table, lst: Pairs, k: nat)
    requires HoldsPairs(t, lst) && k <= |lst|
    ensures RowsText(t, k) == PairsText(lst[..k])
  {
    if k > 0 {
      PrefixText(t, lst, k - 1);
      assert lst[..k][..k - 1] == lst[..k - 1];
      RowOfPair(t, k - 1, lst[k - 1]);
    }
  }

  /** A row holding a pair prints as that pair's line. */
  lemma RowOfPair(t: Table, i: int, p: (string, string))
    requires (i, 0) in t.cells && t.cells[(i, 0)] == p.0
    requires (i, 1) in t.cells && t.cells[(i, 1)] == p.1
    ensures RowText(t, i, 2) == PairLine(p)
  {
    assert RowText(t, i, 1) == p.0 + " : ";
    assert RowText(t, i, 2) == (p.0 + " : ") + (p.1 + "\n");
  }

  /** Updating the page and printing its table gives back the device's pairs,
      base attributes first. */
  method UpdateThenPrint(t: Table, devices: seq<Device>) returns (s: string)
    requires Valid(t) && t.parent == OtherParent
    requires |devices| > 0
    ensures s == PairsText(devices[0].baseAttribs + devices[0].otherAttribs)
  {
    var r := UpdateInfo(t, devices);
    s := ToString(r);
    var lst := devices[0].baseAttribs + devices[0].otherAttribs;
    if |lst| > 0 {
      LoadedTableText(r, lst);
    }
  }
}

=== FILE: qdate.dfy ===
/** The slice of QDate used by DeviceMonitor::transWeekToDate: the proleptic
    Gregorian calendar without a year 0 (year -1 is followed by year 1), day
    arithmetic, and the "yyyy-MM" format. QDate holds years in a signed 32-bit
    integer; a date past either end of that range is invalid. */
module QDate {
  import opened QStr

  /** Qt's leap-year test: years before 1 are shifted by one, so that 1 BC (-1)
      behaves like year 0 of the arithmetic calendar. */
  predicate IsLeap(y: int) {
    var z := if y < 1 then y + 1 else y;
    z % 4 == 0 && (z % 100 != 0 || z % 400 == 0)
  }

  function YearLength(y: int): (n: int)
    ensures n == 365 || n == 366
  {
    if IsLeap(y) then 366 else 365
  }

  function NextYear(y: int): int {
    if y == -1 then 1 else y + 1
  }

  function PrevYear(y: int): int {
    if y == 1 then -1 else y - 1
  }

  function MonthLength(y: int, m: int): (n: int)
    requires 1 <= m <= 12
    ensures 28 <= n <= 31
  {
    if m == 2 then (if IsLeap(y) then 29 else 28)
    else if m == 4 || m == 6 || m == 9 || m == 11 then 30
    else 31
  }

  /** Day `k` counted from January 1 of year `y` (k may be negative or exceed the
      year), as a year and a zero-based day of that year. */
  function Normalize(y: int, k: int): (r: (int, int))
    requires y != 0
    ensures r.0 != 0 && 0 <= r.1 < YearLength(r.0)
    ensures 0 <= k < YearLength(y) ==> r == (y, k)
    decreases if k < 0 then 1 else 0, if k < 0 then -k else k
  {
    if k < 0 then Normalize(PrevYear(y), k + YearLength(PrevYear(y)))
    else if k >= YearLength(y) then Normalize(NextYear(y), k - YearLength(y))
    else (y, k)
  }

  /** The month (1-12) holding zero-based day `day` of year `y`, scanning from month `m`. */
  function MonthOf(y: int, day: int, m: int): (r: int)
    requires 1 <= m <= 12
    ensures m <= r <= 12
    decreases 12 - m
  {
    if m == 12 || day < MonthLength(y, m) then m
    else MonthOf(y, day - MonthLength(y, m), m + 1)
  }

  /** A digit string left-padded with zeros to at least `width` characters. */
  function ZeroPad(s: string, width: nat): (r: string)
    ensures |r| >= width && |r| >= |s|
    ensures r[|r| - |s|..] == s
    ensures forall i :: 0 <= i < |r| - |s| ==> r[i] == '0'
    decreases width - |s|
  {
    if |s| >= width then s else ZeroPad("0" + s, width)
  }

  /** The "yyyy" field: at least four digits, a minus sign before negative years. */
  function YearText(y: int): string {
    if y < 0 then "-" + ZeroPad(NatToString(-y), 4) else ZeroPad(NatToString(y), 4)
  }

  /** The "yyyy-MM" text of a year and a month. */
  function FormatYearMonth(y: int, m: nat): string {
    YearText(y) + "-" + ZeroPad(NatToString(m), 2)
  }

  /** The position of a year on the arithmetic year line, where year 0 is 1 BC. */
  function YearIndex(y: int): int {
    if y < 0 then y + 1 else y
  }

  /** Moving forward by k >= 0 days passes at most k / 365 year boundaries, and
      moving back by -k days at most -k / 365 + 1. */
  lemma {:induction false} NormalizeYearBound(y: int, k: int)
    requires y != 0
    ensures k >= 0 ==> YearIndex(y) <= YearIndex(Normalize(y, k).0) <= YearIndex(y) + k / 365
    ensures k < 0 ==> YearIndex(y) - (-k) / 365 - 1 <= YearIndex(Normalize(y, k).0) <= YearIndex(y) - 1
    decreases if k < 0 then 1 else 0, if k < 0 then -k else k
  {
    if k < 0 {
      var p := PrevYear(y);
      var k' := k + YearLength(p);
      NormalizeYearBound(p, k');
      assert YearIndex(p) == YearIndex(y) - 1;
      if k' < 0 {
        assert (-k') / 365 <= (-k) / 365 - 1;
      }
    } else if k >= YearLength(y) {
      var n := NextYear(y);
      NormalizeYearBound(n, k - YearLength(y));
      assert YearIndex(n) == YearIndex(y) + 1;
      assert (k - YearLength(y)) / 365 <= k / 365 - 1;
    }
  }

  /** The years QDate can represent: its Julian-day range runs from January 1 of
      year -2147483648 to December 31 of year 2147483647. */
  predicate InRange(y: int) {
    InInt32(y)
  }

  /** QDate(y, 1, 1).addDays(offset).toString("yyyy-MM"). Year 0 makes an invalid
      date, so does a result outside QDate's range, and an invalid date formats as
      the empty string. */
  function YearMonthAfter(y: int, offset: int): (s: string)
    ensures s == "" <==> y == 0 || !InRange(Normalize(y, offset).0)
  {
    if y == 0 then ""
    else
      var (year, day) := Normalize(y, offset);
      if !InRange(year) then ""
      else FormatYearMonth(year, MonthOf(year, day, 1))
  }

  /** Moving past the end of a year that ends the range leaves the range. */
  lemma PastLastYear(y: int, offset: int)
    requires y == INT_MAX && YearLength(y) <= offset < YearLength(y) + 365
    ensures YearMonthAfter(y, offset) == ""
  {
    var n := Normalize(NextYear(y), offset - YearLength(y));
    assert Normalize(y, offset) == n;
    assert n.0 == y + 1 by {
      assert 0 <= offset - YearLength(y) < YearLength(y + 1);
    }
  }

  /** A non-zero year at least `margin` years inside the range, moved by fewer
      than 365 * margin - 365 days in either direction, gives a date. */
  lemma YearMonthAfterInside(y: int, offset: int, margin: nat)
    requires y != 0 && margin >= 2
    requires INT_MIN + margin <= y <= INT_MAX - margin
    requires -365 * (margin - 2) <= offset <= 365 * (margin - 1)
    ensures YearMonthAfter(y, offset) != ""
  {
    NormalizeYearBound(y, offset);
  }

  /** Within the first year the date keeps the year; past its end it rolls over
      into the next year with the remaining days. */
  lemma YearMonthAfterRollsOver(y: int, off: int)
    requires y != 0
    ensures 0 <= off < YearLength(y) && InRange(y) ==>
              YearMonthAfter(y, off) == FormatYearMonth(y, MonthOf(y, off, 1))
    ensures 0 <= off < YearLength(y) && !InRange(y) ==> YearMonthAfter(y, off) == ""
    ensures YearLength(y) <= off < YearLength(y) + YearLength(NextYear(y)) && InRange(NextYear(y)) ==>
              YearMonthAfter(y, off)
              == FormatYearMonth(NextYear(y), MonthOf(NextYear(y), off - YearLength(y), 1))
    ensures YearLength(y) <= off < YearLength(y) + YearLength(NextYear(y)) && !InRange(NextYear(y)) ==>
              YearMonthAfter(y, off) == ""
  {
    if 0 <= off < YearLength(y) && InRange(y) {
      WithinYear(y, off);
    } else if YearLength(y) <= off < YearLength(y) + YearLength(NextYear(y)) {
      IntoNextYear(y, off);
    }
  }

  lemma WithinYear(y: int, off: int)
    requires y != 0 && InRange(y) && 0 <= off < YearLength(y)
    ensures YearMonthAfter(y, off) == FormatYearMonth(y, MonthOf(y, off, 1))
  {
    YearMonthAfterOf(y, off, y, off);
  }

  lemma IntoNextYear(y: int, off: int)
    requires y != 0
    requires YearLength(y) <= off < YearLength(y) + YearLength(NextYear(y))
    ensures InRange(NextYear(y)) ==>
              YearMonthAfter(y, off)
              == FormatYearMonth(NextYear(y), MonthOf(NextYear(y), off - YearLength(y), 1))
    ensures !InRange(NextYear(y)) ==> YearMonthAfter(y, off) == ""
  {
    NormalizeNextYear(y, off);
    YearMonthAfterOf(y, off, NextYear(y), off - YearLength(y));
  }

  /** YearMonthAfter once the normalised date is known. */
  lemma YearMonthAfterOf(y: int, off: int, year: int, day: int)
    requires y != 0 && Normalize(y, off) == (year, day)
    ensures 0 <= day < YearLength(year)
    ensures YearMonthAfter(y, off) == if InRange(year) then FormatYearMonth(year, MonthOf(year, day, 1)) else ""
  {
  }

  lemma NormalizeNextYear(y: int, off: int)
    requires y != 0
    requires YearLength(y) <= off < YearLength(y) + YearLength(NextYear(y))
    ensures Normalize(y, off) == (NextYear(y), off - YearLength(y))
  {
  }
}

=== FILE: qstring.dfy ===
/** The part of QString's behaviour the device manager relies on, over `string`
    (a sequence of UTF-16 code units is modelled as a sequence of chars).

    Case mapping is modelled for ASCII letters only and white space for the
    C0/Latin-1 range only; QString applies the full Unicode tables. */
module QStr {
  import opened Wrappers

  // ------------------------------------------------------------------
  // Characters
  // ------------------------------------------------------------------

  /** QChar::isSpace restricted to the C0/Latin-1 range: tab, line feed, vertical tab,
      form feed, carriage return, space, next line and no-break space. */
  predicate IsSpace(c: char) {
    c == '\t' || c == '\n' || c == '\U{0B}' || c == '\U{0C}' || c == '\r'
    || c == ' ' || c == '\U{85}' || c == '\U{A0}'
  }

  predicate IsDigit(c: char) {
    '0' <= c <= '9'
  }

  /** The class `[a-zA-Z]` of the device manager's regular expressions. */
  predicate IsLetter(c: char) {
    'a' <= c <= 'z' || 'A' <= c <= 'Z'
  }

  function LowerChar(c: char): char {
    if 'A' <= c <= 'Z' then (c as int + 32) as char else c
  }

  /** QString::toLower, for ASCII letters. */
  function Lower(s: string): string {
    seq(|s|, i requires 0 <= i < |s| => LowerChar(s[i]))
  }

  // ------------------------------------------------------------------
  // Searching
  // ------------------------------------------------------------------

  /** `sub` occurs in `s` starting at index `i`. */
  predicate OccursAt(s: string, sub: string, i: int) {
    0 <= i && i + |sub| <= |s| && s[i..i + |sub|] == sub
  }

  lemma OccursShift(s: string, sub: string)
    requires |s| > 0
    ensures forall j {:trigger OccursAt(s, sub, j)} :: 1 <= j ==>
              (OccursAt(s, sub, j) <==> OccursAt(s[1..], sub, j - 1))
  {
    forall j | 1 <= j
      ensures OccursAt(s, sub, j) <==> OccursAt(s[1..], sub, j - 1)
    {
      if j + |sub| <= |s| {
        assert s[1..][j - 1..j - 1 + |sub|] == s[j..j + |sub|];
      }
    }
  }

  /** QString::indexOf / std::string::find: the first index at which `sub` occurs, or -1. */
  function IndexOf(s: string, sub: string): (r: int)
    ensures r == -1 || OccursAt(s, sub, r)
    ensures forall j :: 0 <= j && (r == -1 || j < r) ==> !OccursAt(s, sub, j)
    decreases |s|
  {
    if |s| < |sub| then -1
    else if s[..|sub|] == sub then 0
    else
      var k := IndexOf(s[1..], sub);
      OccursShift(s, sub);
      if k < 0 then -1 else k + 1
  }

  /** QString::contains (case-sensitive). The empty string is contained in every string. */
  predicate Contains(s: string, sub: string) {
    IndexOf(s, sub) >= 0
  }

  lemma ContainsIff(s: string, sub: string, i: int)
    requires OccursAt(s, sub, i)
    ensures Contains(s, sub)
  {
  }

  /** QString::contains with Qt::CaseInsensitive. */
  predicate ContainsCI(s: string, sub: string) {
    Contains(Lower(s), Lower(sub))
  }

  predicate StartsWith(s: string, prefix: string) {
    |prefix| <= |s| && s[..|prefix|] == prefix
  }

  lemma OccursInPrefix(s: string, sub: string, n: int, j: int)
    requires 0 <= n <= |s|
    requires OccursAt(s[..n], sub, j)
    ensures OccursAt(s, sub, j) && j + |sub| <= n
  {
    assert s[..n][j..j + |sub|] == s[j..j + |sub|];
  }

  // ------------------------------------------------------------------
  // Splitting and joining
  // ------------------------------------------------------------------

  /** QString::split(sep) with the default Qt::KeepEmptyParts: every separator cuts,
      so n separators give n + 1 parts, empty ones included. */
  function Split(s: string, sep: string): (parts: seq<string>)
    requires |sep| > 0
    ensures |parts| >= 1
    ensures forall i :: 0 <= i < |parts| ==> !Contains(parts[i], sep)
    decreases |s|
  {
    var i := IndexOf(s, sep);
    if i < 0 then [s]
    else
      var head := s[..i];
      assert !Contains(head, sep) by {
        var j := IndexOf(head, sep);
        if j >= 0 {
          OccursInPrefix(s, sep, i, j);
        }
      }
      [head] + Split(s[i + |sep|..], sep)
  }

  /** A string without the separator splits into itself alone. */
  lemma SplitWithoutSeparator(s: string, sep: string)
    requires |sep| > 0 && !Contains(s, sep)
    ensures Split(s, sep) == [s]
  {
  }

  /** A string none of whose characters is `c` does not contain [c]. */
  lemma LacksChar(s: string, c: char)
    requires forall i :: 0 <= i < |s| ==> s[i] != c
    ensures !Contains(s, [c])
  {
    forall j | 0 <= j < |s|
      ensures !OccursAt(s, [c], j)
    {
      assert s[j..j + 1] == [s[j]];
    }
  }

  /** Splitting at the first separator: the part before it, then the parts of the rest. */
  lemma SplitAtFirst(s: string, sep: string, i: int)
    requires |sep| > 0 && IndexOf(s, sep) == i && i >= 0
    ensures Split(s, sep) == [s[..i]] + Split(s[i + |sep|..], sep)
  {
    assert IndexOf(s, sep) >= 0;
  }

  /** Splitting at a first single-character separator. */
  lemma SplitFirst(a: string, c: char, rest: string)
    requires !Contains(a, [c])
    ensures Split(a + [c] + rest, [c]) == [a] + Split(rest, [c])
  {
    var s := a + [c] + rest;
    assert OccursAt(s, [c], |a|);
    forall j | 0 <= j < |a|
      ensures !OccursAt(s, [c], j)
    {
      assert s[j..j + 1] == a[j..j + 1];
      if OccursAt(s, [c], j) {
        ContainsIff(a, [c], j);
      }
    }
    assert IndexOf(s, [c]) == |a|;
    assert s[..|a|] == a;
    assert s[|a| + 1..] == rest;
  }

  /** A single-character separator occurring once splits a string into two parts. */
  lemma SplitOnce(a: string, c: char, b: string)
    requires !Contains(a, [c]) && !Contains(b, [c])
    ensures Split(a + [c] + b, [c]) == [a, b]
  {
    SplitFirst(a, c, b);
    SplitWithoutSeparator(b, [c]);
  }

  /** A last single-character separator adds the part after it to the parts of
      the text before it. */
  lemma {:induction false} SplitAppend(a: string, c: char, b: string)
    requires !Contains(b, [c])
    ensures Split(a + [c] + b, [c]) == Split(a, [c]) + [b]
    decreases |a|
  {
    var i := IndexOf(a, [c]);
    if i < 0 {
      SplitOnce(a, c, b);
    } else {
      SplitAppend(a[i + 1..], c, b);
      SplitAppendStep(a, c, b, i);
    }
  }

  /** The inductive step of SplitAppend: the head before the first separator
      comes first on both sides. */
  lemma SplitAppendStep(a: string, c: char, b: string, i: int)
    requires IndexOf(a, [c]) == i && i >= 0
    requires Split(a[i + 1..] + [c] + b, [c]) == Split(a[i + 1..], [c]) + [b]
    ensures Split(a + [c] + b, [c]) == Split(a, [c]) + [b]
  {
    var head, rest := a[..i], a[i + 1..];
    var tail := rest + [c] + b;
    FirstSeparator(a, c, i);
    Regroup(head, c, rest, b);
    SplitFirst(head, c, tail);
  }

  lemma Regroup(h: string, c: char, r: string, b: string)
    ensures h + [c] + r + [c] + b == h + [c] + (r + [c] + b)
  {
  }

  /** The first single-character separator cuts a string into a separator-free
      head and the rest. */
  lemma FirstSeparator(a: string, c: char, i: int)
    requires IndexOf(a, [c]) == i && i >= 0
    ensures a == a[..i] + [c] + a[i + 1..]
    ensures !Contains(a[..i], [c])
    ensures Split(a, [c]) == [a[..i]] + Split(a[i + 1..], [c])
  {
    assert OccursAt(a, [c], i);
    assert a[i..i + 1] == [c];
    SplitAtFirst(a, [c], i);
    assert Split(a, [c])[0] == a[..i];
  }

  /** Two single-character separators split a string into three parts. */
  lemma SplitTwice(a: string, c: char, b: string, d: string)
    requires !Contains(a, [c]) && !Contains(b, [c]) && !Contains(d, [c])
    ensures Split(a + [c] + b + [c] + d, [c]) == [a, b, d]
  {
    SplitAppend(a + [c] + b, c, d);
    SplitOnce(a, c, b);
  }

  /** QStringList::join. */
  function Join(parts: seq<string>, sep: string): string
    decreases |parts|
  {
    if |parts| == 0 then ""
    else if |parts| == 1 then parts[0]
    else parts[0] + sep + Join(parts[1..], sep)
  }

  /** Splitting at `sep` loses nothing: joining the parts with `sep` restores the string. */
  lemma {:induction false} JoinSplit(s: string, sep: string)
    requires |sep| > 0
    ensures Join(Split(s, sep), sep) == s
    decreases |s|
  {
    var i := IndexOf(s, sep);
    if i >= 0 {
      var rest := s[i + |sep|..];
      var tail := Split(rest, sep);
      assert Split(s, sep) == [s[..i]] + tail by { SplitAtFirst(s, sep, i); }
      assert Join(tail, sep) == rest by { JoinSplit(rest, sep); }
      assert Join([s[..i]] + tail, sep) == s[..i] + sep + Join(tail, sep) by { JoinCons(s[..i], tail, sep); }
      assert s == s[..i] + sep + rest by {
        assert OccursAt(s, sep, i);
        assert s == s[..i] + s[i..i + |sep|] + rest;
      }
    } else {
      SplitWithoutSeparator(s, sep);
    }
  }

  /** Joining a part in front of a non-empty list puts one separator between. */
  lemma JoinCons(head: string, tail: seq<string>, sep: string)
    requires |tail| > 0
    ensures Join([head] + tail, sep) == head + sep + Join(tail, sep)
  {
    assert ([head] + tail)[1..] == tail;
  }

  /** The non-empty members of `parts`, in order. */
  function NonEmpty(parts: seq<string>): (r: seq<string>)
    ensures |r| <= |parts|
    ensures forall i :: 0 <= i < |r| ==> r[i] != "" && r[i] in parts
    decreases |parts|
  {
    if |parts| == 0 then []
    else if parts[0] == "" then NonEmpty(parts[1..])
    else [parts[0]] + NonEmpty(parts[1..])
  }

  /** Dropping empty parts keeps a list that has none. */
  lemma {:induction false} NonEmptyKeepsFull(parts: seq<string>)
    requires forall i :: 0 <= i < |parts| ==> parts[i] != ""
    ensures NonEmpty(parts) == parts
    decreases |parts|
  {
    if |parts| > 0 {
      NonEmptyKeepsFull(parts[1..]);
      assert [parts[0]] + parts[1..] == parts;
    }
  }

  /** QString::split(sep, Qt::SkipEmptyParts). */
  function SplitSkipEmpty(s: string, sep: string): (parts: seq<string>)
    requires |sep| > 0
    ensures forall i :: 0 <= i < |parts| ==> parts[i] != "" && !Contains(parts[i], sep)
  {
    NonEmpty(Split(s, sep))
  }

  // ------------------------------------------------------------------
  // Replacing
  // ------------------------------------------------------------------

  /** QString::replace(before, after): scans left to right and replaces every
      non-overlapping occurrence of `pat`. QString::remove(pat) is `ReplaceAll(s, pat, "")`. */
  function ReplaceAll(s: string, pat: string, rep: string): string
    requires |pat| > 0
    decreases |s|
  {
    if |s| < |pat| then s
    else if s[..|pat|] == pat then rep + ReplaceAll(s[|pat|..], pat, rep)
    else [s[0]] + ReplaceAll(s[1..], pat, rep)
  }

  lemma {:induction false} ReplaceAllSkipsPrefix(s: string, pat: string, rep: string, n: int)
    requires |pat| > 0 && 0 <= n <= |s|
    requires forall j :: 0 <= j < n ==> !OccursAt(s, pat, j)
    ensures ReplaceAll(s, pat, rep) == s[..n] + ReplaceAll(s[n..], pat, rep)
    decreases n
  {
    if n > 0 {
      assert !OccursAt(s, pat, 0);
      assert |s| >= |pat| ==> s[..|pat|] != pat by {
        if |s| >= |pat| { assert s[..|pat|] == s[0..|pat|]; }
      }
      if |s| < |pat| {
        assert s[..n] + s[n..] == s;
        // no occurrence fits: the tail is returned unchanged as well
        assert ReplaceAll(s[n..], pat, rep) == s[n..];
      } else {
        OccursShift(s, pat);
        forall j | 0 <= j < n - 1
          ensures !OccursAt(s[1..], pat, j)
        {
          assert !OccursAt(s, pat, j + 1);
        }
        ReplaceAllSkipsPrefix(s[1..], pat, rep, n - 1);
        assert s[1..][..n - 1] == s[1..n];
        assert s[1..][n - 1..] == s[n..];
        assert [s[0]] + s[1..n] == s[..n];
      }
    }
  }

  /** Replacement agrees with splitting at the pattern and joining with the replacement. */
  lemma {:induction false} ReplaceAllIsJoinSplit(s: string, pat: string, rep: string)
    requires |pat| > 0
    ensures ReplaceAll(s, pat, rep) == Join(Split(s, pat), rep)
    decreases |s|
  {
    var i := IndexOf(s, pat);
    if i < 0 {
      ReplaceAllSkipsPrefix(s, pat, rep, |s|);
      assert s[|s|..] == "";
      assert s[..|s|] == s;
    } else {
      ReplaceAllSkipsPrefix(s, pat, rep, i);
      var rest := s[i + |pat|..];
      assert s[i..][..|pat|] == pat;
      assert s[i..][|pat|..] == rest;
      ReplaceAllIsJoinSplit(rest, pat, rep);
      var tail := Split(rest, pat);
      assert Split(s, pat) == [s[..i]] + tail;
      assert ([s[..i]] + tail)[1..] == tail;
    }
  }

  // ------------------------------------------------------------------
  // Whitespace
  // ------------------------------------------------------------------

  function TrimStart(s: string): (r: string)
    ensures |r| <= |s| && r == s[|s| - |r|..]
    ensures forall i :: 0 <= i < |s| - |r| ==> IsSpace(s[i])
    ensures |r| > 0 ==> !IsSpace(r[0])
    decreases |s|
  {
    if |s| > 0 && IsSpace(s[0]) then TrimStart(s[1..]) else s
  }

  function TrimEnd(s: string): (r: string)
    ensures |r| <= |s| && r == s[..|r|]
    ensures forall i :: |r| <= i < |s| ==> IsSpace(s[i])
    ensures |r| > 0 ==> !IsSpace(r[|r| - 1])
    decreases |s|
  {
    if |s| > 0 && IsSpace(s[|s| - 1]) then TrimEnd(s[..|s| - 1]) else s
  }

  /** QString::trimmed: leading and trailing whitespace removed. */
  function Trim(s: string): (r: string)
    ensures |r| <= |s|
    ensures |r| > 0 ==> !IsSpace(r[0]) && !IsSpace(r[|r| - 1])
    ensures (forall i :: 0 <= i < |s| ==> IsSpace(s[i])) <==> r == ""
  {
    var a := TrimStart(s);
    var r := TrimEnd(a);
    assert r == "" ==> a == "";
    r
  }

  /** A string whose ends are not whitespace is its own trimmed form. */
  lemma TrimOfTrimmed(s: string)
    requires |s| > 0 ==> !IsSpace(s[0]) && !IsSpace(s[|s| - 1])
    ensures Trim(s) == s
  {
  }

  /** The maximal whitespace-free prefix of `s`. */
  function WordPrefix(s: string): (w: string)
    ensures |w| <= |s| && w == s[..|w|]
    ensures forall i :: 0 <= i < |w| ==> !IsSpace(s[i])
    ensures |w| < |s| ==> IsSpace(s[|w|])
    decreases |s|
  {
    if |s| > 0 && !IsSpace(s[0]) then [s[0]] + WordPrefix(s[1..]) else ""
  }

  /** A non-empty run of non-whitespace characters. */
  predicate IsWord(w: string) {
    |w| > 0 && forall j :: 0 <= j < |w| ==> !IsSpace(w[j])
  }

  /** A string starting with a non-space character starts with a word. */
  lemma WordPrefixIsWord(t: string)
    requires |t| > 0 && !IsSpace(t[0])
    ensures IsWord(WordPrefix(t))
  {
    var w := WordPrefix(t);
    forall j | 0 <= j < |w|
      ensures !IsSpace(w[j])
    {
      assert w[j] == t[j];
    }
  }

  /** The whitespace-separated words of `s`. */
  function Words(s: string): (ws: seq<string>)
    ensures forall i :: 0 <= i < |ws| ==> IsWord(ws[i])
    decreases |s|
  {
    var t := TrimStart(s);
    if |t| == 0 then []
    else
      var w := WordPrefix(t);
      assert IsWord(w) && |w| <= |t| <= |s| by { WordPrefixIsWord(t); }
      var ws := Words(t[|w|..]);
      WordsCons(w, ws);
      [w] + ws
  }

  /** A word in front of a list of words gives a list of words. */
  lemma WordsCons(w: string, ws: seq<string>)
    requires IsWord(w) && forall i :: 0 <= i < |ws| ==> IsWord(ws[i])
    ensures forall i :: 0 <= i < |ws| + 1 ==> IsWord(([w] + ws)[i])
  {
    forall i | 0 <= i < |ws| + 1
      ensures IsWord(([w] + ws)[i])
    {
      if i > 0 {
        assert ([w] + ws)[i] == ws[i - 1];
      }
    }
  }

  /** QString::simplified: the words of `s` separated by single spaces. */
  function Simplified(s: string): string {
    Join(Words(s), " ")
  }

  // ------------------------------------------------------------------
  // Numbers
  // ------------------------------------------------------------------

  const INT_MAX: int := 2147483647
  const INT_MIN: int := -2147483648

  predicate InInt32(v: int) {
    INT_MIN <= v <= INT_MAX
  }

  predicate AllDigits(s: string) {
    forall i :: 0 <= i < |s| ==> IsDigit(s[i])
  }

  function DigitValue(c: char): nat
    requires IsDigit(c)
  {
    c as int - '0' as int
  }

  /** The value of a decimal digit string (the empty string has value 0). */
  function DigitsValue(s: string): nat
    requires AllDigits(s)
    decreases |s|
  {
    if |s| == 0 then 0 else 10 * DigitsValue(s[..|s| - 1]) + DigitValue(s[|s| - 1])
  }

  /** The longest prefix of ASCII digits. */
  function DigitPrefix(s: string): (d: string)
    ensures |d| <= |s| && d == s[..|d|] && AllDigits(d)
    ensures |d| < |s| ==> !IsDigit(s[|d|])
    decreases |s|
  {
    if |s| > 0 && IsDigit(s[0]) then [s[0]] + DigitPrefix(s[1..]) else ""
  }

  /** QString::toInt() in base 10: surrounding whitespace is ignored, one optional sign
      is accepted, and anything else, or a value outside the 32-bit range, gives 0. */
  function ToInt(s: string): (r: int)
    ensures InInt32(r)
  {
    var t := Trim(s);
    var signed := |t| > 0 && (t[0] == '-' || t[0] == '+');
    var body := if signed then t[1..] else t;
    if |body| == 0 || !AllDigits(body) then 0
    else
      var v: int := if signed && t[0] == '-' then 0 - DigitsValue(body) as int else DigitsValue(body) as int;
      if InInt32(v) then v else 0
  }

  function DigitChar(d: nat): (c: char)
    requires d < 10
    ensures IsDigit(c) && DigitValue(c) == d
  {
    ('0' as int + d) as char
  }

  /** Decimal text of a natural number, no leading zeros. */
  function NatToString(n: nat): (s: string)
    ensures |s| > 0 && AllDigits(s)
    decreases n
  {
    if n < 10 then [DigitChar(n)] else NatToString(n / 10) + [DigitChar(n % 10)]
  }

  /** QString::number(int). */
  function IntToString(i: int): (s: string)
    ensures |s| > 0 && !IsSpace(s[0]) && IsDigit(s[|s| - 1])
  {
    if i < 0 then "-" + NatToString(-i) else NatToString(i)
  }

  lemma {:induction false} DigitsOfNatToString(n: nat)
    ensures DigitsValue(NatToString(n)) == n
    decreases n
  {
    var s := NatToString(n);
    if n >= 10 {
      DigitsOfNatToString(n / 10);
      assert s[..|s| - 1] == NatToString(n / 10);
    }
  }

  /** QString::toInt reads back what QString::number wrote, for every 32-bit value. */
  lemma ToIntOfIntToString(i: int)
    requires InInt32(i)
    ensures ToInt(IntToString(i)) == i
  {
    var s := IntToString(i);
    TrimOfTrimmed(s);
    if i < 0 {
      DigitsOfNatToString(-i);
      assert s[1..] == NatToString(-i);
    } else {
      DigitsOfNatToString(i);
    }
  }

  // ------------------------------------------------------------------
  // QString::arg
  // ------------------------------------------------------------------

  /** The escape that starts at the '%' at index i, read as QString::arg reads it:
      an optional 'L', then one or two digits giving its number. The second
      component is where reading resumes: after the digits, or at the character
      that should have been a digit. Only a '%' starts an escape and an escape
      consumes no '%' after its first, so every '%' starts one. */
  function EscapeAt(s: string, i: nat): (r: (Option<nat>, nat))
    requires i < |s| && s[i] == '%'
    ensures i < r.1 <= |s|
    ensures '%' !in s[i + 1..r.1]
    ensures r.0.Some? ==> r.0.value < 100 && IsDigit(s[r.1 - 1])
  {
    var j := if i + 1 < |s| && s[i + 1] == 'L' then i + 2 else i + 1;
    if j == |s| then (None, |s|)
    else if !IsDigit(s[j]) then (None, j)
    else if j + 1 < |s| && IsDigit(s[j + 1]) then (Some(10 * DigitValue(s[j]) + DigitValue(s[j + 1])), j + 2)
    else (Some(DigitValue(s[j])), j + 1)
  }

  /** There is an escape numbered n at index i. */
  predicate EscapeNumbered(s: string, i: int, n: nat) {
    0 <= i < |s| && s[i] == '%' && EscapeAt(s, i).0 == Some(n)
  }

  /** The lowest escape number in s[from..], the one QString::arg replaces. */
  function MinEscape(s: string, from: nat): (r: Option<nat>)
    requires from <= |s|
    ensures r.Some? ==> r.value < 100
    decreases |s| - from
  {
    if from == |s| then None
    else if s[from] != '%' then MinEscape(s, from + 1)
    else
      var (e, next) := EscapeAt(s, from);
      var rest := MinEscape(s, next);
      match e
      case None => rest
      case Some(n) => if rest.Some? && rest.value <= n then rest else Some(n)
  }

  /** s[from..] with every escape numbered n replaced by `a`; the inserted text is
      not read again. */
  function Substitute(s: string, from: nat, n: nat, a: string): (r: string)
    requires from <= |s|
    decreases |s| - from
  {
    if from == |s| then ""
    else if s[from] != '%' then [s[from]] + Substitute(s, from + 1, n, a)
    else
      var (e, next) := EscapeAt(s, from);
      if e == Some(n) then a + Substitute(s, next, n, a)
      else s[from..next] + Substitute(s, next, n, a)
  }

  /** QString::arg(a) with no field width: the escapes with the lowest number are
      replaced by `a`; a text without escapes comes back unchanged. */
  function Arg(s: string, a: string): (r: string)
    ensures MinEscape(s, 0).None? ==> r == s
  {
    match MinEscape(s, 0)
    case None => s
    case Some(n) => Substitute(s, 0, n, a)
  }

  /** MinEscape names an escape that occurs in s[from..], and no escape there has
      a lower number. */
  lemma {:induction false} MinEscapeIsLowest(s: string, from: nat)
    requires from <= |s|
    ensures MinEscape(s, from).Some? ==>
              exists i :: from <= i < |s| && EscapeNumbered(s, i, MinEscape(s, from).value)
    ensures forall i, n :: from <= i < |s| && EscapeNumbered(s, i, n) ==>
              MinEscape(s, from).Some? && MinEscape(s, from).value <= n
    decreases |s| - from
  {
    if from < |s| {
      if s[from] != '%' {
        MinEscapeIsLowest(s, from + 1);
      } else {
        var next := EscapeAt(s, from).1;
        MinEscapeIsLowest(s, next);
        if EscapeAt(s, from).0.Some? {
          assert EscapeNumbered(s, from, EscapeAt(s, from).0.value);
        }
        assert forall k :: from < k < next ==> s[k] != '%' by {
          forall k | from < k < next
            ensures s[k] != '%'
          {
            assert s[k] == s[from + 1..next][k - from - 1];
          }
        }
      }
    }
  }

  /** With no escape numbered n in s[from..], Substitute copies it unchanged. */
  lemma {:induction false} SubstituteWithoutEscape(s: string, from: nat, n: nat, a: string)
    requires from <= |s|
    requires forall i :: from <= i < |s| ==> !EscapeNumbered(s, i, n)
    ensures Substitute(s, from, n, a) == s[from..]
    decreases |s| - from
  {
    if from < |s| {
      if s[from] != '%' {
        SubstituteWithoutEscape(s, from + 1, n, a);
        assert s[from..] == [s[from]] + s[from + 1..];
      } else {
        var next := EscapeAt(s, from).1;
        assert !EscapeNumbered(s, from, n);
        SubstituteWithoutEscape(s, next, n, a);
        assert s[from..] == s[from..next] + s[next..];
      }
    }
  }

  /** A text in which nothing is an escape passes through QString::arg unchanged. */
  lemma ArgWithoutEscape(s: string, a: string)
    requires forall i, n :: 0 <= i < |s| ==> !EscapeNumbered(s, i, n)
    ensures Arg(s, a) == s
  {
    MinEscapeIsLowest(s, 0);
  }

  /** A stretch without '%' is copied as it is and holds no escape. */
  lemma SubstituteSkipsPlain(s: string, from: nat, to: nat, n: nat, a: string)
    requires from <= to <= |s| && '%' !in s[from..to]
    ensures Substitute(s, from, n, a) == s[from..to] + Substitute(s, to, n, a)
    ensures MinEscape(s, from) == MinEscape(s, to)
  {
    CopyPlain(s, from, to, n, a);
    ScanPlain(s, from, to);
  }

  lemma {:induction false} CopyPlain(s: string, from: nat, to: nat, n: nat, a: string)
    requires from <= to <= |s| && '%' !in s[from..to]
    ensures Substitute(s, from, n, a) == s[from..to] + Substitute(s, to, n, a)
    decreases |s| - from
  {
    if from < to {
      assert s[from] == s[from..to][0];
      assert s[from + 1..to] == s[from..to][1..];
      assert Substitute(s, from, n, a) == [s[from]] + Substitute(s, from + 1, n, a);
      CopyPlain(s, from + 1, to, n, a);
      assert s[from..to] == [s[from]] + s[from + 1..to];
    }
  }

  lemma {:induction false} ScanPlain(s: string, from: nat, to: nat)
    requires from <= to <= |s| && '%' !in s[from..to]
    ensures MinEscape(s, from) == MinEscape(s, to)
    decreases |s| - from
  {
    if from < to {
      assert s[from] == s[from..to][0];
      assert s[from + 1..to] == s[from..to][1..];
      ScanPlain(s, from + 1, to);
    }
  }

  /** Text before the first '%' passes through QString::arg unchanged. */
  lemma ArgKeepsPlainPrefix(s: string, k: nat, a: string)
    requires k <= |s| && '%' !in s[..k]
    ensures |Arg(s, a)| >= k && Arg(s, a)[..k] == s[..k]
  {
    match MinEscape(s, 0)
    case None =>
    case Some(n) =>
      assert s[0..k] == s[..k];
      SubstituteSkipsPlain(s, 0, k, n, a);
  }

  /** The one-digit escape `%d` standing at index |p| of p + ['%', d] + q. */
  lemma OneDigitEscape(p: string, d: char, q: string)
    requires IsDigit(d) && (|q| == 0 || !IsDigit(q[0]))
    ensures EscapeAt(p + ['%', d] + q, |p|) == (Some(DigitValue(d)), |p| + 2)
  {
    var s := p + ['%', d] + q;
    assert s[|p|] == '%' && s[|p| + 1] == d;
    assert |q| > 0 ==> s[|p| + 2] == q[0];
  }

  /** Reading an escape numbered k that ends at j. */
  lemma ScanEscape(s: string, i: nat, k: nat, j: nat)
    requires i < |s| && s[i] == '%' && EscapeAt(s, i) == (Some(k), j)
    ensures MinEscape(s, i) == if MinEscape(s, j).Some? && MinEscape(s, j).value <= k then MinEscape(s, j) else Some(k)
  {
  }

  /** Copying past an escape numbered k that ends at j. */
  lemma CopyEscape(s: string, i: nat, k: nat, j: nat, n: nat, a: string)
    requires i < |s| && s[i] == '%' && EscapeAt(s, i) == (Some(k), j)
    ensures Substitute(s, i, n, a) == (if k == n then a else s[i..j]) + Substitute(s, j, n, a)
  {
  }

  /** The escape at i is the only one in s. */
  lemma ArgAtOnlyEscape(s: string, i: nat, j: nat, n: nat, a: string)
    requires i < j <= |s| && s[i] == '%' && EscapeAt(s, i) == (Some(n), j)
    requires '%' !in s[..i] && '%' !in s[j..]
    ensures Arg(s, a) == s[..i] + a + s[j..]
  {
    assert s[0..i] == s[..i] && s[j..|s|] == s[j..];
    assert MinEscape(s, 0) == Some(n) by {
      ScanPlain(s, 0, i);
      ScanPlain(s, j, |s|);
      ScanEscape(s, i, n, j);
    }
    CopyPlain(s, 0, i, n, a);
    CopyEscape(s, i, n, j, n, a);
    CopyPlain(s, j, |s|, n, a);
  }

  /** A text with a single escape gets the argument in its place. */
  lemma ArgOfSingleEscape(p: string, d: char, q: string, a: string)
    requires '%' !in p && '%' !in q
    requires IsDigit(d) && (|q| == 0 || !IsDigit(q[0]))
    ensures Arg(p + ['%', d] + q, a) == p + a + q
  {
    var s := p + ['%', d] + q;
    OneDigitEscape(p, d, q);
    assert s[..|p|] == p && s[|p| + 2..] == q;
    ArgAtOnlyEscape(s, |p|, |p| + 2, DigitValue(d), a);
  }

  /** Of two escapes the lower-numbered one is replaced and the other is kept. */
  lemma ArgOfTwoEscapes(p: string, d1: char, m: string, d2: char, q: string, a: string)
    requires '%' !in p && '%' !in m && '%' !in q
    requires IsDigit(d1) && IsDigit(d2) && d1 < d2
    requires |m| > 0 && !IsDigit(m[0]) && (|q| == 0 || !IsDigit(q[0]))
    ensures Arg(p + ['%', d1] + m + ['%', d2] + q, a) == p + a + m + ['%', d2] + q
  {
    var pm, rest := p + ['%', d1] + m, m + ['%', d2] + q;
    var s := pm + ['%', d2] + q;
    assert s == p + ['%', d1] + rest;
    OneDigitEscape(pm, d2, q);
    OneDigitEscape(p, d1, rest);
    TwoEscapesLayout(p, d1, m, d2, q);
    TwoEscapes(s, |p|, |pm|, DigitValue(d1), DigitValue(d2), a);
  }

  lemma TwoEscapesLayout(p: string, d1: char, m: string, d2: char, q: string)
    ensures var s := p + ['%', d1] + m + ['%', d2] + q;
            var i, j := |p|, |p| + 2 + |m|;
            s[..i] == p && s[i + 2..j] == m && s[j + 2..] == q && s[i + 2..] == m + ['%', d2] + q
            && s[i] == '%' && s[j] == '%'
  {
  }

  /** The escapes at i (numbered n1, ending at i + 2) and j (numbered n2 > n1)
      are the only ones in s. */
  lemma TwoEscapes(s: string, i: nat, j: nat, n1: nat, n2: nat, a: string)
    requires i + 2 <= j && j + 2 <= |s| && n1 < n2
    requires s[i] == '%' && EscapeAt(s, i) == (Some(n1), i + 2)
    requires s[j] == '%' && EscapeAt(s, j) == (Some(n2), j + 2)
    requires '%' !in s[..i] && '%' !in s[i + 2..j] && '%' !in s[j + 2..]
    ensures Arg(s, a) == s[..i] + a + s[i + 2..]
  {
    TwoEscapesScan(s, i, j, n1, n2);
    TwoEscapesKeepSecond(s, i, j, n1, n2, a);
    assert s[0..i] == s[..i];
    CopyPlain(s, 0, i, n1, a);
    CopyEscape(s, i, n1, i + 2, n1, a);
  }

  lemma TwoEscapesScan(s: string, i: nat, j: nat, n1: nat, n2: nat)
    requires i + 2 <= j && j + 2 <= |s| && n1 < n2
    requires s[i] == '%' && EscapeAt(s, i) == (Some(n1), i + 2)
    requires s[j] == '%' && EscapeAt(s, j) == (Some(n2), j + 2)
    requires '%' !in s[..i] && '%' !in s[i + 2..j] && '%' !in s[j + 2..]
    ensures MinEscape(s, 0) == Some(n1)
  {
    assert MinEscape(s, j) == Some(n2) by {
      assert s[j + 2..|s|] == s[j + 2..];
      ScanPlain(s, j + 2, |s|);
      ScanEscape(s, j, n2, j + 2);
    }
    assert s[0..i] == s[..i];
    ScanPlain(s, 0, i);
    ScanPlain(s, i + 2, j);
    ScanEscape(s, i, n1, i + 2);
  }

  lemma TwoEscapesKeepSecond(s: string, i: nat, j: nat, n1: nat, n2: nat, a: string)
    requires i + 2 <= j && j + 2 <= |s| && n1 < n2
    requires s[j] == '%' && EscapeAt(s, j) == (Some(n2), j + 2)
    requires '%' !in s[i + 2..j] && '%' !in s[j + 2..]
    ensures Substitute(s, i + 2, n1, a) == s[i + 2..]
  {
    var tail := Substitute(s, j + 2, n1, a);
    assert tail == s[j + 2..] by {
      assert s[j + 2..|s|] == s[j + 2..];
      CopyPlain(s, j + 2, |s|, n1, a);
    }
    var mid := Substitute(s, j, n1, a);
    assert mid == s[j..j + 2] + tail by {
      CopyEscape(s, j, n2, j + 2, n1, a);
    }
    CopyPlain(s, i + 2, j, n1, a);
    Regroup3(s, i + 2, j, j + 2);
  }

  /** s[a..] split at b and c. */
  lemma Regroup3(s: string, a: nat, b: nat, c: nat)
    requires a <= b <= c <= |s|
    ensures s[a..] == s[a..b] + (s[b..c] + s[c..])
  {
  }
}

=== FILE: url_chooser_edit.dfy ===
/** The folder chooser of the driver-install page (UrlChooserEdit): a read-only
    line edit showing the (elided) chosen folder and a button opening a folder
    dialog. */
module UrlChooserEdit {
  import opened QStr

  /** What QStorageInfo reports for a path. */
  datatype Storage = Storage(valid: bool, device: string)

  /** `shown` is the line edit's text, `elided` mp_elidParh, `folderPath`
      mp_folderPath; `signals` are the arguments of signalNotLocalFolder, in
      order, and `alerts` counts the alert messages shown. */
  datatype Chooser = Chooser(shown: string, folderPath: string, elided: string, alert: bool,
                             signals: seq<bool>, alerts: nat)

  /** A constructed chooser: the home path everywhere. */
  function NewChooser(home: string): (c: Chooser)
    ensures Text(c) == home && c.shown == c.elided == home && c.signals == []
  {
    Chooser(home, home, home, false, [], 0)
  }

  /** UrlChooserEdit::text. */
  function Text(c: Chooser): string {
    c.folderPath
  }

  /** A folder is local when its storage is valid and lives on a "/dev/" device. */
  predicate IsLocal(s: Storage) {
    s.valid && StartsWith(s.device, "/dev/")
  }

  /** UrlChooserEdit::checkLocalFolder, on the stored folder path: clear the
      alert, raise it (with a message) when the folder is not local, and report
      whether it is. */
  function CheckLocalFolder(c: Chooser, storage: string -> Storage): (r: Chooser)
    ensures r.signals == c.signals + [IsLocal(storage(c.folderPath))]
    ensures r.alert <==> !IsLocal(storage(c.folderPath))
    ensures r.alerts == c.alerts + (if IsLocal(storage(c.folderPath)) then 0 else 1)
    ensures r == c.(alert := r.alert, signals := r.signals, alerts := r.alerts)
  {
    var info := storage(c.folderPath);
    var c1 := c.(alert := false);
    if !info.valid || !StartsWith(info.device, "/dev/") then
      c1.(alert := true, alerts := c1.alerts + 1, signals := c1.signals + [false])
    else
      c1.(signals := c1.signals + [true])
  }

  /** UrlChooserEdit::slotChooseUrl with the dialog's answer `path` ("" when
      cancelled) and the font metrics' eliding as parameters. A cancelled dialog
      keeps the previous folder and its elided text. */
  function ChooseUrl(c: Chooser, path: string, elide: string -> string, storage: string -> Storage): (r: Chooser)
    ensures path == "" ==> Text(r) == Text(c) && r.elided == c.elided
    ensures path != "" ==> Text(r) == path && r.elided == elide(path)
    ensures r.shown == r.elided
    ensures |r.signals| == |c.signals| + 1 && r.signals[..|c.signals|] == c.signals
    ensures r.signals[|c.signals|] <==> IsLocal(storage(Text(r)))
    ensures r.alert <==> !IsLocal(storage(Text(r)))
  {
    var floderPath := elide(path);
    var shownText := if path == "" then c.elided else floderPath;
    var folder := if path == "" then c.folderPath else path;
    var c1 := c.(shown := shownText, elided := shownText, folderPath := folder);
    CheckLocalFolder(c1, storage)
  }

  /** Choosing twice, the second time cancelling, leaves the first choice. */
  lemma CancelKeepsChoice(c: Chooser, path: string, elide: string -> string, storage: string -> Storage)
    requires path != ""
    ensures var r := ChooseUrl(ChooseUrl(c, path, elide, storage), "", elide, storage);
            Text(r) == path && r.shown == elide(path)
  {
  }

  /** Whatever was chosen, the signal just sent and the alert disagree: the alert
      is up exactly when the signal says "not local". */
  lemma SignalMatchesAlert(c: Chooser, path: string, elide: string -> string, storage: string -> Storage)
    ensures var r := ChooseUrl(c, path, elide, storage);
            r.signals[|r.signals| - 1] == !r.alert
  {
  }
}

=== FILE: wrappers.dfy ===
/** Failure-carrying result types shared by the device manager model. */
module Wrappers {

  /** A value that may be absent (a null pointer, a failed regular-expression match). */
  datatype Option<+T> = None | Some(value: T) {
    function GetOr(default: T): T {
      match this
      case Some(v) => v
      case None => default
    }
  }

  /** The outcome of an operation that can crash the program (a division by zero,
      an out-of-range `std::string::substr`). */
  datatype Result<+T> = Ok(value: T) | Crash(reason: string)
}
